=== FILE: README.md ===
# otg-sports-api, modelled in Dafny

A model of the core of a small sports-data service. The service has two halves.

The ingest half pulls soccer and basketball fixtures from the Goalserve feed. It normalises each fixture's free-text fields into a typed row and reconciles that row with a table keyed on the upstream `match_id`.

The read half is an HTTP API. API-key authentication, a per-key token-bucket rate limit and a per-sport scope check guard filtered, paged and "live" match listings, league listings and DTO mappings. A CORS middleware sits in front, and a CLI command issues keys.

Module layout (one file per module):

- `wrappers`, `text`, `calendar`, `json`, `json_number` hold shared pieces:
  - `Option`/`Result`;
  - Go's `strconv` integer parsing and 32-bit truncation;
  - `strings.Split`/`TrimSpace`;
  - the `time.Parse` layouts the code uses (`02.01.2006`, `15:04`, `02.01.2006 15:04`, `Jan 2 2006 15:04`), and the database's reading of a date parameter (`YYYY-MM-DD`, or `MM.DD.YYYY` month first under `DateStyle = 'ISO, MDY'`);
  - a JSON value type;
  - the `float64` range test that `encoding/json` applies to every number it decodes into `interface{}` (`json_number`).
- `goalserve` models the feed's record types. It also models the three decoders that collapse the feed's "one object, an array, or nothing" quirk into a list. The soccer wrapper type in `soccer_models.go` is a line-for-line copy of the generic one, so the same decoder models both.
- `feed_client` models envelope unwrapping (`scores`), the seven-day fetch loops and the day selectors.
- `store`, `batch`, `normalize`, `soccer_sync`, `basketball_sync` cover the insert-or-update rule, field normalisation, the layered date fallback and the batch fold that counts inserts, updates and skips.
- `schema`, `key_store` hold the table rows and their invariants (unique `match_id`, unique `key_hash`, column widths), plus the API-key queries. A `varchar(n)` column cuts a longer value to n characters when only spaces lie beyond them, and refuses it otherwise. That refusal, like a rate limit outside 32 bits, happens while the statement is planned, before the identity default is drawn, so it spends no identity value. A duplicate `key_hash` is refused only when the row is written, and spends one.
- `encoding`, `api_keys` cover base64url without padding (section 5 of RFC 4648) and lowercase hex (section 8 of RFC 4648) with their round trips, and key issuance (`sk_live_` + 43 characters, SHA-256 digest, 12-character display prefix).
- `http`, `auth`, `rate_limit`, `gateway`, `cors` model the middleware. Each one is a function from request and state to `Next(context)` or `Stop(reply)`. `gateway` composes them in the router's order: authentication, then rate limit, then sport scope.
- `query_params`, `dto`, `sorting`, `queries`, `apikey_create` cover query-parameter clamping, the model-to-DTO mappings, and the semantics of the SQL listings over an in-memory table in scan order. They also cover sports-list parsing in the key-creation command.

External effects are parameters:

- SHA-256 is a function `string -> Digest`.
- The random source is an `Option<Bytes32>`, where `None` means `crypto/rand` failed.
- The clock is an integer `now`, and the sync run's year is `currentYear`.
- Every HTTP reply of the feed is an oracle `Selector -> Reply`.
- Whether a database statement fails before it runs (a lost connection, say) is a `DbFault` oracle. In a sync run it is indexed by the record's position in the run, so each record gets its own answer even when two records are equal. Constraint refusals are not oracles: the model decides them from the row.

The month-name fallback of the soccer sync takes its year from the clock, not from the fixture. `Normalize.YearBoundaryMisdated` shows the consequence: a run on 1 January dates the previous evening's `Dec 31` fixture a year ahead. The model keeps that behaviour.

## Model

| member | source | states |
|---|---|---|
| Goalserve.OneOrMany | internal/goalserve/models.go:36-52 | the raw `match` value is one of three shapes. An array decodes element by element. A lone object decodes to a one-element list, or fails as the object fails. Anything else, including absent or null, is the empty list. |
| Goalserve.DecodeMatches | internal/goalserve/models.go:26-53 | null `matches` is the empty list, a non-object fails, and an object is decoded through its `match` key alone |
| Goalserve.BareMatchAsArray | internal/goalserve/models.go:37-47 | a bare match object and a one-element array holding it decode to the same result |
| Goalserve.NoMatchIsEmpty | internal/goalserve/models.go:50-52 | an absent or null `match` key decodes to the empty list without error |
| Goalserve.MalformedBareMatchFails | internal/goalserve/models.go:43-45 | a bare match object whose fields have the wrong JSON type makes the whole decode fail |
| Goalserve.DecodeBasketballMatches | internal/goalserve/basketball_models.go:27-45 | the value itself is inspected, with no wrapper key. An array decodes element-wise, an object becomes a one-element list, and any other shape is the empty list. |
| Goalserve.BareBasketballMatchAsArray | internal/goalserve/basketball_models.go:29-39 | a single basketball match object and a one-element array of it decode equally |
| FeedClient.SelectorPath | internal/goalserve/client.go:45 | today's selector is `home`, past day n is `d-` followed by n's digits, and future day n is `d` followed by n's digits |
| FeedClient.SelectorPathInjective | internal/goalserve/client.go:62 | distinct day selectors give distinct URL path segments |
| FeedClient.Unwrap | internal/goalserve/client.go:121-160 | success iff the reply is status 200 with a JSON object whose every number fits a `float64`, carrying `scores` that decodes; the result is then that decode. Transport failure and a non-200 status give their own errors. An object holding an out-of-range number anywhere is a malformed body, and a `null` body counts as a missing `scores` key. |
| FeedClient.OnlyScoresMatters | internal/goalserve/client.go:139-158 | when the other top-level fields decode into `interface{}` at all, they never affect the result |
| FeedClient.OutOfRangeNumberFailsFetch | internal/goalserve/client.go:139-142 | a member `"x": 1e400` fails the whole fetch as a malformed body, whatever `scores` holds |
| JsonNumber.IntegerTextsFit | internal/goalserve/client.go:139-140 | an integer written in decimal decodes into a `float64` iff its magnitude is below 2^1024 - 2^970 |
| JsonNumber.PowerOfTenTexts | internal/goalserve/client.go:139-140 | `1e<e>` decodes into a `float64` iff e is at most 308 |
| FeedClient.FetchSevenDays | internal/goalserve/client.go:53-84 | exactly seven attempts for days 1 to 7 in order, past or future. The result is the merge of the successful days and never an error. |
| FeedClient.MergedAppend | internal/goalserve/client.go:72-73 | merging is concatenation in day order, so the merge of a split sequence of attempts is the concatenation of the two merges |
| FeedClient.FailedDaySkipped | internal/goalserve/client.go:66-70 | a failed day contributes nothing and does not disturb the days around it |
| FeedClient.MergedAllFailed | internal/goalserve/client.go:83 | when every day fails the merged result is empty, not an error |
| FeedClient.MergedAllSucceeded | internal/goalserve/client.go:92-107 | when every day succeeds, the merge is the days' categories end to end: its length is the sum of the days' counts, and day i's categories sit right after those of the days before it |
| Store.Reconcile | internal/services/match_sync.go:182-248 | a key absent from the table inserts the stored form of the new row under the next identity and reports true. A present key stores the refreshed row and reports false. A fault, or a row the columns refuse, fails and leaves the whole table, identity counter included, as it was. Only an insert that stores its row advances the identity. |
| Store.RefusedInsertSpendsNoIdentity | migrations/schema.ts:15 | after a refused insert, the next inserted row takes the identity value the refused one would have had |
| Store.ReconcilePreservesOk | migrations/schema.ts:15-16 | the table invariant (one row per `match_id`, distinct identities below the next one, column widths) survives every reconcile |
| Store.StoredKeyNeverReinserted | migrations/schema.ts:16 | once a key was reconciled successfully, a later reconcile of that key never inserts a second row |
| Batch.Fold | internal/services/match_sync.go:43-56 | inserted plus updated plus skipped equals the number of records folded |
| Batch.Count | internal/services/match_sync.go:45-54 | a failed record is skipped and keeps the table. An insert or update advances the table and bumps its own counter. |
| Batch.FoldAppend | internal/services/match_sync.go:42-78 | folding today's records and then the future records equals one fold over the concatenation |
| Batch.FoldAllSkipped | internal/services/match_sync.go:46-49 | when every record fails, the table is unchanged and every record counts as skipped |
| Batch.FoldPreserves | internal/services/match_sync.go:43-77 | any table invariant each step keeps is kept by the whole batch |
| Batch.SyncRun | internal/services/match_sync.go:30-82 | a failed today-fetch ends the run before any upsert. Otherwise today's records and, when that fetch succeeded, the future records are folded, and a failed future fetch is ignored. |
| Batch.TodayThenFuture | internal/services/match_sync.go:59-78 | with a successful future fetch, the run is today's fold followed by the future fold on the resulting table |
| Normalize.LenientId | internal/services/match_sync.go:92-98 | the value `strconv.ParseInt` returns with its error ignored. An id that parses keeps its value. A range error gives the 64-bit bound on the number's side. A syntax error gives 0. |
| Normalize.LenientIdOfDecimal | internal/services/basketball_sync.go:92-97 | every 64-bit integer written in decimal reads back as itself |
| Normalize.MalformedIdIsZero | internal/services/match_sync.go:93-98 | digits within 64 unsigned bits followed by a character that is not a digit read as 0 |
| Normalize.OverlongIdClampsHigh | internal/services/match_sync.go:93-98 | a decimal id above the 64-bit maximum reads as that maximum, not 0 |
| Normalize.OverlongIdClampsLow | internal/services/basketball_sync.go:92-97 | a negative decimal id below the 64-bit minimum reads as that minimum |
| Normalize.OverflowBeforeJunkClamps | internal/services/match_sync.go:93-98 | digits that already exceed 64 unsigned bits give the maximum, whatever text follows them |
| Normalize.ParseScore | internal/services/basketball_sync.go:122-130 | empty text is null. Text `strconv.Atoi` accepts is its value truncated to 32 bits, and any other text is null. |
| Normalize.ParseScoreZero | internal/services/match_sync.go:144-149 | the score "0" is stored as 0, not as null |
| Normalize.ParseScoreRoundTrip | internal/services/match_sync.go:145-154 | every 32-bit score written in decimal reads back as itself |
| Normalize.ParseScoreRejectsWords | internal/services/match_sync.go:146 | text that does not start with a digit or sign is null |
| Normalize.NullIfEmpty | internal/services/match_sync.go:158-165 | the half-time or full-time score is null iff empty, else the raw text |
| Normalize.NullIfEmptyReadBack | internal/api/dto/soccer.go:79-84 | the stored score text, read back with null as "", is the feed's text |
| Normalize.StoredEvents | internal/services/match_sync.go:167-180 | stored events are the decoded `event` array when `events` is an object whose `event` decodes to a non-empty array, and `[]` otherwise |
| Normalize.StoredEventsReadBack | internal/services/match_sync.go:167-180 | any non-empty list of events sent as the `event` array of an `events` object is stored exactly as sent |
| Goalserve.DecodeEventJson | internal/goalserve/models.go:87-92 | an event spelled as an object of its four `@`-named string members decodes to that event |
| Normalize.LoneEventDropped | internal/services/match_sync.go:173-177 | an `event` holding one bare object instead of an array stores no events |
| Normalize.SoccerDateText | internal/services/match_sync.go:100-104 | the date text is `formatted_date` when it is non-empty, else `date` |
| Normalize.CombinedSchedule | internal/services/match_sync.go:112-124 | a combined result is either the `DD.MM.YYYY HH:MM` reading or the `Mon D <year> HH:MM` reading. The first layout wins whenever it parses. |
| Normalize.SeparateSchedule | internal/services/match_sync.go:125-141 | the separate parse fails with an invalid date iff the date does not parse, and with an invalid time iff only the time does not parse. Otherwise it gives both values. |
| Normalize.SoccerSchedule | internal/services/match_sync.go:100-141 | an empty date text or time is a missing-schedule failure. Otherwise the combined layouts are tried and then the separate parse, and every success is a valid date and clock. |
| Normalize.SoccerSeparateFallbackOnlyNamesError | internal/services/match_sync.go:125-141 | a date and a time that parse on their own always parse combined. The separate fallback therefore never rescues a record; it only chooses the error message. |
| Normalize.FormattedDateWins | internal/services/match_sync.go:101-104 | with a non-empty `formatted_date`, the raw `date` field cannot affect the schedule |
| Normalize.YearBoundaryMisdated | internal/services/match_sync.go:117 | a `Dec 31` fixture read by a run in 2028 is dated 31 December 2028, whatever year it was played |
| Normalize.BasketballSchedule | internal/services/basketball_sync.go:99-119 | missing, invalid-date and invalid-time failures each arise exactly in their own case, and there is no fallback layout |
| Normalize.BasketballScheduleRoundTrip | internal/services/basketball_sync.go:105-115 | any valid date and clock written as `DD.MM.YYYY` and `HH:MM` is read back exactly |
| SoccerSync.UpsertMatch | internal/services/match_sync.go:85-248 | an unparsable `@id` or schedule fails before the table is touched. A failure leaves the table as it was. A success stores the match under its id and leaves every other row alone. |
| SoccerSync.InsertStoresRecord | internal/services/match_sync.go:192-220 | an insert stores every normalised field of the feed record under a fresh identity, each text column in its stored (cut) form |
| SoccerSync.UpdateKeepsIdentity | internal/services/match_sync.go:221-245 | an update leaves identity, league, teams, date and time as they were and rewrites the volatile fields from the feed |
| SoccerSync.UpsertKeepsTableOk | migrations/schema.ts:14-34 | every upsert keeps one row per `match_id`, fresh identities and the column widths |
| SoccerSync.ResyncOnlyTouchesUpdatedAt | internal/services/match_sync.go:221-232 | re-syncing an unchanged record is an update that changes nothing but `updated_at` |
| SoccerSync.SyncMatches | internal/services/match_sync.go:30-82 | a failed today-fetch leaves the table. Otherwise the run is the fold of `UpsertMatch` over today's records and then the future ones, each record with its own fault, so every record is counted once as inserted, updated or skipped and the table invariant is kept. |
| BasketballSync.TeamScores | internal/services/basketball_sync.go:132-145 | the total and each quarter and overtime value go through the same score parser |
| BasketballSync.UpsertBasketballMatch | internal/services/basketball_sync.go:84-228 | an unparsable id or schedule fails without touching the table. A success stores the match under its id and leaves every other row alone. |
| BasketballSync.InsertStoresRecord | internal/services/basketball_sync.go:163-195 | an insert stores every normalised field, including the file group and the timer |
| BasketballSync.UpdateKeepsIdentity | internal/services/basketball_sync.go:196-228 | an update leaves identity, league, file group, teams, date and time unchanged and rewrites status, timer and scores |
| BasketballSync.UpsertKeepsTableOk | migrations/schema.ts:36-65 | every basketball upsert keeps the table invariant |
| BasketballSync.OverlongTimerRefused | migrations/schema.ts:46 | a new fixture with a character other than a space past the 20th of its timer is refused by the insert, and the table, identity counter included, is unchanged |
| BasketballSync.SpacePaddedTimerCut | migrations/schema.ts:46 | a new fixture whose timer runs past 20 characters with spaces only is inserted, with the timer cut to its first 20 characters |
| BasketballSync.SyncMatches | internal/services/basketball_sync.go:29-80 | the same control flow as the soccer run: a fatal today-fetch, a tolerated future-fetch failure, and the fold of `UpsertBasketballMatch` over the records, each with its own fault |
| Encoding.Base64UrlEncode | internal/api/auth/apikey.go:21 | the encoding has the unpadded length and uses only the URL-safe alphabet |
| Encoding.Base64UrlRoundTrip | internal/api/auth/apikey.go:20-22 | decoding the encoding gives back the bytes |
| Encoding.Base64UrlInjective | internal/api/auth/apikey.go:21-22 | distinct byte strings never encode to the same token |
| Encoding.HexLower | internal/api/auth/apikey.go:26 | lowercase hex is twice as long as its input and uses only `0-9a-f` |
| Encoding.HexRoundTrip | internal/api/auth/apikey.go:36-37 | decoding the hex gives back the digest |
| ApiKeys.HashApiKey | internal/api/auth/apikey.go:34-38 | the stored hash is 64 lowercase hex characters that decode to the SHA-256 digest of the key |
| ApiKeys.GenerateApiKey | internal/api/auth/apikey.go:13-32 | a failed random source gives three empty strings and an error. Otherwise the key is `sk_live_` followed by the 32 random bytes in base64url, 51 characters in total, with hash equal to `HashApiKey(plain)` and display prefix equal to its first 12 characters. |
| ApiKeys.DistinctDrawsDistinctKeys | internal/api/auth/apikey.go:15-22 | different random draws give different keys |
| KeyStore.GetApiKeyByHash | internal/database/queries.go:239-267 | a row is found iff some row has the hash, and then it is that row (hashes are unique) |
| KeyStore.CreateApiKey | internal/database/queries.go:202-236 | a rate limit outside 32 bits, or a text column holding more than spaces past its width, is refused and leaves the table untouched. Otherwise the insert is refused iff the stored hash already exists, which spends an identity value. A success appends the new active row under the next identity, with its text columns cut to width, no expiry and no last use. |
| KeyStore.CreateKeepsTableOk | migrations/schema.ts:68-79 | creating a key, refused or not, keeps identities distinct and hashes unique, and a created key is then found by its stored hash |
| KeyStore.FittingHashStoredVerbatim | migrations/schema.ts:70 | a hash that fits its 64-character column is stored unchanged |
| KeyStore.OverlongNameSpendsNoIdentity | migrations/schema.ts:69-72 | an insert refused for an overlong name leaves the table as it was, and the next key created takes the same id |
| KeyStore.DuplicateHashSpendsIdentity | migrations/schema.ts:69-70 | an insert refused for a hash already present spends its identity value, so the next key created is numbered one past it |
| Schema.VarcharValue | migrations/schema.ts:19-30 | the stored form fits the column, is the value itself when it fits, and loses only trailing spaces when the column takes the value |
| Schema.VarcharValueIdempotent | migrations/schema.ts:41-48 | storing a stored value again changes nothing |
| Schema.StoredApiKey | migrations/schema.ts:70-72 | a new key row is stored iff each text column holds nothing but spaces past its width, and then with each column cut to its width |
| KeyStore.RevokeApiKey | internal/database/queries.go:312-333 | "not found" iff no row has the id. Otherwise exactly that row becomes inactive and nothing is deleted. |
| KeyStore.RevokeIdempotent | internal/database/queries.go:312-316 | revoking twice is the same as revoking once |
| KeyStore.UpdateApiKeyLastUsed | internal/database/queries.go:337-350 | only the row with the id gets its last-used time, and the table keeps its size |
| KeyStore.StampKeepsLookup | internal/api/middleware/auth.go:52-53 | stamping a last-use time keeps the table invariant, and a hash lookup finds the same row with only that time changed |
| Auth.ExtractApiKey | internal/api/middleware/auth.go:92-101 | an `Authorization` value starting with `Bearer ` yields the rest; any other value falls through to `X-API-Key` |
| Auth.ExtractRoundTrip | internal/api/middleware/auth.go:94-100 | a key sent as a bearer token or as `X-API-Key` is read back, and the bearer token wins when both are sent |
| Auth.OtherSchemeFallsThrough | internal/api/middleware/auth.go:94-100 | a non-bearer `Authorization` value is ignored in favour of `X-API-Key` |
| Auth.Authenticate | internal/api/middleware/auth.go:24-57 | the failures are missing key, invalid key (no row with the hash, or a failed lookup), revoked key and expired key (expiry strictly before now), checked in that order. Otherwise the result is the stored row. |
| Auth.ApiKeyAuth | internal/api/middleware/auth.go:21-60 | the request proceeds iff authentication succeeds, carrying the key and recording its use. Any refusal is a 401 `UNAUTHORIZED` reply with the matching message and no change. |
| Auth.LastUsedStampIrrelevant | internal/api/middleware/auth.go:52-53 | the asynchronous last-used update never changes the outcome of an authentication |
| Auth.RevokedKeyRefused | internal/database/queries.go:312-316 | after a key is revoked, presenting it is refused as revoked |
| Auth.HasAccess | internal/api/middleware/auth.go:72-79 | access iff some scope entry is `*` or names the sport |
| Auth.RequireSport | internal/api/middleware/auth.go:63-89 | no key in the context is a 401 and a key without the sport is a 403 `FORBIDDEN` naming it. Otherwise the request proceeds. |
| Auth.ScopeExamples | internal/api/middleware/auth.go:75 | `*` grants both sports, and `soccer` grants soccer but not basketball |
| RateLimit.RatePerSecond | internal/api/middleware/ratelimit.go:62 | the refill rate times 60 is the key's requests per minute |
| RateLimit.BurstFor | internal/api/middleware/ratelimit.go:63-66 | the burst is the requests per minute divided by 10, rounded down and at least 1, so it is 1 exactly below 20 |
| RateLimit.Allow | internal/api/middleware/ratelimit.go:39 | with a rate of zero a request is allowed iff the capacity is at least one, and spends a unit of it; otherwise it is allowed iff a whole token is held, and spends exactly one. A refusal changes nothing. |
| RateLimit.Refill | internal/api/middleware/ratelimit.go:69 | refilling never loses tokens and never exceeds the burst, and a rate of zero or below adds nothing |
| RateLimit.GetLimiter | internal/api/middleware/ratelimit.go:52-74 | an existing limiter is returned unchanged. Otherwise a bucket with the key's rate and burst is stored; it admits the burst at once for a rate limit of zero or more and nothing for a negative one. Other keys' limiters are untouched. |
| RateLimit.RaceFirstStoreWins | internal/api/middleware/ratelimit.go:72-73 | when two callers race to store a limiter for a new key, both receive the first one stored |
| RateLimit.ExistingLimiterIgnoresNewRate | internal/api/middleware/ratelimit.go:57-59 | once a key has a limiter, changing its stored rate limit has no effect |
| RateLimit.NewRateLimiter | internal/api/middleware/ratelimit.go:19-24 | the default rate is requests per minute over 60 and the default burst is that number over 10 |
| RateLimit.DefaultBurstUnclamped | internal/api/middleware/ratelimit.go:22 | below 10 requests per minute the default burst is 0, unlike the per-key burst, which is clamped to 1 |
| RateLimit.TooManyRequests | internal/api/middleware/ratelimit.go:40-43 | a refusal is 429 with `Retry-After: 60`, a JSON content type and code `RATE_LIMIT_EXCEEDED` |
| RateLimit.Limit | internal/api/middleware/ratelimit.go:27-49 | no key in the context passes with the registry unchanged. Otherwise the request passes iff the key's bucket admits one request now, spending it, and is refused with 429 otherwise. |
| RateLimit.BurstAdmitsHeldTokens | internal/api/middleware/ratelimit.go:37-45 | n back-to-back requests with no time passing admit exactly the lesser of n and what the bucket admits now, and leave the rest |
| RateLimit.FirstBurst | internal/api/middleware/ratelimit.go:62-69 | a key's first n back-to-back requests admit the lesser of n and its burst when its rate limit is zero or more, and none when it is negative |
| RateLimit.ZeroRateAdmitsOnce | internal/api/middleware/ratelimit.go:62-69 | a key with a rate limit of zero is admitted exactly once, and no refill admits it again |
| Gateway.Handle | internal/api/server.go:89-105 | a request reaches a handler iff authentication succeeds, the key's bucket admits it and the key's scope covers the sport, in that order. An authenticated request the bucket refuses gets the 429 reply. |
| Gateway.AuthRefusalChangesNothing | internal/api/server.go:89-92 | a request refused by authentication gets 401 and spends no token |
| Gateway.ScopeRefusalSpendsToken | internal/api/server.go:91-95 | a request refused for its sport scope has already spent one admission of its key's bucket, since the rate check runs first |
| Gateway.IssuedKeyAccepted | internal/api/server.go:89-96 | a freshly issued and stored key with a rate limit of zero or more, presented as a bearer token for a sport it covers, is admitted with its stored row |
| Gateway.NegativeRateKeyThrottled | internal/api/middleware/ratelimit.go:39-45 | a freshly issued and stored key with a negative rate limit is refused with 429 on its first request |
| Cors.MatchOrigin | internal/api/middleware/cors.go:22-33 | the first allowed entry that is `*` or equals the origin decides: `*` gives `*` and an exact match echoes the origin. No admitting entry gives no match. |
| Cors.FirstAdmittingEntryDecides | internal/api/middleware/cors.go:24-31 | entries after the first admitting one never change the answer |
| Cors.CorsHeaders | internal/api/middleware/cors.go:35-39 | no match sets no headers. A match sets exactly the four Access-Control headers, with methods and headers joined by ", " and Max-Age 86400. |
| Cors.HandleCors | internal/api/middleware/cors.go:42-47 | OPTIONS is always answered 204 without reaching the handler, whether or not the origin is allowed. Any other verb proceeds. |
| Cors.ListedOriginEchoed | internal/api/middleware/cors.go:28-30 | a listed origin is echoed and an unlisted one gets nothing |
| QueryParams.ParseLimit | internal/api/handlers/common.go:18-22 | the limit is the given integer when it lies in 1..100, else 50 |
| QueryParams.ParseOffset | internal/api/handlers/common.go:25-29 | the offset is the given integer when it is at least 0, else 0 |
| QueryParams.ParseQueryParams | internal/api/handlers/common.go:11-45 | limit in 1..100 and offset at least 0 always. Date and status are copied verbatim. The league id is set iff it parses as a 64-bit integer. |
| QueryParams.RenderParseRoundTrip | internal/api/handlers/common.go:11-45 | any in-range parameter set, written as a query string, parses back to itself |
| QueryParams.Defaults | internal/api/handlers/common.go:12-15 | no parameters, or out-of-range ones, give limit 50, offset 0 and no filters |
| Dto.SoccerMatchFromModel | internal/api/dto/soccer.go:30-87 | sport is `soccer` and null ids are 0. A team's score is present iff its goals are known. The start date is `YYYY-MM-DD` and the start time `0000-01-01THH:MM:00Z` when set, and empty otherwise. HT and FT are copied. |
| Dto.ZeroGoalsDistinctFromUnknown | internal/api/dto/soccer.go:61-64 | a score of 0 and an unknown score give different responses |
| Dto.StartDateReadsBack | internal/api/dto/soccer.go:47-49 | the start date text is `YYYY-MM-DD` and its fields read back as the stored date |
| Dto.StartTimeReadsBack | internal/api/dto/soccer.go:50-51 | the start time is empty iff none is stored; otherwise it is `0000-01-01T`, the clock and `:00Z`, and the clock parses back as the stored time |
| Dto.Pair | internal/api/dto/basketball.go:98-127 | a quarter pair is present iff both teams' values are known |
| Dto.Quarters | internal/api/dto/basketball.go:94-96 | the quarter-score object is present iff some home quarter or overtime is known. The away values are not consulted. |
| Dto.BasketballMatchFromModel | internal/api/dto/basketball.go:39-131 | sport is `basketball` and null ids are 0. The start date is `YYYY-MM-DD` and the start time `0000-01-01THH:MM:00Z` when set, and empty otherwise. Timer and file group are copied. Team scores are present iff the totals are known, and quarter scores follow `Quarters`. |
| Dto.AwayPeriodsAloneHidden | internal/api/dto/basketball.go:94-96 | without a home period score there is no quarter-score object, whatever the away periods hold |
| Dto.PeriodsReadBack | internal/api/dto/basketball.go:98-127 | each quarter and overtime is shown iff both sides of it are stored, and a shown pair reads back as the stored home and away points |
| Dto.MatchDateReadsBack | internal/api/dto/basketball.go:59-61 | the start date text is `YYYY-MM-DD` and its fields read back as the stored match date |
| Dto.MatchTimeReadsBack | internal/api/dto/basketball.go:62-63 | the start time is empty iff no match time is stored; otherwise it is `0000-01-01T`, the clock and `:00Z`, and the clock parses back as the stored time |
| Dto.QuarterVisibilityExamples | internal/api/dto/basketball.go:94-127 | away-only quarter data is hidden, and home-only data shows the object with every pair absent |
| Sorting.Sort | internal/database/queries.go:393-396 | the ordered result is sorted by the given total preorder and is a permutation of its input |
| Sorting.Window | internal/database/queries.go:395-396 | a page skips `offset` rows and holds at most `limit` rows, in order |
| Sorting.WindowsTile | internal/database/queries.go:395-396 | consecutive pages tile the ordered rows with no gap and no overlap |
| Sorting.KeyOrderIsPreorder | internal/database/queries.go:394 | comparing fixed-width integer keys lexicographically is a total preorder |
| Queries.Select | internal/database/queries.go:368-379 | a row is selected iff it is in the table and meets the filter, with its multiplicity |
| Queries.SelectNarrower | internal/database/queries.go:368-379 | a stricter filter never selects more rows |
| Queries.ReadDateParam | internal/database/queries.go:368-370 | a date parameter is read iff it is a valid `YYYY-MM-DD` or a valid month-first `MM.DD.YYYY`, and the date read is spelled that way |
| Queries.BothSpellingsRead | internal/database/queries.go:368-370 | every date of years 1 to 9999 is read back from either spelling |
| Queries.ToFilter | internal/database/queries.go:368-379 | each filter is set iff its parameter is non-empty. A non-empty date parameter the database cannot read is an error, and one it can read filters on the date it reads. |
| Queries.NewestDateFirst | internal/database/queries.go:394 | a later start date sorts before an earlier one, and a row without a date sorts first |
| Queries.FilteredPage | internal/database/queries.go:381-396 | the total counts every filtered row regardless of paging. The page is the `offset`..`offset+limit` window of the filtered rows in order. |
| Queries.SoccerMatchesFiltered | internal/database/queries.go:357-426 | an unreadable date parameter fails. Otherwise the same filters feed the count and the page. The page is the `offset`..`offset+limit` window of the filtered rows in start-date, start-time order, newest first, so it has at most `limit` rows. |
| Queries.BasketballMatchesFiltered | internal/database/queries.go:517-588 | the basketball listing with the same filter, count and window semantics on `match_date` and `match_time` |
| Queries.TotalIgnoresPaging | internal/database/queries.go:381-390 | the total does not depend on limit or offset |
| Queries.NoFilterCountsAll | internal/database/queries.go:368-390 | with no filters the total is the number of rows |
| Queries.StatusFilterNarrows | internal/database/queries.go:372-375 | adding a status filter never raises the total |
| Queries.BadDateFails | internal/database/queries.go:368-370 | a date written day first, `DD.MM.YYYY`, fails the listing iff its day exceeds 12. Otherwise it filters on the date with day and month exchanged. |
| Queries.LiveSoccerMatches | internal/database/queries.go:429-437 | live soccer rows are exactly those whose status is one of 1H, HT, 2H, ET, P, Live, In Play, ordered by start time ascending |
| Queries.LiveBasketballMatches | internal/database/queries.go:591-599 | live basketball rows are exactly those whose status is one of Q1, Q2, Q3, Q4, OT, HT, Live, In Play, ordered by time ascending |
| Queries.FinishedNeverLive | internal/database/queries.go:431 | a finished or status-less match is never in the live list, and a match at half time is listed once for each time it is stored |
| Queries.DistinctLeagues | internal/database/queries.go:471-474 | the distinct (id, gid, name) triples with a non-null id, each listed once |
| Queries.Leagues | internal/database/queries.go:470-510 | one league entry per distinct triple, and every row with a league id is represented, with null gid and name read as 0 and "" |
| Queries.RenamedLeagueListedTwice | internal/database/queries.go:472 | a league whose name changed between rows is listed once per name |
| Queries.UpdateMatchScore | internal/database/queries.go:106-126 | goals outside 32 bits, or a score with more than spaces past 10 characters, fail the statement even when no row matches. Otherwise a missing row changes nothing, and on the matching row only the goals and HT/FT texts change, each text cut to 10 characters. |
| Queries.ScoreUpdateKeepsOtherColumns | internal/database/queries.go:107-113 | a score update leaves identity, status, league, teams, schedule, events and `updated_at` untouched |
| ApiKeyCreate.SportsEntries | cmd/commands/apikey_create.go:45-54 | exactly `*` gives `["*"]`. Otherwise there is one entry per comma-separated piece, each trimmed of spaces. |
| ApiKeyCreate.ParseSports | cmd/commands/apikey_create.go:45-62 | accepted iff every entry is soccer, basketball or `*`. A refusal names an offending entry. |
| ApiKeyCreate.TrailingCommaRejected | cmd/commands/apikey_create.go:50-62 | a trailing comma yields an empty entry, which is refused |
| ApiKeyCreate.MixedScopeKept | cmd/commands/apikey_create.go:50-62 | `soccer, *` is accepted as the two entries soccer and `*` |
| ApiKeyCreate.RunApiKeyCreate | cmd/commands/apikey_create.go:45-81 | a bad sport aborts before any key is made. A random failure aborts before the insert. Otherwise the command creates a key iff `CreateApiKey` succeeds for the issued key's hash and prefix, and it leaves the table as that call does. A created row holds the parsed sports, the hash and prefix of the issued key, and no expiry. |
| ApiKeyCreate.CreatedKeyAuthenticates | cmd/commands/apikey_create.go:72-81 | the key the command prints authenticates as the row it stored, and it covers soccer iff the flag named soccer or `*` |
| Calendar.ParseDottedText | internal/services/basketball_sync.go:106 | every valid date written `DD.MM.YYYY` parses back to itself |
| Calendar.ParseClockText | internal/services/basketball_sync.go:112 | every valid clock written `HH:MM` parses back to itself |
| Calendar.CombinedAcceptsSeparateParts | internal/services/match_sync.go:113-114 | a date and a time that each parse also parse when joined by one space |
| Calendar.ParseIsoDateText | internal/database/queries.go:368-370 | every valid date written `YYYY-MM-DD` is accepted as the date parameter and means that date |
| Calendar.ParseMdyDottedText | internal/database/queries.go:368-370 | every valid date written `MM.DD.YYYY` is accepted as the date parameter and means that date |
| Calendar.DayFirstReadMonthFirst | internal/database/queries.go:368-370 | a date written day first is read month first: refused iff its day exceeds 12, and otherwise read with day and month exchanged |
| Text.ParseFormatRoundTrip | internal/services/match_sync.go:87 | every integer in decimal parses back to itself |

## Left out

- HTTP transport, the one-second ticker between feed requests and client timeouts are not modelled. Each feed reply is an oracle.
- The basketball fetch functions that `basketball_sync.go` calls are not in `client.go`. They are oracles with the soccer fetchers' contract. The constructor `NewSoccerSyncService` that `cmd/sync.go` names is likewise not modelled.
- Scheduling, signal handling and shutdown (`cmd/sync.go`, `cmd/serve.go`) are left out because they are concurrency.
- The fire-and-forget last-used update is applied synchronously. `Auth.LastUsedStampIrrelevant` shows its timing cannot change an authentication.
- SHA-256 and `crypto/rand` are parameters: an uninterpreted digest function and an optional 32-byte draw.
- `time.Now` and `Truncate` are replaced by the parameters `now` and `currentYear`. Stored times are the parsed hour and minute; they are read back in the driver's `0000-01-01THH:MM:00Z` form.
- `time.Parse` is a simplified recogniser for the layouts used. It needs exactly one space where Go accepts a run of spaces. It does not model Go's other numeric leniencies.
- JSON object keys are exact. Go's case-insensitive field matching and its handling of duplicate keys are not modelled. A JSON number is checked only for the `float64` range; the rounded value is not kept, since the model never reads a number's value.
- `strings.TrimSpace` trims ASCII white space only, not Unicode spaces.
- `Queries.ToFilter`: the `date` query parameter is read in two zero-padded forms, `YYYY-MM-DD` and month-first `MM.DD.YYYY` (PostgreSQL's default `DateStyle` is `ISO, MDY`). Other spellings PostgreSQL accepts, such as `2026-1-5`, `5.1.2026`, `20260105` or `January 5, 2026`, are treated as unreadable, so the model reports an error where the database would filter.
- Ties in `ORDER BY` keep scan order. PostgreSQL leaves their order unspecified.
- League listings are not sorted by `league_name`, because collation is not modelled.
- The token bucket's refill is floating-point in `golang.org/x/time/rate`. The model keeps the bucket abstract: whole tokens, with `RateLimit.Refill` standing for elapsed time. The repository does not pin the library's version; the model follows the releases that give a zero rate its own branch, which spends the burst itself and never refills it.
- Row scanning, SQL building, connection errors and the connection pool (`internal/database/db.go`) are not modelled. A statement that fails before it runs is a `DbFault` oracle, indexed by the record's position in the sync run.
- Rows whose `match_id` is null cannot arise from the sync. The table is keyed on `match_id`.
- `Auth.Authenticate`: a stored `sports` value that fails to decode as JSON is covered by the lookup-failure flag, not modelled on its own.
- `Queries.UpdateMatchScore`: an empty HT/FT text is stored as "", because the statement binds the text as given.
- `Http.ErrorBody`: the message is pasted into the JSON text without escaping, as the code does. A sport name containing a quote would yield invalid JSON, and the model does not state this.
- Response envelopes (`response.go`), the thin handlers, the health check, the router construction beyond its ordering, and the CLI's printing are left out.

=== FILE: api_keys.dfy ===
/** Issuing API keys: a plain key `sk_live_<token>` shown once, the
    lower-case hex SHA-256 digest that is stored, and a short display prefix.
    The random source and SHA-256 (FIPS 180-4) are oracles. */
module ApiKeys {
  import opened Wrappers
  import opened Encoding

  const KeyPrefix: string := "sk_live_"

  const ZeroBytes32: seq<byte> := seq(32, _ => 0 as byte)

  /** The 32 bytes `crypto/rand` fills. */
  type Bytes32 = b: seq<byte> | |b| == 32 witness ZeroBytes32

  /** A SHA-256 digest. */
  type Digest = b: seq<byte> | |b| == 32 witness ZeroBytes32

  /** `HashAPIKey`: hex of the digest of the key's bytes. */
  function HashApiKey(key: string, sha256: string -> Digest): (h: string)
    ensures |h| == 64
    ensures forall i :: 0 <= i < |h| ==> IsLowerHex(h[i])
    ensures HexDecode(h) == Some(sha256(key))
  {
    HexRoundTrip(sha256(key));
    HexLower(sha256(key))
  }

  /** The three strings `GenerateAPIKey` returns, and whether it failed. */
  datatype Issued = Issued(plain: string, hash: string, prefix: string, failed: bool)

  /** `GenerateAPIKey`: `random` is the outcome of reading 32 random bytes. */
  function GenerateApiKey(random: Option<Bytes32>, sha256: string -> Digest): (k: Issued)
    ensures random.None? ==> k == Issued("", "", "", true)
    ensures random.Some? ==>
      && !k.failed
      && |k.plain| == 51
      && k.plain[..8] == KeyPrefix
      && Base64UrlDecode(k.plain[8..]) == Some(random.value)
      && k.hash == HashApiKey(k.plain, sha256)
      && k.prefix == k.plain[..12] && k.prefix[..8] == KeyPrefix
  {
    match random
    case None => Issued("", "", "", true)
    case Some(bytes) =>
      var token := Base64UrlEncode(bytes);
      Base64UrlRoundTrip(bytes);
      var plain := KeyPrefix + token;
      assert plain[8..] == token;
      Issued(plain, HashApiKey(plain, sha256), plain[..12], false)
  }

  /** The token after `sk_live_` uses only the URL-safe alphabet (no `+`, `/`
      or `=`), and the stored strings fit their columns (64 and 16
      characters). */
  lemma IssuedKeyShape(random: Bytes32, sha256: string -> Digest)
    ensures var k := GenerateApiKey(Some(random), sha256);
      && (forall i :: 8 <= i < |k.plain| ==> IsB64Char(k.plain[i]))
      && |k.hash| == 64 && |k.prefix| == 12
  {
    var token := Base64UrlEncode(random);
    var k := GenerateApiKey(Some(random), sha256);
    assert k.plain == KeyPrefix + token;
    forall i | 8 <= i < |k.plain|
      ensures IsB64Char(k.plain[i])
    {
      assert k.plain[i] == token[i - 8];
    }
  }

  /** Two different random draws never yield the same plain key. */
  lemma DistinctDrawsDistinctKeys(r1: Bytes32, r2: Bytes32, sha256: string -> Digest)
    requires r1 != r2
    ensures GenerateApiKey(Some(r1), sha256).plain != GenerateApiKey(Some(r2), sha256).plain
  {
  }
}

=== FILE: apikey_create.dfy ===
/** The `apikey create` command: the sports scope is parsed and checked
    before anything else, then a key is issued and stored. */
module ApiKeyCreate {
  import opened Wrappers
  import opened Text
  import opened Schema
  import opened KeyStore
  import opened ApiKeys
  import opened Http
  import opened Auth

  const ValidSports: set<string> := {"soccer", "basketball", "*"}

  /** The scope entries of a `--sports` value: exactly `*` stands alone;
      anything else is split on commas and each piece trimmed. */
  function SportsEntries(flag: string): (r: seq<string>)
    ensures flag == "*" ==> r == ["*"]
    ensures flag != "*" ==> |r| == |Split(flag, ',')| && forall i :: 0 <= i < |r| ==> r[i] == Trim(Split(flag, ',')[i])
  {
    if flag == "*" then ["*"]
    else
      var parts := Split(flag, ',');
      seq(|parts|, i requires 0 <= i < |parts| => Trim(parts[i]))
  }

  /** The first entry outside the valid set, if any. */
  function FirstInvalid(entries: seq<string>): (r: Option<string>)
    ensures r.None? <==> forall i :: 0 <= i < |entries| ==> entries[i] in ValidSports
    ensures r.Some? ==> exists i :: (
      && 0 <= i < |entries| && entries[i] == r.value && entries[i] !in ValidSports
      && forall j :: 0 <= j < i ==> entries[j] in ValidSports)
  {
    if entries == [] then None
    else if entries[0] !in ValidSports then Some(entries[0])
    else
      var r := FirstInvalid(entries[1..]);
      assert forall i :: 1 <= i < |entries| ==> entries[i] == entries[1..][i - 1];
      if r.Some? then
        var i :| 0 <= i < |entries[1..]| && entries[1..][i] == r.value && entries[1..][i] !in ValidSports
          && forall j :: 0 <= j < i ==> entries[1..][j] in ValidSports;
        assert entries[i + 1] == r.value;
        r
      else r
  }

  /** The scope of a new key, or the first invalid entry named in the error. */
  function ParseSports(flag: string): (r: Result<seq<string>, string>)
    ensures r.Success? <==> forall i :: 0 <= i < |SportsEntries(flag)| ==> SportsEntries(flag)[i] in ValidSports
    ensures r.Success? ==> r.value == SportsEntries(flag) && |r.value| >= 1
    ensures r.Failure? ==> r.error !in ValidSports && r.error in SportsEntries(flag)
  {
    match FirstInvalid(SportsEntries(flag))
    case Some(bad) => Failure(bad)
    case None => Success(SportsEntries(flag))
  }

  /** An empty piece, as a trailing comma leaves, is invalid. */
  lemma TrailingCommaRejected()
    ensures ParseSports("soccer,") == Failure("")
  {
    TrailingCommaEntries();
    assert FirstInvalid(["soccer", ""]) == Some("") by {
      assert "soccer" in ValidSports && "" !in ValidSports;
      assert ["soccer", ""][1..] == [""];
    }
  }

  lemma TrailingCommaEntries()
    ensures SportsEntries("soccer,") == ["soccer", ""]
  {
    TrailingCommaSplit();
    TwoEntries("soccer", "");
    SoccerTrimmed();
  }

  lemma TrailingCommaSplit()
    ensures ',' !in "soccer" && ',' !in ""
    ensures "soccer," == "soccer" + "," + ""
  {
  }

  /** An empty value is rejected too: it splits into one empty piece. */
  lemma EmptyFlagRejected()
    ensures ParseSports("") == Failure("")
  {
    assert SportsEntries("") == [""];
  }

  /** Two comma-separated pieces give their two trimmed entries. */
  lemma TwoEntries(a: string, b: string)
    requires ',' !in a && ',' !in b
    ensures SportsEntries(a + "," + b) == [Trim(a), Trim(b)]
  {
    var flag := a + "," + b;
    assert flag == a + [','] + b;
    assert flag[|a|] == ',';
    assert flag != "*";
    SplitAtFirst(a, b, ',');
    assert Split(b, ',') == [b];
  }

  /** Spaces around pieces are dropped. */
  lemma MixedScopeEntries()
    ensures SportsEntries("soccer, *") == ["soccer", "*"]
  {
    MixedScopeSplit();
    SoccerTrimmed();
    StarTrimmed();
    TwoEntries("soccer", " *");
  }

  lemma MixedScopeSplit()
    ensures ',' !in "soccer" && ',' !in " *"
    ensures "soccer, *" == "soccer" + "," + " *"
  {
  }

  lemma SoccerTrimmed()
    ensures Trim("soccer") == "soccer"
  {
    TrimmedWord("soccer");
  }

  lemma StarTrimmed()
    ensures Trim(" *") == "*"
  {
    TrimmedWord("*");
    assert " " + "*" == " *";
  }

  /** A wildcard mixed with a sport is accepted and kept as given. */
  lemma MixedScopeKept()
    ensures ParseSports("soccer, *") == Success(["soccer", "*"])
  {
    MixedScopeEntries();
    assert FirstInvalid(["soccer", "*"]) == None;
  }

  /** How the command ends. */
  datatype CreateOutcome =
    | InvalidSport(entry: string)
    | GenerateFailed
    | InsertRefused(error: KeyStoreError)
    | Created(plain: string, row: ApiKey)

  /** `runApiKeyCreate`: an invalid scope stops the command before the
      database is touched; otherwise a key is issued and stored, and only
      its hash reaches the table. */
  function RunApiKeyCreate(t: KeyTable, name: string, sportsFlag: string, rateLimit: int,
                           random: Option<Bytes32>, sha256: string -> Digest, now: int)
    : (r: (CreateOutcome, KeyTable))
    ensures ParseSports(sportsFlag).Failure? ==> r == (InvalidSport(ParseSports(sportsFlag).error), t)
    ensures ParseSports(sportsFlag).Success? && random.None? ==> r == (GenerateFailed, t)
    ensures ParseSports(sportsFlag).Success? && random.Some? ==>
      var k := GenerateApiKey(random, sha256);
      var (t', stored) := CreateApiKey(t, k.hash, k.prefix, name, ParseSports(sportsFlag).value, rateLimit, now);
      && r.1 == t'
      && (r.0.Created? <==> stored.Success?)
      && (r.0.InsertRefused? <==> stored.Failure?)
    ensures r.0.InsertRefused? ==> r.1.rows == t.rows
    ensures r.0.Created? ==>
      && ParseSports(sportsFlag).Success? && random.Some?
      && r.0.plain == GenerateApiKey(random, sha256).plain
      && r.0.row.keyHash == HashApiKey(r.0.plain, sha256)
      && r.0.row.keyPrefix == r.0.plain[..12]
      && r.0.row.sports == ParseSports(sportsFlag).value
      && r.0.row.name == VarcharValue(Some(name), 255).value && r.0.row.rateLimit == rateLimit
      && r.0.row.isActive && r.0.row.expiresAt.None?
      && r.1.rows == t.rows + [r.0.row]
  {
    match ParseSports(sportsFlag)
    case Failure(bad) => (InvalidSport(bad), t)
    case Success(sports) =>
      var k := GenerateApiKey(random, sha256);
      if k.failed then (GenerateFailed, t)
      else
        match CreateApiKey(t, k.hash, k.prefix, name, sports, rateLimit, now)
        case (t', Failure(e)) => (InsertRefused(e), t')
        case (t', Success(row)) => (Created(k.plain, row), t')
  }

  /** A created key is the last row of a table that still meets its
      constraints, stored active, without expiry, under the hash of the
      printed key. */
  lemma CreatedRowStored(t: KeyTable, name: string, sportsFlag: string, rateLimit: int,
                         random: Option<Bytes32>, sha256: string -> Digest, created: int)
    requires KeyTableOk(t)
    requires RunApiKeyCreate(t, name, sportsFlag, rateLimit, random, sha256, created).0.Created?
    ensures var (out, t') := RunApiKeyCreate(t, name, sportsFlag, rateLimit, random, sha256, created);
      && KeyTableOk(t') && |t'.rows| > 0 && t'.rows[|t'.rows| - 1] == out.row
      && out.row.keyHash == HashApiKey(out.plain, sha256) && out.row.isActive && out.row.expiresAt.None?
  {
    var (out, t') := RunApiKeyCreate(t, name, sportsFlag, rateLimit, random, sha256, created);
    var k := GenerateApiKey(random, sha256);
    var sports := ParseSports(sportsFlag).value;
    assert CreateApiKey(t, k.hash, k.prefix, name, sports, rateLimit, created) == (t', Success(out.row));
    CreateKeepsTableOk(t, k.hash, k.prefix, name, sports, rateLimit, created);
  }

  /** The key the command prints is accepted by the gateway's authentication
      as an `X-API-Key` header, and grants the sports it was created with. */
  lemma CreatedKeyAuthenticates(t: KeyTable, name: string, sportsFlag: string, rateLimit: int,
                                random: Option<Bytes32>, sha256: string -> Digest, created: int, now: int)
    requires KeyTableOk(t)
    requires RunApiKeyCreate(t, name, sportsFlag, rateLimit, random, sha256, created).0.Created?
    ensures var (out, t') := RunApiKeyCreate(t, name, sportsFlag, rateLimit, random, sha256, created);
      && KeyTableOk(t')
      && Authenticate(t', map["X-API-Key" := out.plain], sha256, now, false) == Success(out.row)
      && (HasAccess(out.row.sports, "soccer") <==> "soccer" in ParseSports(sportsFlag).value || "*" in ParseSports(sportsFlag).value)
  {
    var (out, t') := RunApiKeyCreate(t, name, sportsFlag, rateLimit, random, sha256, created);
    CreatedRowStored(t, name, sportsFlag, rateLimit, random, sha256, created);
    ExtractRoundTrip(out.plain, "");
    assert ExtractApiKey(map["X-API-Key" := out.plain]) == out.plain != "";
    assert !Expired(out.row, now);
  }
}

=== FILE: auth.dfy ===
/** API-key authentication and sport scoping of the protected routes. */
module Auth {
  import opened Wrappers
  import opened Schema
  import opened KeyStore
  import opened ApiKeys
  import opened Http

  const BearerPrefix: string := "Bearer "

  /** `extractAPIKey`: a non-empty `Authorization` header starting with
      `Bearer ` yields the rest; any other value falls through to `X-API-Key`. */
  function ExtractApiKey(h: Headers): (key: string)
    ensures var a := Get(h, "Authorization");
      if |a| >= 7 && a[..7] == BearerPrefix then key == a[7..]
      else key == Get(h, "X-API-Key")
  {
    var a := Get(h, "Authorization");
    if a != "" && |a| >= |BearerPrefix| && a[..|BearerPrefix|] == BearerPrefix then a[|BearerPrefix|..]
    else Get(h, "X-API-Key")
  }

  /** The two ways a client can present a key read it back unchanged, and a
      bearer token wins over `X-API-Key`. */
  lemma ExtractRoundTrip(key: string, other: string)
    ensures ExtractApiKey(map["Authorization" := BearerPrefix + key]) == key
    ensures ExtractApiKey(map["X-API-Key" := key]) == key
    ensures ExtractApiKey(map["Authorization" := BearerPrefix + key, "X-API-Key" := other]) == key
  {
    assert (BearerPrefix + key)[..7] == BearerPrefix;
    assert (BearerPrefix + key)[7..] == key;
  }

  /** An `Authorization` header of another scheme does not hide `X-API-Key`. */
  lemma OtherSchemeFallsThrough(auth: string, key: string)
    requires |auth| < 7 || auth[..7] != BearerPrefix
    ensures ExtractApiKey(map["Authorization" := auth, "X-API-Key" := key]) == key
  {
  }

  /** Why authentication refused a request, in the order it is checked. */
  datatype AuthFailure = MissingKey | InvalidKey | RevokedKey | ExpiredKey

  function FailureMessage(f: AuthFailure): string {
    match f
    case MissingKey => "Missing API key. Use 'Authorization: Bearer <key>' or 'X-API-Key: <key>' header."
    case InvalidKey => "Invalid API key"
    case RevokedKey => "API key has been revoked"
    case ExpiredKey => "API key has expired"
  }

  /** A key with an expiry strictly before `now`; no expiry never expires. */
  predicate Expired(k: ApiKey, now: int) {
    k.expiresAt.Some? && k.expiresAt.value < now
  }

  /** The `APIKeyAuth` decision: `lookupFault` is a database error during the
      lookup, which is treated like an unknown key. */
  function Authenticate(t: KeyTable, h: Headers, sha256: string -> Digest, now: int, lookupFault: bool)
    : (r: Result<ApiKey, AuthFailure>)
    requires KeyTableOk(t)
    ensures ExtractApiKey(h) == "" <==> r == Failure(MissingKey)
    ensures var key := ExtractApiKey(h); var hash := HashApiKey(key, sha256);
      key != "" ==>
        && (r == Failure(InvalidKey) <==> lookupFault || forall i :: 0 <= i < |t.rows| ==> t.rows[i].keyHash != hash)
        && (forall i :: 0 <= i < |t.rows| && t.rows[i].keyHash == hash && !lookupFault ==>
              r == (if !t.rows[i].isActive then Failure(RevokedKey)
                    else if Expired(t.rows[i], now) then Failure(ExpiredKey)
                    else Success(t.rows[i])))
    ensures r.Success? ==> r.value in t.rows && r.value.isActive && !Expired(r.value, now)
  {
    var key := ExtractApiKey(h);
    if key == "" then Failure(MissingKey)
    else
      var found := GetApiKeyByHash(t, HashApiKey(key, sha256));
      if lookupFault || found.None? then Failure(InvalidKey)
      else if !found.value.isActive then Failure(RevokedKey)
      else if Expired(found.value, now) then Failure(ExpiredKey)
      else Success(found.value)
  }

  /** `APIKeyAuth` as a middleware: every refusal is a 401 with code
      UNAUTHORIZED; success hands the key on to the next handler and stamps
      the key's last use. */
  function ApiKeyAuth(t: KeyTable, req: Request, sha256: string -> Digest, now: int, lookupFault: bool)
    : (r: (Verdict<ApiKey>, KeyTable))
    requires KeyTableOk(t)
    ensures var a := Authenticate(t, req.headers, sha256, now, lookupFault);
      && (r.0.Next? <==> a.Success?)
      && (r.0.Next? ==> r.0.ctx == a.value && r.1 == UpdateApiKeyLastUsed(t, a.value.id, now))
      && (r.0.Stop? ==> r.0.reply == ErrorReply(StatusUnauthorized, "UNAUTHORIZED", FailureMessage(a.error)) && r.1 == t)
  {
    match Authenticate(t, req.headers, sha256, now, lookupFault)
    case Failure(f) => (Stop(ErrorReply(StatusUnauthorized, "UNAUTHORIZED", FailureMessage(f))), t)
    case Success(k) => (Next(k), UpdateApiKeyLastUsed(t, k.id, now))
  }

  /** The last-use stamp is written after the decision and cannot change it:
      the same request against the stamped table gets the same verdict. */
  lemma LastUsedStampIrrelevant(t: KeyTable, h: Headers, sha256: string -> Digest, now: int, lookupFault: bool, id: int, at: int)
    requires KeyTableOk(t)
    ensures KeyTableOk(UpdateApiKeyLastUsed(t, id, at))
    ensures var a := Authenticate(t, h, sha256, now, lookupFault);
            var b := Authenticate(UpdateApiKeyLastUsed(t, id, at), h, sha256, now, lookupFault);
            (a.Failure? ==> a == b) && (a.Success? ==> b.Success? && b.value == a.value.(lastUsedAt := b.value.lastUsedAt))
  {
    StampKeepsLookup(t, id, at, HashApiKey(ExtractApiKey(h), sha256));
  }

  /** Once revoked, a key is refused as revoked, whatever else holds. */
  lemma RevokedKeyRefused(t: KeyTable, id: int, h: Headers, sha256: string -> Digest, now: int)
    requires KeyTableOk(t) && RevokeApiKey(t, id).Success?
    requires exists i :: 0 <= i < |t.rows| && t.rows[i].id == id && t.rows[i].keyHash == HashApiKey(ExtractApiKey(h), sha256)
    requires ExtractApiKey(h) != ""
    ensures KeyTableOk(RevokeApiKey(t, id).value)
    ensures Authenticate(RevokeApiKey(t, id).value, h, sha256, now, false) == Failure(RevokedKey)
  {
    RevokeKeepsTableOk(t, id);
    var i :| 0 <= i < |t.rows| && t.rows[i].id == id && t.rows[i].keyHash == HashApiKey(ExtractApiKey(h), sha256);
    assert RevokeApiKey(t, id).value.rows[i].keyHash == t.rows[i].keyHash;
  }

  /** `RequireSport`'s test: some scope is `*` or names the sport. */
  function HasAccess(sports: seq<string>, sport: string): (b: bool)
    ensures b <==> exists i :: 0 <= i < |sports| && (sports[i] == "*" || sports[i] == sport)
  {
    if sports == [] then false
    else if sports[0] == "*" || sports[0] == sport then true
    else
      var b := HasAccess(sports[1..], sport);
      assert forall i :: 1 <= i < |sports| ==> sports[i] == sports[1..][i - 1];
      b
  }

  /** `RequireSport`: no key in the context is a 401, a key without the
      sport in scope a 403 with code FORBIDDEN. */
  function RequireSport(ctxKey: Option<ApiKey>, sport: string): (r: Verdict<ApiKey>)
    ensures ctxKey.None? ==> r == Stop(ErrorReply(StatusUnauthorized, "UNAUTHORIZED", "API key not found in context"))
    ensures ctxKey.Some? ==>
      if HasAccess(ctxKey.value.sports, sport) then r == Next(ctxKey.value)
      else r == Stop(ErrorReply(StatusForbidden, "FORBIDDEN", "API key does not have access to " + sport + " data"))
  {
    match ctxKey
    case None => Stop(ErrorReply(StatusUnauthorized, "UNAUTHORIZED", "API key not found in context"))
    case Some(k) =>
      if HasAccess(k.sports, sport) then Next(k)
      else Stop(ErrorReply(StatusForbidden, "FORBIDDEN", "API key does not have access to " + sport + " data"))
  }

  /** A wildcard scope opens every sport; a key scoped to one sport is shut
      out of the other. */
  lemma ScopeExamples()
    ensures HasAccess(["*"], "soccer") && HasAccess(["*"], "basketball")
    ensures HasAccess(["soccer"], "soccer") && !HasAccess(["soccer"], "basketball")
  {
    assert ["soccer"][0] == "soccer";
  }
}

=== FILE: basketball_sync.dfy ===
/** `BasketballSyncService`: like the soccer sync, but the schedule has no
    fallback, every period score goes through `parseScore`, and the update
    also rewrites the timer. */
module BasketballSync {
  import opened Wrappers
  import opened Text
  import opened Goalserve
  import opened Schema
  import opened Store
  import opened Normalize
  import Batch

  /** `parseScore` applied to the total and to each period of one team. */
  function TeamScores(t: BasketballTeam): (s: ScoreLine)
    ensures s.total == ParseScore(t.totalScore)
    ensures s.q1 == ParseScore(t.q1) && s.q2 == ParseScore(t.q2) && s.q3 == ParseScore(t.q3)
    ensures s.q4 == ParseScore(t.q4) && s.ot == ParseScore(t.ot)
  {
    ScoreLine(ParseScore(t.totalScore), ParseScore(t.q1), ParseScore(t.q2), ParseScore(t.q3), ParseScore(t.q4), ParseScore(t.ot))
  }

  /** The row inserted for a new match: every column, `file_group` included. */
  function NewBasketballRow(id: int, matchId: int, cat: BasketballCategory, m: BasketballMatch, when: Schedule, now: int): BasketballRow {
    BasketballRow(
      id := id,
      matchId := Some(matchId),
      leagueGid := Some(LenientId(cat.gid)),
      leagueId := Some(LenientId(cat.id)),
      leagueName := Some(cat.name),
      fileGroup := Some(cat.fileGroup),
      matchStatus := Some(m.status),
      matchDate := Some(when.date),
      matchTime := Some(when.time),
      timer := NullIfEmpty(m.timer),
      hTeamId := Some(LenientId(m.localTeam.id)),
      hTeamName := Some(m.localTeam.name),
      home := TeamScores(m.localTeam),
      aTeamId := Some(LenientId(m.awayTeam.id)),
      aTeamName := Some(m.awayTeam.name),
      away := TeamScores(m.awayTeam),
      createdAt := now,
      updatedAt := now)
  }

  /** The update of an existing row: status, timer, both score lines and
      `updated_at`. */
  function RefreshBasketballRow(row: BasketballRow, m: BasketballMatch, now: int): BasketballRow {
    row.(
      matchStatus := Some(m.status),
      timer := NullIfEmpty(m.timer),
      home := TeamScores(m.localTeam),
      away := TeamScores(m.awayTeam),
      updatedAt := now)
  }

  function BasketballId(r: BasketballRow): int { r.id }
  function BasketballKey(r: BasketballRow): Option<int> { r.matchId }

  /** `upsertBasketballMatch`. */
  function UpsertBasketballMatch(t: Table<BasketballRow>, cat: BasketballCategory, m: BasketballMatch, now: int, fault: DbFault): (o: Outcome<BasketballRow>)
    ensures ParseInt(m.id).None? ==> o == Outcome(t, Failure(InvalidMatchId))
    ensures ParseInt(m.id).Some? && BasketballSchedule(m).Failure? ==> o == Outcome(t, Failure(BasketballSchedule(m).error))
    ensures o.result.Failure? ==> o.table.rows == t.rows
    ensures o.table.nextId == t.nextId || o.table.nextId == t.nextId + 1
    ensures o.result.Success? ==> ParseInt(m.id).Some? && BasketballSchedule(m).Success? && ParseInt(m.id).value in o.table.rows
    ensures o.result.Success? ==> forall k :: k in t.rows && k != ParseInt(m.id).value ==> k in o.table.rows && o.table.rows[k] == t.rows[k]
  {
    match ParseInt(m.id)
    case None => Outcome(t, Failure(InvalidMatchId))
    case Some(matchId) =>
      match BasketballSchedule(m)
      case Failure(e) => Outcome(t, Failure(e))
      case Success(when) =>
        Reconcile(t, matchId, id => NewBasketballRow(id, matchId, cat, m, when, now), row => RefreshBasketballRow(row, m, now),
                  StoredBasketballRow, fault)
  }

  /** An insert stores every normalised field, including the file group, each
      text column cut to its width. */
  lemma InsertStoresRecord(t: Table<BasketballRow>, cat: BasketballCategory, m: BasketballMatch, now: int, fault: DbFault)
    requires UpsertBasketballMatch(t, cat, m, now, fault).result == Success(true)
    ensures var o := UpsertBasketballMatch(t, cat, m, now, fault);
      var row := o.table.rows[ParseInt(m.id).value];
      && ParseInt(m.id).value !in t.rows && o.table.nextId == t.nextId + 1
      && row.id == t.nextId && row.matchId == Some(ParseInt(m.id).value)
      && row.leagueId == Some(LenientId(cat.id)) && row.leagueGid == Some(LenientId(cat.gid))
      && row.leagueName == VarcharValue(Some(cat.name), 255) && row.fileGroup == VarcharValue(Some(cat.fileGroup), 100)
      && row.matchStatus == VarcharValue(Some(m.status), 50) && row.timer == VarcharValue(NullIfEmpty(m.timer), 20)
      && row.matchDate == Some(BasketballSchedule(m).value.date) && row.matchTime == Some(BasketballSchedule(m).value.time)
      && row.hTeamId == Some(LenientId(m.localTeam.id)) && row.hTeamName == VarcharValue(Some(m.localTeam.name), 255)
      && row.aTeamId == Some(LenientId(m.awayTeam.id)) && row.aTeamName == VarcharValue(Some(m.awayTeam.name), 255)
      && row.home == TeamScores(m.localTeam) && row.away == TeamScores(m.awayTeam)
      && row.createdAt == now && row.updatedAt == now
  {
  }

  /** An update leaves ids, league, file group, date and time alone. */
  lemma UpdateKeepsIdentity(t: Table<BasketballRow>, cat: BasketballCategory, m: BasketballMatch, now: int, fault: DbFault)
    requires UpsertBasketballMatch(t, cat, m, now, fault).result == Success(false)
    ensures var key := ParseInt(m.id).value;
      var old_ := t.rows[key];
      var o := UpsertBasketballMatch(t, cat, m, now, fault);
      var row := o.table.rows[key];
      && key in t.rows && o.table.nextId == t.nextId
      && row.id == old_.id && row.matchId == old_.matchId
      && row.leagueGid == old_.leagueGid && row.leagueId == old_.leagueId
      && row.matchDate == old_.matchDate && row.matchTime == old_.matchTime
      && row.hTeamId == old_.hTeamId && row.aTeamId == old_.aTeamId
      && row.leagueName == VarcharValue(old_.leagueName, 255) && row.fileGroup == VarcharValue(old_.fileGroup, 100)
      && row.hTeamName == VarcharValue(old_.hTeamName, 255) && row.aTeamName == VarcharValue(old_.aTeamName, 255)
      && row.createdAt == old_.createdAt
      && row.matchStatus == VarcharValue(Some(m.status), 50) && row.timer == VarcharValue(NullIfEmpty(m.timer), 20)
      && row.home == TeamScores(m.localTeam) && row.away == TeamScores(m.awayTeam) && row.updatedAt == now
  {
  }

  predicate BasketballTableOk(t: Table<BasketballRow>) {
    TableOk(t, BasketballId, BasketballKey, BasketballRowFits)
  }

  lemma UpsertKeepsTableOk(t: Table<BasketballRow>, cat: BasketballCategory, m: BasketballMatch, now: int, fault: DbFault)
    requires BasketballTableOk(t)
    ensures BasketballTableOk(UpsertBasketballMatch(t, cat, m, now, fault).table)
  {
    if ParseInt(m.id).Some? && BasketballSchedule(m).Success? {
      var matchId := ParseInt(m.id).value;
      var when := BasketballSchedule(m).value;
      ReconcilePreservesOk(t, matchId, id => NewBasketballRow(id, matchId, cat, m, when, now), row => RefreshBasketballRow(row, m, now),
                           StoredBasketballRow, fault, BasketballId, BasketballKey, BasketballRowFits);
    }
  }

  /** A timer with a character other than a space past its 20-character
      column makes the database refuse the insert: the record is skipped and
      the table, identity counter included, is left as it was. */
  lemma OverlongTimerRefused(t: Table<BasketballRow>, cat: BasketballCategory, m: BasketballMatch, now: int)
    requires ParseInt(m.id).Some? && ParseInt(m.id).value !in t.rows && BasketballSchedule(m).Success?
    requires exists i :: 20 <= i < |m.timer| && m.timer[i] != ' '
    ensures UpsertBasketballMatch(t, cat, m, now, NoFault) == Outcome(t, Failure(InsertFailed))
  {
    assert !VarcharTakes(NullIfEmpty(m.timer), 20);
  }

  /** A timer longer than its column only by trailing spaces is cut to 20
      characters and the record is inserted. */
  lemma SpacePaddedTimerCut(t: Table<BasketballRow>, cat: BasketballCategory, m: BasketballMatch, now: int)
    requires ParseInt(m.id).Some? && ParseInt(m.id).value !in t.rows && BasketballSchedule(m).Success?
    requires |m.timer| > 20 && forall i :: 20 <= i < |m.timer| ==> m.timer[i] == ' '
    requires |cat.name| <= 255 && |cat.fileGroup| <= 100 && |m.status| <= 50
    requires |m.localTeam.name| <= 255 && |m.awayTeam.name| <= 255
    ensures var o := UpsertBasketballMatch(t, cat, m, now, NoFault);
      o.result == Success(true) && o.table.rows[ParseInt(m.id).value].timer == Some(m.timer[..20])
  {
  }

  function Records(cats: seq<BasketballCategory>): seq<(BasketballCategory, BasketballMatch)> {
    Batch.Flatten(cats, (c: BasketballCategory) => c.matches)
  }

  /** Every record of a run in order: today's, then the future days' when
      that fetch succeeded. */
  function RunRecords<E>(today: seq<BasketballCategory>, future: Result<seq<BasketballCategory>, E>)
    : (xs: seq<(BasketballCategory, BasketballMatch)>)
    ensures |xs| == |Records(today)| + (if future.Success? then |Records(future.value)| else 0)
  {
    Records(today) + (if future.Success? then Records(future.value) else [])
  }

  /** The upsert of the record at a position in the run, with the database
      answer `faults` gives that position. */
  function Step(now: int, faults: nat -> DbFault)
    : (Table<BasketballRow>, (nat, (BasketballCategory, BasketballMatch))) -> Outcome<BasketballRow>
  {
    (u: Table<BasketballRow>, x: (nat, (BasketballCategory, BasketballMatch))) => UpsertBasketballMatch(u, x.1.0, x.1.1, now, faults(x.0))
  }

  /** `BasketballSyncService.SyncMatches`; the two basketball feeds are
      oracles with the soccer fetchers' contract, and the database's answer
      to the n-th record of the run is `faults(n)`. */
  method SyncMatches<E>(t: Table<BasketballRow>, today: Result<seq<BasketballCategory>, E>, future: Result<seq<BasketballCategory>, E>,
                        now: int, faults: nat -> DbFault)
    returns (c: Batch.Cycle<BasketballRow>)
    ensures today.Failure? ==> c == Batch.TodayFailed(t)
    ensures today.Success? ==>
      c == Batch.Completed(Batch.Fold(t, Batch.Numbered(RunRecords(today.value, future), 0), Step(now, faults)))
    ensures c.Completed? ==>
      c.tally.inserted + c.tally.updated + c.tally.skipped
        == |Records(today.value)| + (if future.Success? then |Records(future.value)| else 0)
    ensures c.Completed? && BasketballTableOk(t) ==> BasketballTableOk(c.tally.table)
  {
    var step := Step(now, faults);
    if today.Failure? {
      return Batch.TodayFailed(t);
    }
    var first := Records(today.value);
    var todayRecords: Result<seq<(nat, (BasketballCategory, BasketballMatch))>, E> := Success(Batch.Numbered(first, 0));
    var futureRecords: Result<seq<(nat, (BasketballCategory, BasketballMatch))>, E> :=
      if future.Success? then Success(Batch.Numbered(Records(future.value), |first|)) else Failure(future.error);
    c := Batch.SyncRun(t, todayRecords, futureRecords, step);
    var xs := Batch.Numbered(RunRecords(today.value, future), 0);
    if future.Success? {
      Batch.NumberedAppend(first, Records(future.value));
    } else {
      assert first + [] == first;
    }
    assert Batch.RunRecords(todayRecords.value, futureRecords) == xs;
    if BasketballTableOk(t) {
      forall u: Table<BasketballRow>, x: (nat, (BasketballCategory, BasketballMatch)) | BasketballTableOk(u)
        ensures BasketballTableOk(step(u, x).table)
      {
        UpsertKeepsTableOk(u, x.1.0, x.1.1, now, faults(x.0));
      }
      Batch.FoldPreserves(t, xs, step, BasketballTableOk);
    }
  }
}

=== FILE: batch.dfy ===
/** One sync run of either sport: fetch today's feed (fatal on failure), then
    the next seven days (a failure there is only logged), and fold the upsert
    of every (category, match) pair over the table, counting inserts and
    updates and skipping records that fail. */
module Batch {
  import opened Wrappers
  import opened Store

  /** The pairs of one category with each of its members, in order. */
  function Pairs<C, M>(c: C, ms: seq<M>): (r: seq<(C, M)>)
    ensures |r| == |ms|
    ensures forall j :: 0 <= j < |ms| ==> r[j] == (c, ms[j])
  {
    seq(|ms|, j requires 0 <= j < |ms| => (c, ms[j]))
  }

  /** The nested `for category { for match }` iteration as one sequence. */
  function Flatten<C, M>(cats: seq<C>, members: C -> seq<M>): (r: seq<(C, M)>)
    ensures forall i :: 0 <= i < |r| ==> r[i].0 in cats && r[i].1 in members(r[i].0)
    decreases |cats|
  {
    if cats == [] then []
    else
      var rest := Flatten(cats[1..], members);
      assert forall i :: 0 <= i < |rest| ==> rest[i].0 in cats;
      Pairs(cats[0], members(cats[0])) + rest
  }

  lemma {:induction false} FlattenAppend<C, M>(a: seq<C>, b: seq<C>, members: C -> seq<M>)
    ensures Flatten(a + b, members) == Flatten(a, members) + Flatten(b, members)
    decreases |a|
  {
    if a == [] {
      assert a + b == b;
    } else {
      assert (a + b)[1..] == a[1..] + b;
      FlattenAppend(a[1..], b, members);
    }
  }

  /** The table after a run of upserts, with the counts of inserted, updated
      and skipped records. */
  datatype Tally<R> = Tally(table: Table<R>, inserted: nat, updated: nat, skipped: nat)

  /** Apply `step` to each record in order, counting its outcome. A record
      that fails is skipped; the table is whatever its failed step left. */
  function Fold<R, X>(t: Table<R>, xs: seq<X>, step: (Table<R>, X) -> Outcome<R>): (r: Tally<R>)
    ensures r.inserted + r.updated + r.skipped == |xs|
    decreases |xs|
  {
    if xs == [] then Tally(t, 0, 0, 0)
    else
      var prev := Fold(t, xs[..|xs| - 1], step);
      Count(prev, step(prev.table, xs[|xs| - 1]))
  }

  /** Account for one more upsert outcome. */
  function Count<R>(prev: Tally<R>, o: Outcome<R>): (r: Tally<R>)
    ensures r.inserted + r.updated + r.skipped == prev.inserted + prev.updated + prev.skipped + 1
    ensures o.result.Failure? ==> r.table == o.table && r.skipped == prev.skipped + 1
    ensures o.result == Success(true) ==> r.table == o.table && r.inserted == prev.inserted + 1
    ensures o.result == Success(false) ==> r.table == o.table && r.updated == prev.updated + 1
  {
    match o.result
    case Success(true) => Tally(o.table, prev.inserted + 1, prev.updated, prev.skipped)
    case Success(false) => Tally(o.table, prev.inserted, prev.updated + 1, prev.skipped)
    case Failure(_) => Tally(o.table, prev.inserted, prev.updated, prev.skipped + 1)
  }

  /** Continuing a fold from where another left off: the table carries over
      and the counts add up. */
  function Then<R>(first: Tally<R>, second: Tally<R>): Tally<R> {
    Tally(second.table, first.inserted + second.inserted, first.updated + second.updated, first.skipped + second.skipped)
  }

  /** Folding over `a + b` is folding over `a` and then over `b` from the
      resulting table: the today pass and the future pass share one table and
      one pair of counters. */
  lemma {:induction false} FoldAppend<R, X>(t: Table<R>, a: seq<X>, b: seq<X>, step: (Table<R>, X) -> Outcome<R>)
    ensures Fold(t, a + b, step) == Then(Fold(t, a, step), Fold(Fold(t, a, step).table, b, step))
    decreases |b|
  {
    if b == [] {
      assert a + b == a;
    } else {
      var b' := b[..|b| - 1];
      assert (a + b)[..|a + b| - 1] == a + b';
      assert (a + b)[|a + b| - 1] == b[|b| - 1];
      FoldAppend(t, a, b', step);
    }
  }

  /** When every record fails, and a failure keeps the rows, the rows are
      untouched and all records are skipped. */
  lemma {:induction false} FoldAllSkipped<R, X>(t: Table<R>, xs: seq<X>, step: (Table<R>, X) -> Outcome<R>)
    requires forall u: Table<R>, x :: x in xs ==> step(u, x).result.Failure? && step(u, x).table.rows == u.rows
    ensures var r := Fold(t, xs, step);
      r.table.rows == t.rows && r.inserted == 0 && r.updated == 0 && r.skipped == |xs|
    decreases |xs|
  {
    if xs != [] {
      FoldAllSkipped(t, xs[..|xs| - 1], step);
    }
  }

  /** A table property that every single upsert preserves holds after the
      whole fold. */
  lemma {:induction false} FoldPreserves<R, X>(t: Table<R>, xs: seq<X>, step: (Table<R>, X) -> Outcome<R>, inv: Table<R> -> bool)
    requires inv(t)
    requires forall u: Table<R>, x :: inv(u) ==> inv(step(u, x).table)
    ensures inv(Fold(t, xs, step).table)
    decreases |xs|
  {
    if xs != [] {
      FoldPreserves(t, xs[..|xs| - 1], step, inv);
    }
  }

  /** Result of one sync run: aborted because today's feed could not be
      fetched (nothing written), or completed with its tally. */
  datatype Cycle<R> = TodayFailed(kept: Table<R>) | Completed(tally: Tally<R>)

  /** The records a run processes: today's, then the future days' when that
      fetch succeeded. */
  function RunRecords<X, E>(today: seq<X>, future: Result<seq<X>, E>): (xs: seq<X>)
    ensures future.Failure? ==> xs == today
    ensures future.Success? ==> xs == today + future.value
  {
    if future.Success? then today + future.value else today
  }

  /** The records of a run paired with their positions, counting from `from`. */
  function Numbered<X>(xs: seq<X>, from: nat): (r: seq<(nat, X)>)
    ensures |r| == |xs|
    ensures forall i :: 0 <= i < |xs| ==> r[i] == (from + i, xs[i])
  {
    seq(|xs|, i requires 0 <= i < |xs| => (from + i, xs[i]))
  }

  /** Numbering two passes one after the other numbers the whole run. */
  lemma NumberedAppend<X>(a: seq<X>, b: seq<X>)
    ensures Numbered(a, 0) + Numbered(b, |a|) == Numbered(a + b, 0)
  {
    var l := Numbered(a, 0) + Numbered(b, |a|);
    var r := Numbered(a + b, 0);
    assert |l| == |r|;
    forall i | 0 <= i < |l|
      ensures l[i] == r[i]
    {
      if i < |a| {
        assert l[i] == Numbered(a, 0)[i];
      } else {
        assert l[i] == Numbered(b, |a|)[i - |a|];
      }
    }
  }

  /** `SyncMatches` of either sync service. */
  method SyncRun<R, X, E>(t: Table<R>, today: Result<seq<X>, E>, future: Result<seq<X>, E>, step: (Table<R>, X) -> Outcome<R>)
    returns (c: Cycle<R>)
    ensures today.Failure? ==> c == TodayFailed(t)
    ensures today.Success? ==> c == Completed(Fold(t, RunRecords(today.value, future), step))
  {
    if today.Failure? {
      return TodayFailed(t);
    }
    var xs := RunRecords(today.value, future);
    var acc := Tally(t, 0, 0, 0);
    var i := 0;
    while i < |xs|
      invariant 0 <= i <= |xs|
      invariant acc == Fold(t, xs[..i], step)
    {
      assert xs[..i + 1][..i] == xs[..i];
      acc := Count(acc, step(acc.table, xs[i]));
      i := i + 1;
    }
    assert xs[..|xs|] == xs;
    return Completed(acc);
  }

  /** With both fetches successful, the run is the today pass followed by the
      future pass on the table it left. */
  lemma TodayThenFuture<R, X, E>(t: Table<R>, today: seq<X>, future: Result<seq<X>, E>, step: (Table<R>, X) -> Outcome<R>)
    requires future.Success?
    ensures Fold(t, RunRecords(today, future), step)
         == Then(Fold(t, today, step), Fold(Fold(t, today, step).table, future.value, step))
  {
    FoldAppend(t, today, future.value, step);
  }
}

=== FILE: calendar.dfy ===
/** Calendar dates, times of day, and the simplified recognisers that stand in
    for the three `time.Parse` layouts the sync services use:
    `02.01.2006` (day.month.year), `15:04` (hour:minute) and
    `Jan 2 2006 15:04` (month name, day, year, time). Like Go, a day must exist
    in its month (leap years included), the zero-padded fields need exactly two
    digits, the hour and the month-name day take one or two, and the year takes
    exactly four. */
module Calendar {
  import opened Wrappers
  import opened Text

  datatype Date = Date(year: nat, month: nat, day: nat)

  /** A time of day, as stored in a SQL `time` column. */
  datatype Clock = Clock(hour: nat, minute: nat)

  predicate IsLeap(y: nat) {
    y % 4 == 0 && (y % 100 != 0 || y % 400 == 0)
  }

  function DaysIn(month: nat, year: nat): nat
    requires 1 <= month <= 12
  {
    if month == 2 then (if IsLeap(year) then 29 else 28)
    else if month == 4 || month == 6 || month == 9 || month == 11 then 30
    else 31
  }

  predicate ValidDate(d: Date) {
    1 <= d.month <= 12 && 1 <= d.day <= DaysIn(d.month, d.year)
  }

  predicate ValidClock(c: Clock) {
    c.hour < 24 && c.minute < 60
  }

  lemma {:induction false} DigitsValueSnoc(a: string, c: char)
    requires AllDigits(a) && IsDigit(c)
    ensures AllDigits(a + [c]) && DigitsValue(a + [c]) == DigitsValue(a) * 10 + DigitValue(c)
  {
    assert (a + [c])[..|a|] == a;
  }

  lemma {:induction false} DigitsValueTwo(a: string, b: string)
    requires AllDigits(a) && AllDigits(b) && |b| == 2
    ensures AllDigits(a + b) && DigitsValue(a + b) == DigitsValue(a) * 100 + DigitsValue(b)
  {
    DigitsValueSnoc(a, b[0]);
    DigitsValueSnoc(a + [b[0]], b[1]);
    assert a + b == a + [b[0]] + [b[1]];
    DigitsValueSnoc([], b[0]);
    DigitsValueSnoc([b[0]], b[1]);
    assert [] + [b[0]] == [b[0]] && [b[0]] + [b[1]] == b;
  }

  /** A text cut around one separator. */
  lemma CutAt(s: string, k: nat)
    requires k < |s|
    ensures s == s[..k] + [s[k]] + s[k + 1..]
  {
  }

  /** A text cut around two separators. */
  lemma CutAtTwo(s: string, j: nat, k: nat)
    requires j < k < |s|
    ensures s == s[..j] + [s[j]] + s[j + 1..k] + [s[k]] + s[k + 1..]
  {
    CutAt(s, k);
    CutAt(s[..k], j);
    assert s[..k][..j] == s[..j] && s[..k][j + 1..] == s[j + 1..k];
  }

  /** Two zero-padded decimal digits. */
  function Pad2(n: nat): (s: string)
    requires n < 100
    ensures |s| == 2 && AllDigits(s) && DigitsValue(s) == n
  {
    var s := [DigitChar(n / 10), DigitChar(n % 10)];
    DigitsValueTwo([], s);
    assert [] + s == s;
    s
  }

  /** Four zero-padded decimal digits. */
  function Pad4(n: nat): (s: string)
    requires n < 10000
    ensures |s| == 4 && AllDigits(s) && DigitsValue(s) == n
  {
    var s := Pad2(n / 100) + Pad2(n % 100);
    DigitsValueTwo(Pad2(n / 100), Pad2(n % 100));
    s
  }

  lemma {:induction false} Pad2OfDigits(s: string)
    requires |s| == 2 && AllDigits(s)
    ensures DigitsValue(s) < 100 && Pad2(DigitsValue(s)) == s
  {
    DigitsValueTwo([], s);
    assert [] + s == s;
    var n := DigitsValue(s);
    assert n == DigitValue(s[0]) * 10 + DigitValue(s[1]) by {
      DigitsValueTwo([], [s[0], s[1]]);
      assert [s[0], s[1]] == s;
      DigitsValueSnoc([], s[0]);
      assert [] + [s[0]] == [s[0]];
    }
    assert n / 10 == DigitValue(s[0]) && n % 10 == DigitValue(s[1]);
  }

  lemma {:induction false} Pad4OfDigits(s: string)
    requires |s| == 4 && AllDigits(s)
    ensures DigitsValue(s) < 10000 && Pad4(DigitsValue(s)) == s
  {
    var hi, lo := s[..2], s[2..];
    Pad2OfDigits(hi);
    Pad2OfDigits(lo);
    assert s == hi + lo;
    DigitsValueTwo(hi, lo);
    var n := DigitsValue(s);
    assert n / 100 == DigitsValue(hi) && n % 100 == DigitsValue(lo);
  }

  /** The text `DD.MM.YYYY` of a date (zero-padded). */
  function DottedText(d: Date): string
    requires d.day < 100 && d.month < 100 && d.year < 10000
  {
    Pad2(d.day) + "." + Pad2(d.month) + "." + Pad4(d.year)
  }

  /** The `02.01.2006` layout: exactly ten characters, and the day must exist in
      the month. A date is recognised exactly when the text is its zero-padded
      rendering. */
  function ParseDate(s: string): (r: Option<Date>)
    ensures r.Some? ==> ValidDate(r.value) && r.value.year < 10000 && s == DottedText(r.value)
  {
    if |s| != 10 || s[2] != '.' || s[5] != '.' || !AllDigits(s[..2]) || !AllDigits(s[3..5]) || !AllDigits(s[6..])
    then None
    else
      var d := Date(DigitsValue(s[6..]), DigitsValue(s[3..5]), DigitsValue(s[..2]));
      if ValidDate(d) then
        Pad2OfDigits(s[..2]);
        Pad2OfDigits(s[3..5]);
        Pad4OfDigits(s[6..]);
        CutAtTwo(s, 2, 5);
        Some(d)
      else None
  }

  lemma {:induction false} ParseDottedText(d: Date)
    requires ValidDate(d) && d.year < 10000
    ensures ParseDate(DottedText(d)) == Some(d)
  {
    var s := DottedText(d);
    assert s[..2] == Pad2(d.day);
    assert s[3..5] == Pad2(d.month);
    assert s[6..] == Pad4(d.year);
  }

  function MakeClock(h: nat, m: nat): (r: Option<Clock>)
    ensures r.Some? <==> h < 24 && m < 60
    ensures r.Some? ==> r.value == Clock(h, m)
  {
    if h < 24 && m < 60 then Some(Clock(h, m)) else None
  }

  /** `HH:MM`, zero-padded. */
  function ClockText(c: Clock): string
    requires ValidClock(c)
  {
    Pad2(c.hour) + ":" + Pad2(c.minute)
  }

  /** The `15:04` layout: a one- or two-digit hour below 24, a colon, and a
      two-digit minute below 60. */
  function ParseClock(s: string): (r: Option<Clock>)
    ensures r.Some? ==> ValidClock(r.value)
    ensures r.Some? ==> s == ClockText(r.value) || (|s| == 4 && r.value.hour < 10 && s == [DigitChar(r.value.hour)] + ClockText(r.value)[2..])
  {
    if |s| == 4 && IsDigit(s[0]) && s[1] == ':' && AllDigits(s[2..]) then
      Pad2OfDigits(s[2..]);
      assert s == [s[0]] + ":" + s[2..];
      MakeClock(DigitValue(s[0]), DigitsValue(s[2..]))
    else if |s| == 5 && AllDigits(s[..2]) && s[2] == ':' && AllDigits(s[3..]) then
      Pad2OfDigits(s[..2]);
      Pad2OfDigits(s[3..]);
      CutAt(s, 2);
      MakeClock(DigitsValue(s[..2]), DigitsValue(s[3..]))
    else None
  }

  lemma {:induction false} ParseClockText(c: Clock)
    requires ValidClock(c)
    ensures ParseClock(ClockText(c)) == Some(c)
  {
    var s := ClockText(c);
    assert s[..2] == Pad2(c.hour) && s[3..] == Pad2(c.minute);
  }

  /** The `02.01.2006 15:04` layout: a date, one space, a time. */
  function ParseDateTime(s: string): (r: Option<(Date, Clock)>)
    ensures r.Some? ==> ValidDate(r.value.0) && ValidClock(r.value.1)
    ensures r.Some? ==> |s| >= 11 && ParseDate(s[..10]) == Some(r.value.0) && s[10] == ' ' && ParseClock(s[11..]) == Some(r.value.1)
  {
    if |s| < 11 || s[10] != ' ' then None
    else
      match (ParseDate(s[..10]), ParseClock(s[11..]))
      case (Some(d), Some(c)) => Some((d, c))
      case _ => None
  }

  /** A date text and a time text that each parse on their own also parse
      when joined by one space, so the combined layout accepts them. */
  lemma {:induction false} CombinedAcceptsSeparateParts(date: string, time: string)
    requires ParseDate(date).Some? && ParseClock(time).Some?
    ensures ParseDateTime(date + " " + time) == Some((ParseDate(date).value, ParseClock(time).value))
  {
    var s := date + " " + time;
    assert |date| == 10;
    assert s[..10] == date && s[11..] == time && s[10] == ' ';
  }

  function Lower(c: char): char {
    if 'A' <= c <= 'Z' then (c as int + 32) as char else c
  }

  /** Lower-case three-letter English month abbreviations. */
  function MonthAbbrev(m: nat): string
    requires 1 <= m <= 12
  {
    ["jan", "feb", "mar", "apr", "may", "jun", "jul", "aug", "sep", "oct", "nov", "dec"][m - 1]
  }

  predicate NameMatches(name: string, m: nat)
    requires 1 <= m <= 12
  {
    |name| == 3 && Lower(name[0]) == MonthAbbrev(m)[0] && Lower(name[1]) == MonthAbbrev(m)[1]
      && Lower(name[2]) == MonthAbbrev(m)[2]
  }

  function FindMonth(name: string, m: nat): (r: Option<nat>)
    requires 1 <= m <= 13
    ensures r.Some? ==> m <= r.value <= 12 && NameMatches(name, r.value)
    ensures r.None? ==> forall k :: m <= k <= 12 ==> !NameMatches(name, k)
    decreases 13 - m
  {
    if m == 13 then None
    else if NameMatches(name, m) then Some(m)
    else FindMonth(name, m + 1)
  }

  /** Month number of a three-letter month name, compared ignoring ASCII case
      as Go's layout parser does. */
  function MonthNumber(name: string): (r: Option<nat>)
    ensures r.Some? <==> exists k :: 1 <= k <= 12 && NameMatches(name, k)
    ensures r.Some? ==> 1 <= r.value <= 12 && NameMatches(name, r.value)
  {
    FindMonth(name, 1)
  }

  /** Number of leading digits a non-fixed-width field (`2`, `15`) consumes: one
      or two. */
  function FieldWidth(s: string): nat
    requires |s| > 0 && IsDigit(s[0])
  {
    if |s| >= 2 && IsDigit(s[1]) then 2 else 1
  }

  /** The `Jan 2 2006 15:04` layout: month name, space, one- or two-digit day,
      space, four-digit year, space, time. */
  function ParseMonthForm(s: string): (r: Option<(Date, Clock)>)
    ensures r.Some? ==> ValidDate(r.value.0) && ValidClock(r.value.1)
  {
    if |s| < 5 || s[3] != ' ' || !IsDigit(s[4]) then None
    else
      var w := FieldWidth(s[4..]);
      var y := 4 + w + 1;
      if |s| < y + 5 || s[y - 1] != ' ' || !AllDigits(s[y..y + 4]) || s[y + 4] != ' ' then None
      else
        match (MonthNumber(s[..3]), ParseClock(s[y + 5..]))
        case (Some(month), Some(c)) =>
          var d := Date(DigitsValue(s[y..y + 4]), month, DigitsValue(s[4..4 + w]));
          if ValidDate(d) then Some((d, c)) else None
        case _ => None
  }

  /** With a two-digit day and a four-digit year, the month-name layout
      reads each field from its own place in the text. */
  lemma {:induction false} MonthFormFields(mon: string, dd: string, yyyy: string, hhmm: string)
    requires |mon| == 3 && |dd| == 2 && AllDigits(dd) && |yyyy| == 4 && AllDigits(yyyy)
    ensures ParseMonthForm(mon + " " + dd + " " + yyyy + " " + hhmm) ==
      match (MonthNumber(mon), ParseClock(hhmm))
      case (Some(month), Some(c)) =>
        var d := Date(DigitsValue(yyyy), month, DigitsValue(dd));
        if ValidDate(d) then Some((d, c)) else None
      case _ => None
  {
    var s := mon + " " + dd + " " + yyyy + " " + hhmm;
    assert s[..3] == mon && s[3] == ' ' && s[4] == dd[0];
    assert s[4..][0] == dd[0] && s[4..][1] == dd[1];
    assert FieldWidth(s[4..]) == 2;
    assert s[4..6] == dd && s[6] == ' ';
    assert s[7..11] == yyyy && s[11] == ' ' && s[12..] == hhmm;
  }

  /** The field accessors used by `time.Time` formatting: `2006-01-02`. */
  function IsoDateText(d: Date): (s: string)
    requires d.month < 100 && d.day < 100
    ensures d.year < 10000 ==> |s| == 10 && s[4] == '-' && s[7] == '-'
  {
    (if d.year < 10000 then Pad4(d.year) else FormatNat(d.year)) + "-" + Pad2(d.month) + "-" + Pad2(d.day)
  }

  /** `YYYY-MM-DD` reads back field by field. */
  lemma {:induction false} IsoDateFields(d: Date)
    requires ValidDate(d) && d.year < 10000
    ensures var s := IsoDateText(d);
      && AllDigits(s[..4]) && AllDigits(s[5..7]) && AllDigits(s[8..])
      && DigitsValue(s[..4]) == d.year && DigitsValue(s[5..7]) == d.month && DigitsValue(s[8..]) == d.day
  {
    var s := IsoDateText(d);
    assert s[..4] == Pad4(d.year) && s[5..7] == Pad2(d.month) && s[8..] == Pad2(d.day);
  }

  /** The text a SQL `time` column reaches the service as. The PostgreSQL
      driver (`lib/pq`) hands the column over as a `time.Time` on
      0000-01-01 UTC, and `database/sql` converts that into a string field
      with the RFC 3339 layout: `0000-01-01T15:04:05Z`. The stored seconds
      are always zero. */
  function TimeColumnText(c: Clock): (s: string)
    requires ValidClock(c)
    ensures |s| == 20 && s[..11] == "0000-01-01T" && s[11..16] == ClockText(c) && s[16..] == ":00Z"
  {
    "0000-01-01T" + ClockText(c) + ":00Z"
  }

  /** The `YYYY-MM-DD` spelling of a date parameter, as the database reads it:
      a real date of year 1 or later. A date is recognised exactly when the
      text is its `IsoDateText`. */
  function ParseIsoDate(s: string): (r: Option<Date>)
    ensures r.Some? ==> ValidDate(r.value) && 1 <= r.value.year < 10000 && s == IsoDateText(r.value)
  {
    if |s| != 10 || s[4] != '-' || s[7] != '-' || !AllDigits(s[..4]) || !AllDigits(s[5..7]) || !AllDigits(s[8..])
    then None
    else
      var d := Date(DigitsValue(s[..4]), DigitsValue(s[5..7]), DigitsValue(s[8..]));
      if ValidDate(d) && d.year >= 1 then
        Pad4OfDigits(s[..4]);
        Pad2OfDigits(s[5..7]);
        Pad2OfDigits(s[8..]);
        CutAtTwo(s, 4, 7);
        Some(d)
      else None
  }

  lemma {:induction false} ParseIsoDateText(d: Date)
    requires ValidDate(d) && 1 <= d.year < 10000
    ensures ParseIsoDate(IsoDateText(d)) == Some(d)
  {
    var s := IsoDateText(d);
    assert s[..4] == Pad4(d.year);
    assert s[5..7] == Pad2(d.month);
    assert s[8..] == Pad2(d.day);
  }

  /** `MM.DD.YYYY`, the dotted form PostgreSQL reads month first under
      `DateStyle = 'ISO, MDY'`. */
  function MdyDottedText(d: Date): string
    requires d.day < 100 && d.month < 100 && d.year < 10000
  {
    Pad2(d.month) + "." + Pad2(d.day) + "." + Pad4(d.year)
  }

  /** A zero-padded dotted date parameter as the database reads it: month,
      then day, then a year of 1 or later. */
  function ParseMdyDotted(s: string): (r: Option<Date>)
    ensures r.Some? ==> ValidDate(r.value) && 1 <= r.value.year < 10000 && s == MdyDottedText(r.value)
  {
    if |s| != 10 || s[2] != '.' || s[5] != '.' || !AllDigits(s[..2]) || !AllDigits(s[3..5]) || !AllDigits(s[6..])
    then None
    else
      var d := Date(DigitsValue(s[6..]), DigitsValue(s[..2]), DigitsValue(s[3..5]));
      if ValidDate(d) && d.year >= 1 then
        Pad2OfDigits(s[..2]);
        Pad2OfDigits(s[3..5]);
        Pad4OfDigits(s[6..]);
        CutAtTwo(s, 2, 5);
        Some(d)
      else None
  }

  lemma {:induction false} ParseMdyDottedText(d: Date)
    requires ValidDate(d) && 1 <= d.year < 10000
    ensures ParseMdyDotted(MdyDottedText(d)) == Some(d)
  {
    var s := MdyDottedText(d);
    assert s[..2] == Pad2(d.month);
    assert s[3..5] == Pad2(d.day);
    assert s[6..] == Pad4(d.year);
  }

  /** A date written day first (`02.01.2006`, as the feed spells it) and read
      month first: refused exactly when its day cannot be a month, and
      otherwise read with day and month exchanged. */
  lemma {:induction false} DayFirstReadMonthFirst(d: Date)
    requires ValidDate(d) && 1 <= d.year < 10000
    ensures ParseMdyDotted(DottedText(d)).Some? <==> d.day <= 12
    ensures d.day <= 12 ==> ParseMdyDotted(DottedText(d)) == Some(Date(d.year, d.day, d.month))
  {
    var s := DottedText(d);
    assert s[..2] == Pad2(d.day);
    assert s[3..5] == Pad2(d.month);
    assert s[6..] == Pad4(d.year);
    var e := Date(d.year, d.day, d.month);
    if d.day <= 12 {
      assert d.month <= 12 <= DaysIn(e.month, e.year);
      assert s == MdyDottedText(e);
      ParseMdyDottedText(e);
    }
  }
}

=== FILE: cors.dfy ===
/** Cross-origin resource sharing: the origin decision and preflight
    handling that wrap every route. */
module Cors {
  import opened Wrappers
  import opened Text
  import opened Http

  datatype CorsConfig = CorsConfig(allowedOrigins: seq<string>, allowedMethods: seq<string>, allowedHeaders: seq<string>)

  /** An entry that admits `origin`: the wildcard or the origin itself. */
  predicate Admits(entry: string, origin: string) {
    entry == "*" || entry == origin
  }

  /** The `Access-Control-Allow-Origin` value, decided by the first admitting
      entry: `*` for the wildcard, the request's origin for an exact match. */
  function MatchOrigin(allowed: seq<string>, origin: string): (r: Option<string>)
    ensures r.None? <==> forall i :: 0 <= i < |allowed| ==> !Admits(allowed[i], origin)
    ensures r.Some? ==> exists i :: (
      && 0 <= i < |allowed| && Admits(allowed[i], origin)
      && (forall j :: 0 <= j < i ==> !Admits(allowed[j], origin))
      && r.value == (if allowed[i] == "*" then "*" else origin))
  {
    if allowed == [] then None
    else if allowed[0] == "*" then Some("*")
    else if allowed[0] == origin then Some(origin)
    else
      var r := MatchOrigin(allowed[1..], origin);
      assert forall i :: 1 <= i < |allowed| ==> allowed[i] == allowed[1..][i - 1];
      if r.Some? then
        var i :| 0 <= i < |allowed[1..]| && Admits(allowed[1..][i], origin)
          && (forall j :: 0 <= j < i ==> !Admits(allowed[1..][j], origin))
          && r.value == (if allowed[1..][i] == "*" then "*" else origin);
        assert Admits(allowed[i + 1], origin) && forall j :: 0 <= j < i + 1 ==> !Admits(allowed[j], origin);
        r
      else r
  }

  /** Entries after the first admitting one are never consulted. */
  lemma {:induction false} FirstAdmittingEntryDecides(a: seq<string>, b: seq<string>, origin: string)
    requires MatchOrigin(a, origin).Some?
    ensures MatchOrigin(a + b, origin) == MatchOrigin(a, origin)
  {
    if a[0] != "*" && a[0] != origin {
      assert (a + b)[1..] == a[1..] + b;
      FirstAdmittingEntryDecides(a[1..], b, origin);
    }
  }

  /** The response headers set for a request from `origin`: none when no entry
      admits it, otherwise the origin, methods, headers and a one-day max age. */
  function CorsHeaders(cfg: CorsConfig, origin: string): (h: map<string, string>)
    ensures MatchOrigin(cfg.allowedOrigins, origin).None? <==> h == map[]
    ensures MatchOrigin(cfg.allowedOrigins, origin).Some? ==>
      && h.Keys == {"Access-Control-Allow-Origin", "Access-Control-Allow-Methods",
                    "Access-Control-Allow-Headers", "Access-Control-Max-Age"}
      && h["Access-Control-Allow-Origin"] == MatchOrigin(cfg.allowedOrigins, origin).value
      && h["Access-Control-Allow-Methods"] == Join(cfg.allowedMethods, ", ")
      && h["Access-Control-Allow-Headers"] == Join(cfg.allowedHeaders, ", ")
      && h["Access-Control-Max-Age"] == "86400"
  {
    match MatchOrigin(cfg.allowedOrigins, origin)
    case None => map[]
    case Some(v) =>
      var h := map["Access-Control-Allow-Origin" := v,
                   "Access-Control-Allow-Methods" := Join(cfg.allowedMethods, ", "),
                   "Access-Control-Allow-Headers" := Join(cfg.allowedHeaders, ", "),
                   "Access-Control-Max-Age" := "86400"];
      assert "Access-Control-Allow-Origin" in h;
      h
  }

  /** The `CORS` middleware: a preflight (`OPTIONS`) is answered 204 here
      whether or not the origin is admitted; any other request goes on to
      `next` once, carrying the headers set so far. */
  function HandleCors(cfg: CorsConfig, req: Request): (r: Verdict<map<string, string>>)
    ensures req.verb == "OPTIONS" <==> r.Stop?
    ensures r.Stop? ==> r.reply == Reply(StatusNoContent, CorsHeaders(cfg, Get(req.headers, "Origin")), "")
    ensures r.Next? ==> r.ctx == CorsHeaders(cfg, Get(req.headers, "Origin"))
  {
    var h := CorsHeaders(cfg, Get(req.headers, "Origin"));
    if req.verb == "OPTIONS" then Stop(Reply(StatusNoContent, h, "")) else Next(h)
  }

  /** The router's configuration when no origins are configured: every
      request, with or without an `Origin` header, is answered with `*`. */
  lemma DefaultConfigAdmitsAll(origin: string)
    ensures MatchOrigin(["*"], origin) == Some("*")
    ensures Join(["GET", "OPTIONS"], ", ") == "GET, OPTIONS"
  {
  }

  /** A listed origin is echoed back, an unlisted one gets no headers. */
  lemma ListedOriginEchoed()
    ensures MatchOrigin(["https://a.example", "https://b.example"], "https://b.example") == Some("https://b.example")
    ensures MatchOrigin(["https://a.example", "https://b.example"], "https://c.example") == None
  {
    assert ["https://a.example", "https://b.example"][1] == "https://b.example";
  }
}

=== FILE: dto.dfy ===
/** The API's view of stored rows: nulls become zero values, scores stay
    absent when unknown, dates are formatted `YYYY-MM-DD`. */
module Dto {
  import opened Wrappers
  import opened Calendar
  import opened Schema

  /** A team in a response; `score` is omitted when unknown. */
  datatype TeamInfo = TeamInfo(id: int, name: string, score: Option<int>)

  datatype SoccerMatchResponse = SoccerMatchResponse(
    id: int,
    matchId: int,
    sport: string,
    leagueId: int,
    leagueGid: int,
    leagueName: string,
    status: string,
    startDate: string,
    startTime: string,
    homeTeam: TeamInfo,
    awayTeam: TeamInfo,
    halfTimeScore: string,
    fullTimeScore: string)

  /** A SQL `date` or `time` column only ever holds a real date or time. */
  predicate ColumnValues(date: Option<Date>, time: Option<Clock>) {
    && (date.Some? ==> ValidDate(date.value) && date.value.year < 10000)
    && (time.Some? ==> ValidClock(time.value))
  }

  /** A nullable integer read as Go's zero value when null. */
  function IntOrZero(v: Option<int>): (r: int)
    ensures v.Some? ==> r == v.value
    ensures v.None? ==> r == 0
  {
    v.GetOr(0)
  }

  /** A nullable string read as "" when null. */
  function TextOrEmpty(v: Option<string>): (r: string)
    ensures v.Some? ==> r == v.value
    ensures v.None? ==> r == ""
  {
    v.GetOr("")
  }

  function DateText(d: Option<Date>): (s: string)
    requires d.Some? ==> ValidDate(d.value) && d.value.year < 10000
    ensures d.None? <==> s == ""
    ensures d.Some? ==> s == IsoDateText(d.value)
  {
    if d.Some? then IsoDateText(d.value) else ""
  }

  function TimeText(c: Option<Clock>): (s: string)
    requires c.Some? ==> ValidClock(c.value)
    ensures c.None? <==> s == ""
    ensures c.Some? ==> s == TimeColumnText(c.value)
  {
    if c.Some? then TimeColumnText(c.value) else ""
  }

  /** `SoccerMatchFromModel`. */
  function SoccerMatchFromModel(m: SoccerRow): (r: SoccerMatchResponse)
    requires ColumnValues(m.startDate, m.startTime)
    ensures r.sport == "soccer" && r.id == m.id
    ensures r.matchId == IntOrZero(m.matchId) && r.leagueId == IntOrZero(m.leagueId) && r.leagueGid == IntOrZero(m.leagueGid)
    ensures r.leagueName == TextOrEmpty(m.leagueName) && r.status == TextOrEmpty(m.matchStatus)
    ensures r.startDate == DateText(m.startDate) && r.startTime == TimeText(m.startTime)
    ensures r.homeTeam == TeamInfo(IntOrZero(m.hTeamId), TextOrEmpty(m.hTeamName), m.hTeamGoals)
    ensures r.awayTeam == TeamInfo(IntOrZero(m.aTeamId), TextOrEmpty(m.aTeamName), m.aTeamGoals)
    ensures r.halfTimeScore == TextOrEmpty(m.htScore) && r.fullTimeScore == TextOrEmpty(m.ftScore)
  {
    SoccerMatchResponse(
      id := m.id,
      matchId := IntOrZero(m.matchId),
      sport := "soccer",
      leagueId := IntOrZero(m.leagueId),
      leagueGid := IntOrZero(m.leagueGid),
      leagueName := TextOrEmpty(m.leagueName),
      status := TextOrEmpty(m.matchStatus),
      startDate := DateText(m.startDate),
      startTime := TimeText(m.startTime),
      homeTeam := TeamInfo(IntOrZero(m.hTeamId), TextOrEmpty(m.hTeamName), m.hTeamGoals),
      awayTeam := TeamInfo(IntOrZero(m.aTeamId), TextOrEmpty(m.aTeamName), m.aTeamGoals),
      halfTimeScore := TextOrEmpty(m.htScore),
      fullTimeScore := TextOrEmpty(m.ftScore))
  }

  /** The soccer start time reads back: `start_time` carries the stored
      clock between the date part `0000-01-01T` and the zero seconds, and an
      absent time is the empty string. */
  lemma StartTimeReadsBack(m: SoccerRow)
    requires ColumnValues(m.startDate, m.startTime)
    ensures var s := SoccerMatchFromModel(m).startTime;
      && (m.startTime.None? <==> s == "")
      && (m.startTime.Some? ==>
            |s| == 20 && s[..11] == "0000-01-01T" && s[16..] == ":00Z" && ParseClock(s[11..16]) == m.startTime)
  {
    if m.startTime.Some? {
      ParseClockText(m.startTime.value);
    }
  }

  /** A goal count of 0 is reported as a score of 0, distinct from the
      omitted score of a row whose goals are unknown. */
  lemma ZeroGoalsDistinctFromUnknown(m: SoccerRow)
    requires ColumnValues(m.startDate, m.startTime)
    ensures SoccerMatchFromModel(m.(hTeamGoals := Some(0))).homeTeam.score == Some(0)
    ensures SoccerMatchFromModel(m.(hTeamGoals := None)).homeTeam.score == None
    ensures SoccerMatchFromModel(m.(hTeamGoals := Some(0))) != SoccerMatchFromModel(m.(hTeamGoals := None))
  {
  }

  /** The start date of a response reads back as the stored date. */
  lemma StartDateReadsBack(m: SoccerRow)
    requires ColumnValues(m.startDate, m.startTime) && m.startDate.Some?
    ensures var s := SoccerMatchFromModel(m).startDate;
      && |s| == 10 && s[4] == '-' && s[7] == '-'
      && Date(Text.DigitsValue(s[..4]), Text.DigitsValue(s[5..7]), Text.DigitsValue(s[8..])) == m.startDate.value
  {
    IsoDateFields(m.startDate.value);
  }

  /** Home and away points of one period. */
  datatype ScorePair = ScorePair(home: int, away: int)

  datatype QuarterScores = QuarterScores(
    q1: Option<ScorePair>, q2: Option<ScorePair>, q3: Option<ScorePair>, q4: Option<ScorePair>, ot: Option<ScorePair>)

  datatype BasketballMatchResponse = BasketballMatchResponse(
    id: int,
    matchId: int,
    sport: string,
    leagueId: int,
    leagueGid: int,
    leagueName: string,
    fileGroup: string,
    status: string,
    startDate: string,
    startTime: string,
    timer: string,
    homeTeam: TeamInfo,
    awayTeam: TeamInfo,
    quarterScores: Option<QuarterScores>)

  /** A period's pair, present only when both sides are known. */
  function Pair(home: Option<int>, away: Option<int>): (p: Option<ScorePair>)
    ensures p.Some? <==> home.Some? && away.Some?
    ensures p.Some? ==> p.value == ScorePair(home.value, away.value)
  {
    if home.Some? && away.Some? then Some(ScorePair(home.value, away.value)) else None
  }

  /** Whether the home side has any period score; the away side is not
      consulted. */
  predicate HasQuarterData(home: ScoreLine) {
    home.q1.Some? || home.q2.Some? || home.q3.Some? || home.q4.Some? || home.ot.Some?
  }

  function Quarters(home: ScoreLine, away: ScoreLine): (q: Option<QuarterScores>)
    ensures q.Some? <==> HasQuarterData(home)
    ensures q.Some? ==> q.value == QuarterScores(
      Pair(home.q1, away.q1), Pair(home.q2, away.q2), Pair(home.q3, away.q3), Pair(home.q4, away.q4), Pair(home.ot, away.ot))
  {
    if HasQuarterData(home) then
      Some(QuarterScores(Pair(home.q1, away.q1), Pair(home.q2, away.q2), Pair(home.q3, away.q3),
                         Pair(home.q4, away.q4), Pair(home.ot, away.ot)))
    else None
  }

  /** `BasketballMatchFromModel`. */
  function BasketballMatchFromModel(m: BasketballRow): (r: BasketballMatchResponse)
    requires ColumnValues(m.matchDate, m.matchTime)
    ensures r.sport == "basketball" && r.id == m.id
    ensures r.matchId == IntOrZero(m.matchId) && r.leagueId == IntOrZero(m.leagueId) && r.leagueGid == IntOrZero(m.leagueGid)
    ensures r.leagueName == TextOrEmpty(m.leagueName) && r.status == TextOrEmpty(m.matchStatus)
    ensures r.fileGroup == TextOrEmpty(m.fileGroup) && r.timer == TextOrEmpty(m.timer)
    ensures r.startDate == DateText(m.matchDate) && r.startTime == TimeText(m.matchTime)
    ensures r.homeTeam == TeamInfo(IntOrZero(m.hTeamId), TextOrEmpty(m.hTeamName), m.home.total)
    ensures r.awayTeam == TeamInfo(IntOrZero(m.aTeamId), TextOrEmpty(m.aTeamName), m.away.total)
    ensures r.quarterScores.Some? <==> HasQuarterData(m.home)
    ensures r.quarterScores == Quarters(m.home, m.away)
  {
    BasketballMatchResponse(
      id := m.id,
      matchId := IntOrZero(m.matchId),
      sport := "basketball",
      leagueId := IntOrZero(m.leagueId),
      leagueGid := IntOrZero(m.leagueGid),
      leagueName := TextOrEmpty(m.leagueName),
      fileGroup := TextOrEmpty(m.fileGroup),
      status := TextOrEmpty(m.matchStatus),
      startDate := DateText(m.matchDate),
      startTime := TimeText(m.matchTime),
      timer := TextOrEmpty(m.timer),
      homeTeam := TeamInfo(IntOrZero(m.hTeamId), TextOrEmpty(m.hTeamName), m.home.total),
      awayTeam := TeamInfo(IntOrZero(m.aTeamId), TextOrEmpty(m.aTeamName), m.away.total),
      quarterScores := Quarters(m.home, m.away))
  }

  /** Without a home period score there is no `quarter_scores` object, whatever
      the away side holds. */
  lemma AwayPeriodsAloneHidden(m: BasketballRow, away: ScoreLine)
    requires ColumnValues(m.matchDate, m.matchTime) && !HasQuarterData(m.home)
    ensures BasketballMatchFromModel(m.(away := away)).quarterScores == None
  {
  }

  /** Period `k` (0 to 3 for the quarters, 4 for overtime) of a score line. */
  function LinePeriod(l: ScoreLine, k: nat): Option<int>
    requires k < 5
  {
    [l.q1, l.q2, l.q3, l.q4, l.ot][k]
  }

  function ShownPeriod(q: QuarterScores, k: nat): Option<ScorePair>
    requires k < 5
  {
    [q.q1, q.q2, q.q3, q.q4, q.ot][k]
  }

  /** Each shown period reads back as the stored home and away points, and
      a period is shown exactly when both sides of it are stored. */
  lemma PeriodsReadBack(m: BasketballRow, k: nat)
    requires ColumnValues(m.matchDate, m.matchTime) && HasQuarterData(m.home) && k < 5
    ensures var p := ShownPeriod(BasketballMatchFromModel(m).quarterScores.value, k);
      && (p.Some? <==> LinePeriod(m.home, k).Some? && LinePeriod(m.away, k).Some?)
      && (p.Some? ==> p.value.home == LinePeriod(m.home, k).value && p.value.away == LinePeriod(m.away, k).value)
  {
  }

  /** The start date of a basketball response reads back as the stored
      date. */
  lemma MatchDateReadsBack(m: BasketballRow)
    requires ColumnValues(m.matchDate, m.matchTime) && m.matchDate.Some?
    ensures var s := BasketballMatchFromModel(m).startDate;
      && |s| == 10 && s[4] == '-' && s[7] == '-'
      && Date(Text.DigitsValue(s[..4]), Text.DigitsValue(s[5..7]), Text.DigitsValue(s[8..])) == m.matchDate.value
  {
    IsoDateFields(m.matchDate.value);
  }

  /** The basketball start time reads back in the same way. */
  lemma MatchTimeReadsBack(m: BasketballRow)
    requires ColumnValues(m.matchDate, m.matchTime)
    ensures var s := BasketballMatchFromModel(m).startTime;
      && (m.matchTime.None? <==> s == "")
      && (m.matchTime.Some? ==>
            |s| == 20 && s[..11] == "0000-01-01T" && s[16..] == ":00Z" && ParseClock(s[11..16]) == m.matchTime)
  {
    if m.matchTime.Some? {
      ParseClockText(m.matchTime.value);
    }
  }

  /** Away-only period scores are not shown at all, and a home-only period
      shows the object with that period left out. */
  lemma QuarterVisibilityExamples(m: BasketballRow)
    requires ColumnValues(m.matchDate, m.matchTime)
    ensures var noHome := m.(home := ScoreLine(None, None, None, None, None, None),
                             away := ScoreLine(Some(80), Some(20), Some(20), Some(20), Some(20), None));
      BasketballMatchFromModel(noHome).quarterScores == None
    ensures var homeOnly := m.(home := ScoreLine(Some(20), Some(20), None, None, None, None),
                               away := ScoreLine(None, None, None, None, None, None));
      BasketballMatchFromModel(homeOnly).quarterScores == Some(QuarterScores(None, None, None, None, None))
  {
  }
}

=== FILE: encoding.dfy ===
/** The two text encodings API keys use: unpadded base64url (section 5 of
    RFC 4648) for the random token and lower-case hexadecimal (section 8 of
    RFC 4648) for the stored digest, each with its decoder. */
module Encoding {
  import opened Wrappers

  newtype byte = x: int | 0 <= x < 256

  // ------------------------------------------------------------- base64url

  predicate IsB64Char(c: char) {
    ('A' <= c <= 'Z') || ('a' <= c <= 'z') || ('0' <= c <= '9') || c == '-' || c == '_'
  }

  /** The URL-safe alphabet: `A`-`Z`, `a`-`z`, `0`-`9`, `-`, `_`. */
  function B64Char(v: nat): (c: char)
    requires v < 64
    ensures IsB64Char(c)
  {
    if v < 26 then ('A' as int + v) as char
    else if v < 52 then ('a' as int + (v - 26)) as char
    else if v < 62 then ('0' as int + (v - 52)) as char
    else if v == 62 then '-'
    else '_'
  }

  function B64Value(c: char): (v: nat)
    requires IsB64Char(c)
    ensures v < 64 && B64Char(v) == c
  {
    if 'A' <= c <= 'Z' then c as int - 'A' as int
    else if 'a' <= c <= 'z' then c as int - 'a' as int + 26
    else if '0' <= c <= '9' then c as int - '0' as int + 52
    else if c == '-' then 62
    else 63
  }

  lemma B64CharValue(v: nat)
    requires v < 64
    ensures B64Value(B64Char(v)) == v
  {
  }

  /** Length of the unpadded encoding of `n` bytes (`RawURLEncoding.EncodedLen`). */
  function EncodedLen(n: nat): nat {
    n / 3 * 4 + (n % 3 * 8 + 5) / 6
  }

  /** The four 6-bit groups of three bytes, most significant first. */
  function Sextets(b0: byte, b1: byte, b2: byte): (c: (nat, nat, nat, nat))
    ensures c.0 < 64 && c.1 < 64 && c.2 < 64 && c.3 < 64
  {
    (b0 as int / 4, b0 as int % 4 * 16 + b1 as int / 16, b1 as int % 16 * 4 + b2 as int / 64, b2 as int % 64)
  }

  /** The three bytes packed in four 6-bit groups. */
  function Octets(c0: nat, c1: nat, c2: nat, c3: nat): (b: (byte, byte, byte))
    requires c0 < 64 && c1 < 64 && c2 < 64 && c3 < 64
  {
    ((c0 * 4 + c1 / 16) as byte, (c1 % 16 * 16 + c2 / 4) as byte, (c2 % 4 * 64 + c3) as byte)
  }

  /** A 6-bit group made of a high part and a low part below `16`. */
  lemma Unpack16(hi: int, lo: int)
    requires 0 <= lo < 16
    ensures (hi * 16 + lo) / 16 == hi && (hi * 16 + lo) % 16 == lo
  {
  }

  /** A 6-bit group made of a high part and a low part below `4`. */
  lemma Unpack4(hi: int, lo: int)
    requires 0 <= lo < 4
    ensures (hi * 4 + lo) / 4 == hi && (hi * 4 + lo) % 4 == lo
  {
  }

  lemma SextetsOctets(b0: byte, b1: byte, b2: byte)
    ensures var c := Sextets(b0, b1, b2); Octets(c.0, c.1, c.2, c.3) == (b0, b1, b2)
  {
    var x0, x1, x2 := b0 as int, b1 as int, b2 as int;
    var c := Sextets(b0, b1, b2);
    Unpack16(x0 % 4, x1 / 16);
    assert c.1 / 16 == x0 % 4 && c.1 % 16 == x1 / 16;
    Unpack4(x1 % 16, x2 / 64);
    assert c.2 / 4 == x1 % 16 && c.2 % 4 == x2 / 64;
    assert c.0 * 4 + c.1 / 16 == x0;
    assert c.1 % 16 * 16 + c.2 / 4 == x1;
    assert c.2 % 4 * 64 + c.3 == x2;
  }

  /** Three bytes become four characters; a tail of one or two bytes becomes
      two or three characters (the missing bytes read as zero bits), with no
      `=` padding. */
  function Base64UrlEncode(b: seq<byte>): (s: string)
    ensures |s| == EncodedLen(|b|)
    ensures forall i :: 0 <= i < |s| ==> IsB64Char(s[i])
    decreases |b|
  {
    if |b| == 0 then ""
    else if |b| == 1 then
      var c := Sextets(b[0], 0, 0);
      [B64Char(c.0), B64Char(c.1)]
    else if |b| == 2 then
      var c := Sextets(b[0], b[1], 0);
      [B64Char(c.0), B64Char(c.1), B64Char(c.2)]
    else
      var c := Sextets(b[0], b[1], b[2]);
      [B64Char(c.0), B64Char(c.1), B64Char(c.2), B64Char(c.3)] + Base64UrlEncode(b[3..])
  }

  /** Decoding of unpadded base64url; the unused low bits of a short tail are
      ignored. A length of 1 modulo 4 or a character outside the alphabet is
      rejected. */
  function Base64UrlDecode(s: string): (r: Option<seq<byte>>)
    decreases |s|
  {
    if |s| == 0 then Some([])
    else if |s| == 1 || !IsB64Char(s[0]) || !IsB64Char(s[1]) then None
    else if |s| == 2 then
      var b := Octets(B64Value(s[0]), B64Value(s[1]), 0, 0);
      Some([b.0])
    else if !IsB64Char(s[2]) then None
    else if |s| == 3 then
      var b := Octets(B64Value(s[0]), B64Value(s[1]), B64Value(s[2]), 0);
      Some([b.0, b.1])
    else if !IsB64Char(s[3]) then None
    else
      var b := Octets(B64Value(s[0]), B64Value(s[1]), B64Value(s[2]), B64Value(s[3]));
      match Base64UrlDecode(s[4..])
      case None => None
      case Some(rest) => Some([b.0, b.1, b.2] + rest)
  }

  /** A one-byte tail decodes back. */
  lemma DecodeOneByte(x: byte)
    ensures Base64UrlDecode(Base64UrlEncode([x])) == Some([x])
  {
    var s := Base64UrlEncode([x]);
    var c := Sextets(x, 0, 0);
    B64CharValue(c.0);
    B64CharValue(c.1);
    SextetsOctets(x, 0, 0);
    assert c.2 == 0 && c.3 == 0;
    assert s == [B64Char(c.0), B64Char(c.1)];
    assert Octets(B64Value(s[0]), B64Value(s[1]), 0, 0) == (x, 0, 0);
  }

  /** A two-byte tail decodes back. */
  lemma DecodeTwoBytes(x: byte, y: byte)
    ensures Base64UrlDecode(Base64UrlEncode([x, y])) == Some([x, y])
  {
    var s := Base64UrlEncode([x, y]);
    var c := Sextets(x, y, 0);
    B64CharValue(c.0);
    B64CharValue(c.1);
    B64CharValue(c.2);
    SextetsOctets(x, y, 0);
    assert c.3 == 0;
    assert s == [B64Char(c.0), B64Char(c.1), B64Char(c.2)];
    assert Octets(B64Value(s[0]), B64Value(s[1]), B64Value(s[2]), 0) == (x, y, 0);
  }

  /** Four alphabet characters decode to one group of three bytes ahead of
      whatever the rest decodes to. */
  lemma DecodeHead(head: string, rest: string)
    requires |head| == 4 && IsB64Char(head[0]) && IsB64Char(head[1]) && IsB64Char(head[2]) && IsB64Char(head[3])
    ensures Base64UrlDecode(rest).None? ==> Base64UrlDecode(head + rest).None?
    ensures var o := Octets(B64Value(head[0]), B64Value(head[1]), B64Value(head[2]), B64Value(head[3]));
      Base64UrlDecode(rest).Some? ==> Base64UrlDecode(head + rest) == Some([o.0, o.1, o.2] + Base64UrlDecode(rest).value)
  {
    var s := head + rest;
    assert s[0] == head[0] && s[1] == head[1] && s[2] == head[2] && s[3] == head[3];
    assert s[4..] == rest;
  }

  /** The four characters that encode the first three bytes. */
  function GroupHead(b: seq<byte>): (h: string)
    requires |b| >= 3
    ensures |h| == 4
  {
    var c := Sextets(b[0], b[1], b[2]);
    [B64Char(c.0), B64Char(c.1), B64Char(c.2), B64Char(c.3)]
  }

  /** The four characters of a group are in the alphabet and carry its three
      bytes. */
  lemma GroupHeadOctets(b: seq<byte>)
    requires |b| >= 3
    ensures var h := GroupHead(b);
      && IsB64Char(h[0]) && IsB64Char(h[1]) && IsB64Char(h[2]) && IsB64Char(h[3])
      && Octets(B64Value(h[0]), B64Value(h[1]), B64Value(h[2]), B64Value(h[3])) == (b[0], b[1], b[2])
  {
    var c := Sextets(b[0], b[1], b[2]);
    B64CharValue(c.0);
    B64CharValue(c.1);
    B64CharValue(c.2);
    B64CharValue(c.3);
    SextetsOctets(b[0], b[1], b[2]);
  }

  /** The encoding of three or more bytes starts with the first group's
      four characters. */
  lemma EncodeGroup(b: seq<byte>)
    requires |b| >= 3
    ensures Base64UrlEncode(b) == GroupHead(b) + Base64UrlEncode(b[3..])
  {
  }

  /** A full group of three bytes decodes back ahead of whatever the rest
      decodes to. */
  lemma DecodeGroup(b: seq<byte>, rest: string)
    requires |b| >= 3 && rest == Base64UrlEncode(b[3..])
    ensures Base64UrlDecode(rest).None? ==> Base64UrlDecode(Base64UrlEncode(b)).None?
    ensures Base64UrlDecode(rest).Some? ==>
      Base64UrlDecode(Base64UrlEncode(b)) == Some([b[0], b[1], b[2]] + Base64UrlDecode(rest).value)
  {
    EncodeGroup(b);
    GroupHeadOctets(b);
    DecodeHead(GroupHead(b), rest);
  }

  lemma SplitGroup(b: seq<byte>)
    requires |b| >= 3
    ensures b == [b[0], b[1], b[2]] + b[3..]
  {
  }

  /** Decoding inverts encoding, so the token carries every random byte. */
  lemma {:induction false} Base64UrlRoundTrip(b: seq<byte>)
    ensures Base64UrlDecode(Base64UrlEncode(b)) == Some(b)
    decreases |b|
  {
    if |b| == 1 {
      DecodeOneByte(b[0]);
      assert b == [b[0]];
    } else if |b| == 2 {
      DecodeTwoBytes(b[0], b[1]);
      assert b == [b[0], b[1]];
    } else if |b| >= 3 {
      DecodeGroup(b, Base64UrlEncode(b[3..]));
      Base64UrlRoundTrip(b[3..]);
      SplitGroup(b);
    }
  }

  /** Different byte strings have different encodings. */
  lemma Base64UrlInjective(a: seq<byte>, b: seq<byte>)
    requires Base64UrlEncode(a) == Base64UrlEncode(b)
    ensures a == b
  {
    Base64UrlRoundTrip(a);
    Base64UrlRoundTrip(b);
  }

  // ------------------------------------------------------------------- hex

  predicate IsLowerHex(c: char) {
    ('0' <= c <= '9') || ('a' <= c <= 'f')
  }

  function HexDigit(v: nat): (c: char)
    requires v < 16
    ensures IsLowerHex(c)
  {
    if v < 10 then ('0' as int + v) as char else ('a' as int + (v - 10)) as char
  }

  function HexValue(c: char): (v: nat)
    requires IsLowerHex(c)
    ensures v < 16 && HexDigit(v) == c
  {
    if '0' <= c <= '9' then c as int - '0' as int else c as int - 'a' as int + 10
  }

  /** `hex.EncodeToString`: two lower-case digits per byte, high nibble first. */
  function HexLower(b: seq<byte>): (s: string)
    ensures |s| == 2 * |b|
    ensures forall i :: 0 <= i < |s| ==> IsLowerHex(s[i])
    decreases |b|
  {
    if b == [] then ""
    else [HexDigit(b[0] as int / 16), HexDigit(b[0] as int % 16)] + HexLower(b[1..])
  }

  function HexDecode(s: string): (r: Option<seq<byte>>)
    decreases |s|
  {
    if s == [] then Some([])
    else if |s| == 1 || !IsLowerHex(s[0]) || !IsLowerHex(s[1]) then None
    else
      match HexDecode(s[2..])
      case None => None
      case Some(rest) => Some([(HexValue(s[0]) * 16 + HexValue(s[1])) as byte] + rest)
  }

  lemma {:induction false} HexRoundTrip(b: seq<byte>)
    ensures HexDecode(HexLower(b)) == Some(b)
    decreases |b|
  {
    if b != [] {
      var s := HexLower(b);
      assert s[2..] == HexLower(b[1..]);
      HexRoundTrip(b[1..]);
      assert HexValue(HexDigit(b[0] as int / 16)) == b[0] as int / 16;
      assert HexValue(HexDigit(b[0] as int % 16)) == b[0] as int % 16;
      assert b == [b[0]] + b[1..];
    }
  }
}

=== FILE: feed_client.dfy ===
/** The upstream client: which day feeds are requested, how one reply's
    envelope is unwrapped to its `scores` value, and how the seven-day loops
    merge the days that succeeded. The HTTP exchange is an oracle from a day
    selector to a reply. */
module FeedClient {
  import opened Wrappers
  import opened Json
  import opened Text
  import opened JsonNumber

  /** The last path segment of a feed request: today, `n` days back, `n` days ahead. */
  datatype Selector = Today | PastDay(n: nat) | FutureDay(n: nat)

  function SelectorPath(sel: Selector): (p: string)
    ensures sel.Today? ==> p == "home"
    ensures sel.PastDay? ==> |p| >= 3 && p[..2] == "d-" && AllDigits(p[2..]) && DigitsValue(p[2..]) == sel.n
    ensures sel.FutureDay? ==> |p| >= 2 && p[..1] == "d" && AllDigits(p[1..]) && DigitsValue(p[1..]) == sel.n
  {
    match sel
    case Today => "home"
    case PastDay(n) => "d-" + FormatNat(n)
    case FutureDay(n) => "d" + FormatNat(n)
  }

  /** Different selectors never share a request path. */
  lemma SelectorPathInjective(a: Selector, b: Selector)
    requires a != b
    ensures SelectorPath(a) != SelectorPath(b)
  {
    var p, q := SelectorPath(a), SelectorPath(b);
    if a.Today? || b.Today? {
      assert p[0] != q[0];
    } else if a.PastDay? != b.PastDay? {
      assert IsDigit(p[1..][0]) != IsDigit(q[1..][0]);
    } else if a.PastDay? {
      assert DigitsValue(p[2..]) != DigitsValue(q[2..]);
    } else {
      assert DigitsValue(p[1..]) != DigitsValue(q[1..]);
    }
  }

  /** The request URL for a soccer feed day. */
  function FeedUrl(baseUrl: string, apiKey: string, sel: Selector): string {
    baseUrl + "/getfeed/" + apiKey + "/soccernew/" + SelectorPath(sel) + "?json=1"
  }

  /** What the transport delivers: nothing (connection or read failure), or a
      status code with a body that is either well-formed JSON or not. */
  datatype Reply = NoReply | Reply(status: int, body: Option<Json>)

  datatype FetchError =
    | TransportFailed
    | BadStatus(status: int)
    | MalformedBody
    | NoScoresField
    | ScoresUndecodable(cause: DecodeError)

  /** `fetchMatchesFromURL`: the body must decode into a map of `interface{}`
      values, so it must be a JSON object whose every number, at any depth,
      fits a `float64`; then it must hold `scores`, and only that value is
      decoded further. A `null` body decodes to a nil map, which has no
      `scores` field; a `scores` present with value `null` is accepted. */
  function Unwrap<C>(reply: Reply, decode: Json -> Result<seq<C>, DecodeError>): (r: Result<seq<C>, FetchError>)
    ensures reply.NoReply? ==> r == Failure(TransportFailed)
    ensures reply.Reply? && reply.status != 200 ==> r == Failure(BadStatus(reply.status))
    ensures reply.Reply? && reply.status == 200 && reply.body.Some? && reply.body.value.JNull? ==> r == Failure(NoScoresField)
    ensures reply.Reply? && reply.status == 200 && reply.body.Some? && reply.body.value.JObject? && !NumbersFit(reply.body.value)
      ==> r == Failure(MalformedBody)
    ensures r.Success? <==>
      && reply.Reply? && reply.status == 200 && reply.body.Some? && reply.body.value.JObject?
      && NumbersFit(reply.body.value) && "scores" in reply.body.value.fields && decode(reply.body.value.fields["scores"]).Success?
    ensures r.Success? ==> r.value == decode(reply.body.value.fields["scores"]).value
  {
    match reply
    case NoReply => Failure(TransportFailed)
    case Reply(status, body) =>
      if status != 200 then Failure(BadStatus(status))
      else
        match body
        case None => Failure(MalformedBody)
        case Some(JNull) => Failure(NoScoresField)
        case Some(JObject(fields)) =>
          if !NumbersFit(JObject(fields)) then Failure(MalformedBody)
          else if "scores" !in fields then Failure(NoScoresField)
          else if decode(fields["scores"]).Failure? then
            Failure(ScoresUndecodable(decode(fields["scores"]).error))
          else Success(decode(fields["scores"]).value)
        case Some(_) => Failure(MalformedBody)
  }

  /** A body holding more than `scores` decodes exactly like one holding only
      `scores`, as long as the other members decode into `interface{}` at all:
      their values are otherwise ignored. */
  lemma OnlyScoresMatters<C>(fields: map<string, Json>, decode: Json -> Result<seq<C>, DecodeError>)
    requires "scores" in fields
    requires forall k :: k in fields && k != "scores" ==> NumbersFit(fields[k])
    ensures Unwrap(Reply(200, Some(JObject(fields))), decode)
         == Unwrap(Reply(200, Some(JObject(map["scores" := fields["scores"]]))), decode)
  {
    var alone := map["scores" := fields["scores"]];
    assert NumbersFit(JObject(fields)) <==> NumbersFit(fields["scores"]);
    assert NumbersFit(JObject(alone)) <==> NumbersFit(fields["scores"]) by {
      assert "scores" in alone && alone["scores"] == fields["scores"];
      assert forall k :: k in alone ==> k == "scores";
    }
  }

  /** A single number out of `float64` range anywhere in the envelope fails
      the whole fetch, whatever `scores` holds: `{"scores": ..., "x": 1e400}`. */
  lemma OutOfRangeNumberFailsFetch<C>(fields: map<string, Json>, decode: Json -> Result<seq<C>, DecodeError>)
    ensures Unwrap(Reply(200, Some(JObject(fields["x" := JNumber("1e400")]))), decode) == Failure(MalformedBody)
  {
    PowerOfTenTexts(400);
    assert FormatNat(400) == "400";
    assert "1e" + "400" == "1e400";
    var body := fields["x" := JNumber("1e400")];
    assert "x" in body && !NumbersFit(body["x"]);
  }

  /** The day selector of attempt `day` (1 to 7) of a seven-day loop. */
  function DaySelector(past: bool, day: nat): Selector {
    if past then PastDay(day) else FutureDay(day)
  }

  /** Concatenation, in attempt order, of the categories of the attempts that
      succeeded; failed attempts contribute nothing. */
  function Merged<C>(attempts: seq<Selector>, http: Selector -> Reply, decode: Json -> Result<seq<C>, DecodeError>): seq<C>
    decreases |attempts|
  {
    if attempts == [] then []
    else
      var last := Unwrap(http(attempts[|attempts| - 1]), decode);
      Merged(attempts[..|attempts| - 1], http, decode) + (if last.Success? then last.value else [])
  }

  /** `FetchMatchesPast7Days` (`past`) and `FetchMatchesFuture7Days`: seven
      attempts for days 1 to 7 in order, failures skipped, never an error. */
  method FetchSevenDays<C>(past: bool, http: Selector -> Reply, decode: Json -> Result<seq<C>, DecodeError>)
    returns (merged: seq<C>, attempts: seq<Selector>)
    ensures |attempts| == 7
    ensures forall i :: 0 <= i < 7 ==> attempts[i] == DaySelector(past, i + 1)
    ensures merged == Merged(attempts, http, decode)
  {
    merged := [];
    attempts := [];
    var day := 1;
    while day <= 7
      invariant 1 <= day <= 8
      invariant |attempts| == day - 1
      invariant forall i :: 0 <= i < |attempts| ==> attempts[i] == DaySelector(past, i + 1)
      invariant merged == Merged(attempts, http, decode)
    {
      var sel := DaySelector(past, day);
      var scores := Unwrap(http(sel), decode);
      assert (attempts + [sel])[..|attempts|] == attempts;
      attempts := attempts + [sel];
      if scores.Success? {
        merged := merged + scores.value;
      }
      day := day + 1;
    }
  }

  lemma {:induction false} MergedAppend<C>(a: seq<Selector>, b: seq<Selector>, http: Selector -> Reply, decode: Json -> Result<seq<C>, DecodeError>)
    ensures Merged(a + b, http, decode) == Merged(a, http, decode) + Merged(b, http, decode)
    decreases |b|
  {
    if b == [] {
      assert a + b == a;
    } else {
      var b' := b[..|b| - 1];
      assert (a + b)[..|a + b| - 1] == a + b';
      MergedAppend(a, b', http, decode);
    }
  }

  /** When every day fails the merge is empty (and still not an error). */
  lemma {:induction false} MergedAllFailed<C>(attempts: seq<Selector>, http: Selector -> Reply, decode: Json -> Result<seq<C>, DecodeError>)
    requires forall i :: 0 <= i < |attempts| ==> Unwrap(http(attempts[i]), decode).Failure?
    ensures Merged(attempts, http, decode) == []
    decreases |attempts|
  {
    if attempts != [] {
      MergedAllFailed(attempts[..|attempts| - 1], http, decode);
    }
  }

  /** A single failed day removes exactly that day's categories: the rest is
      the merge of the days before it followed by the merge of the days after. */
  lemma FailedDaySkipped<C>(before: seq<Selector>, sel: Selector, after: seq<Selector>, http: Selector -> Reply, decode: Json -> Result<seq<C>, DecodeError>)
    requires Unwrap(http(sel), decode).Failure?
    ensures Merged(before + [sel] + after, http, decode) == Merged(before, http, decode) + Merged(after, http, decode)
  {
    MergedAppend(before + [sel], after, http, decode);
    assert (before + [sel])[..|before|] == before;
  }

  lemma {:induction false} MergedLength<C>(attempts: seq<Selector>, http: Selector -> Reply, decode: Json -> Result<seq<C>, DecodeError>)
    requires forall i :: 0 <= i < |attempts| ==> Unwrap(http(attempts[i]), decode).Success?
    ensures |Merged(attempts, http, decode)| == TotalLength(attempts, http, decode)
    decreases |attempts|
  {
    if attempts != [] {
      MergedLength(attempts[..|attempts| - 1], http, decode);
    }
  }

  lemma MergedOne<C>(sel: Selector, http: Selector -> Reply, decode: Json -> Result<seq<C>, DecodeError>)
    ensures Merged([sel], http, decode) == (if Unwrap(http(sel), decode).Success? then Unwrap(http(sel), decode).value else [])
  {
    assert [sel][..0] == [];
  }

  lemma SplitAround<T>(s: seq<T>, i: nat)
    requires i < |s|
    ensures s == s[..i] + ([s[i]] + s[i + 1..])
  {
  }

  /** The merge splits around any one day. */
  lemma MergedAround<C>(attempts: seq<Selector>, i: nat, http: Selector -> Reply, decode: Json -> Result<seq<C>, DecodeError>)
    requires i < |attempts|
    ensures Merged(attempts, http, decode)
      == Merged(attempts[..i], http, decode) + (Merged([attempts[i]], http, decode) + Merged(attempts[i + 1..], http, decode))
  {
    SplitAround(attempts, i);
    MergedAppend(attempts[..i], [attempts[i]] + attempts[i + 1..], http, decode);
    MergedAppend([attempts[i]], attempts[i + 1..], http, decode);
  }

  lemma MiddleSlice<T>(a: seq<T>, d: seq<T>, b: seq<T>)
    ensures |a| + |d| <= |a + (d + b)| && (a + (d + b))[|a|..|a| + |d|] == d
  {
  }

  /** Day `i`'s categories sit in the merge right after those of the days
      before it. */
  lemma MergedDayAt<C>(attempts: seq<Selector>, i: nat, http: Selector -> Reply, decode: Json -> Result<seq<C>, DecodeError>)
    requires i < |attempts|
    requires forall j :: 0 <= j < |attempts| ==> Unwrap(http(attempts[j]), decode).Success?
    ensures var start := TotalLength(attempts[..i], http, decode);
      var day := Unwrap(http(attempts[i]), decode).value;
      start + |day| <= |Merged(attempts, http, decode)| && Merged(attempts, http, decode)[start..start + |day|] == day
  {
    MergedAround(attempts, i, http, decode);
    MergedOne(attempts[i], http, decode);
    MergedLength(attempts[..i], http, decode);
    MiddleSlice(Merged(attempts[..i], http, decode), Unwrap(http(attempts[i]), decode).value, Merged(attempts[i + 1..], http, decode));
  }

  /** When every day succeeds, the merge is the days' categories laid end to
      end in day order: day `i`'s categories start where the days before it
      end, and nothing else is in the merge. */
  lemma MergedAllSucceeded<C>(attempts: seq<Selector>, http: Selector -> Reply, decode: Json -> Result<seq<C>, DecodeError>)
    requires forall i :: 0 <= i < |attempts| ==> Unwrap(http(attempts[i]), decode).Success?
    ensures |Merged(attempts, http, decode)| == TotalLength(attempts, http, decode)
    ensures forall i :: 0 <= i < |attempts| ==>
      var start := TotalLength(attempts[..i], http, decode);
      var day := Unwrap(http(attempts[i]), decode).value;
      start + |day| <= |Merged(attempts, http, decode)| && Merged(attempts, http, decode)[start..start + |day|] == day
  {
    MergedLength(attempts, http, decode);
    forall i | 0 <= i < |attempts|
      ensures var start := TotalLength(attempts[..i], http, decode);
        var day := Unwrap(http(attempts[i]), decode).value;
        start + |day| <= |Merged(attempts, http, decode)| && Merged(attempts, http, decode)[start..start + |day|] == day
    {
      MergedDayAt(attempts, i, http, decode);
    }
  }

  function TotalLength<C>(attempts: seq<Selector>, http: Selector -> Reply, decode: Json -> Result<seq<C>, DecodeError>): nat
    requires forall i :: 0 <= i < |attempts| ==> Unwrap(http(attempts[i]), decode).Success?
    decreases |attempts|
  {
    if attempts == [] then 0
    else TotalLength(attempts[..|attempts| - 1], http, decode) + |Unwrap(http(attempts[|attempts| - 1]), decode).value|
  }

  /** `FetchTodayMatches`: the single `home` request. */
  function FetchToday<C>(http: Selector -> Reply, decode: Json -> Result<seq<C>, DecodeError>): Result<seq<C>, FetchError> {
    Unwrap(http(Today), decode)
  }
}

=== FILE: gateway.dfy ===
/** The protected `/api/v1` chain as the router wires it: authentication,
    then the per-key rate limit, then the sport scope of the route. */
module Gateway {
  import opened Wrappers
  import opened Schema
  import opened KeyStore
  import opened ApiKeys
  import opened Http
  import opened RateLimit
  import opened Auth

  /** What persists between requests: the key table and the limiters. */
  datatype State = State(keys: KeyTable, limiters: Registry)

  /** One request to a route of `sport`. */
  function Handle(s: State, req: Request, sport: string, sha256: string -> Digest, now: int, lookupFault: bool)
    : (r: (Verdict<ApiKey>, State))
    requires KeyTableOk(s.keys)
    ensures var a := Authenticate(s.keys, req.headers, sha256, now, lookupFault);
      r.0.Next? <==>
        && a.Success?
        && Allow(GetLimiter(s.limiters, a.value).0).0
        && HasAccess(a.value.sports, sport)
    ensures var a := Authenticate(s.keys, req.headers, sha256, now, lookupFault);
      a.Success? && !Allow(GetLimiter(s.limiters, a.value).0).0 ==> r.0 == Stop(TooManyRequests())
    ensures r.0.Next? ==> r.0.ctx == Authenticate(s.keys, req.headers, sha256, now, lookupFault).value
  {
    var (v1, keys1) := ApiKeyAuth(s.keys, req, sha256, now, lookupFault);
    match v1
    case Stop(reply) => (Stop(reply), State(keys1, s.limiters))
    case Next(k) =>
      var (v2, reg1) := Limit(s.limiters, Some(k));
      match v2
      case Stop(reply) => (Stop(reply), State(keys1, reg1))
      case Next(_) => (RequireSport(Some(k), sport), State(keys1, reg1))
  }

  /** A request refused by authentication touches neither the key table nor
      any limiter. */
  lemma AuthRefusalChangesNothing(s: State, req: Request, sport: string, sha256: string -> Digest, now: int, lookupFault: bool)
    requires KeyTableOk(s.keys)
    requires Authenticate(s.keys, req.headers, sha256, now, lookupFault).Failure?
    ensures var (v, s') := Handle(s, req, sport, sha256, now, lookupFault);
      v.Stop? && v.reply.status == StatusUnauthorized && s' == s
  {
  }

  /** A request refused for its sport scope has already spent a token: the
      rate check runs first. */
  lemma ScopeRefusalSpendsToken(s: State, req: Request, sport: string, sha256: string -> Digest, now: int, lookupFault: bool)
    requires KeyTableOk(s.keys)
    requires Authenticate(s.keys, req.headers, sha256, now, lookupFault).Success?
    requires Handle(s, req, sport, sha256, now, lookupFault).0 ==
             Stop(ErrorReply(StatusForbidden, "FORBIDDEN", "API key does not have access to " + sport + " data"))
    ensures var k := Authenticate(s.keys, req.headers, sha256, now, lookupFault).value;
            var (l, _) := GetLimiter(s.limiters, k);
            var s' := Handle(s, req, sport, sha256, now, lookupFault).1;
            k.keyHash in s'.limiters && Available(s'.limiters[k.keyHash]) == Available(l) - 1
  {
  }

  /** A key freshly issued and stored authenticates, presented as a bearer
      token, as the row just stored. */
  lemma IssuedKeyAuthenticates(s: State, random: Bytes32, sha256: string -> Digest, name: string, sports: seq<string>,
                               rateLimit: int, created: int, now: int)
    requires KeyTableOk(s.keys)
    requires var k := GenerateApiKey(Some(random), sha256);
             CreateApiKey(s.keys, k.hash, k.prefix, name, sports, rateLimit, created).1.Success?
    ensures var k := GenerateApiKey(Some(random), sha256);
            var (keys', r) := CreateApiKey(s.keys, k.hash, k.prefix, name, sports, rateLimit, created);
            var req := Request("GET", map["Authorization" := BearerPrefix + k.plain]);
            && KeyTableOk(keys') && r.value.keyHash == k.hash && r.value.rateLimit == rateLimit && r.value.sports == sports
            && Authenticate(keys', req.headers, sha256, now, false) == Success(r.value)
  {
    var k := GenerateApiKey(Some(random), sha256);
    var (keys', r) := CreateApiKey(s.keys, k.hash, k.prefix, name, sports, rateLimit, created);
    CreateKeepsTableOk(s.keys, k.hash, k.prefix, name, sports, rateLimit, created);
    ExtractRoundTrip(k.plain, "");
    var req := Request("GET", map["Authorization" := BearerPrefix + k.plain]);
    assert ExtractApiKey(req.headers) == k.plain;
    FittingHashStoredVerbatim(s.keys, k.hash, k.prefix, name, sports, rateLimit, created);
    assert keys'.rows[|keys'.rows| - 1] == r.value;
  }

  /** A key freshly issued and stored with a rate limit of zero or more is
      accepted when presented as a bearer token on a route in its scope, on
      the first request. */
  lemma IssuedKeyAccepted(s: State, random: Bytes32, sha256: string -> Digest, name: string, sports: seq<string>,
                          rateLimit: int, created: int, now: int, sport: string)
    requires KeyTableOk(s.keys)
    requires HasAccess(sports, sport)
    requires rateLimit >= 0
    requires var k := GenerateApiKey(Some(random), sha256);
             CreateApiKey(s.keys, k.hash, k.prefix, name, sports, rateLimit, created).1.Success?
    requires GenerateApiKey(Some(random), sha256).hash !in s.limiters
    ensures var k := GenerateApiKey(Some(random), sha256);
            var (keys', r) := CreateApiKey(s.keys, k.hash, k.prefix, name, sports, rateLimit, created);
            var req := Request("GET", map["Authorization" := BearerPrefix + k.plain]);
            Handle(State(keys', s.limiters), req, sport, sha256, now, false).0 == Next(r.value)
  {
    IssuedKeyAuthenticates(s, random, sha256, name, sports, rateLimit, created, now);
  }

  /** A key issued with a negative rate limit is refused with 429 from its
      very first request: its bucket starts empty and never refills. */
  lemma NegativeRateKeyThrottled(s: State, random: Bytes32, sha256: string -> Digest, name: string, sports: seq<string>,
                                 rateLimit: int, created: int, now: int, sport: string)
    requires KeyTableOk(s.keys)
    requires rateLimit < 0
    requires var k := GenerateApiKey(Some(random), sha256);
             CreateApiKey(s.keys, k.hash, k.prefix, name, sports, rateLimit, created).1.Success?
    requires GenerateApiKey(Some(random), sha256).hash !in s.limiters
    ensures var k := GenerateApiKey(Some(random), sha256);
            var (keys', r) := CreateApiKey(s.keys, k.hash, k.prefix, name, sports, rateLimit, created);
            var req := Request("GET", map["Authorization" := BearerPrefix + k.plain]);
            Handle(State(keys', s.limiters), req, sport, sha256, now, false).0 == Stop(TooManyRequests())
  {
    IssuedKeyAuthenticates(s, random, sha256, name, sports, rateLimit, created, now);
  }
}

=== FILE: goalserve.dfy ===
/** The upstream feed's document model and its decoders: soccer categories
    holding a `matches` wrapper, basketball categories holding `match`
    directly. Both collapse the feed's quirk of sending a lone match as a bare
    object instead of a one-element array. */
module Goalserve {
  import opened Wrappers
  import opened Json

  // ---------------------------------------------------------------- soccer

  datatype Team = Team(id: string, name: string, goals: string)

  datatype Score = Score(score: string)

  datatype Event = Event(kind: string, team: string, player: string, time: string)

  /** A soccer match as the feed sends it: every field is text; `events` is
      kept as the raw JSON value (absent and `null` both read as `null`). */
  datatype Match = Match(
    id: string, date: string, formattedDate: string, time: string, status: string,
    localTeam: Team, visitorTeam: Team, ht: Score, ft: Score, events: Json)

  datatype Category = Category(id: string, gid: string, name: string, matches: seq<Match>)

  const ZeroTeam := Team("", "", "")
  const ZeroMatch := Match("", "", "", "", "", ZeroTeam, ZeroTeam, Score(""), Score(""), JNull)

  /** Decoding into a Go struct: `null` leaves the zero value, an object fills
      the fields, anything else is a type error. */
  function DecodeStruct<T>(j: Json, zero: T, what: string, fill: map<string, Json> -> Result<T, DecodeError>): (r: Result<T, DecodeError>)
    ensures j.JNull? ==> r == Success(zero)
    ensures j.JObject? ==> r == fill(j.fields)
    ensures !j.JNull? && !j.JObject? ==> r.Failure?
  {
    match j
    case JNull => Success(zero)
    case JObject(f) => fill(f)
    case _ => Failure(ExpectedObject(what))
  }

  function FillTeam(f: map<string, Json>): Result<Team, DecodeError> {
    var id :- StringField(f, "@id");
    var name :- StringField(f, "@name");
    var goals :- StringField(f, "@goals");
    Success(Team(id, name, goals))
  }

  function DecodeTeam(j: Json): Result<Team, DecodeError> {
    DecodeStruct(j, ZeroTeam, "team", FillTeam)
  }

  function FillScore(f: map<string, Json>): Result<Score, DecodeError> {
    var s :- StringField(f, "@score");
    Success(Score(s))
  }

  function DecodeScore(j: Json): Result<Score, DecodeError> {
    DecodeStruct(j, Score(""), "score", FillScore)
  }

  function FillEvent(f: map<string, Json>): Result<Event, DecodeError> {
    var kind :- StringField(f, "@type");
    var team :- StringField(f, "@team");
    var player :- StringField(f, "@player");
    var time :- StringField(f, "@time");
    Success(Event(kind, team, player, time))
  }

  function DecodeEvent(j: Json): Result<Event, DecodeError> {
    DecodeStruct(j, Event("", "", "", ""), "event", FillEvent)
  }

  /** An event as the feed spells it: one object of four string members. */
  function EventJson(e: Event): Json {
    JObject(map["@type" := JString(e.kind), "@team" := JString(e.team), "@player" := JString(e.player), "@time" := JString(e.time)])
  }

  lemma DecodeEventJson(e: Event)
    ensures DecodeEvent(EventJson(e)) == Success(e)
  {
    var f := EventJson(e).fields;
    assert Field(f, "@type") == JString(e.kind) && Field(f, "@team") == JString(e.team);
    assert Field(f, "@player") == JString(e.player) && Field(f, "@time") == JString(e.time);
  }

  function FillMatch(f: map<string, Json>): Result<Match, DecodeError> {
    var id :- StringField(f, "@id");
    var date :- StringField(f, "@date");
    var formatted :- StringField(f, "@formatted_date");
    var time :- StringField(f, "@time");
    var status :- StringField(f, "@status");
    var local :- DecodeTeam(Field(f, "localteam"));
    var visitor :- DecodeTeam(Field(f, "visitorteam"));
    var ht :- DecodeScore(Field(f, "ht"));
    var ft :- DecodeScore(Field(f, "ft"));
    Success(Match(id, date, formatted, time, status, local, visitor, ht, ft, Field(f, "events")))
  }

  function DecodeMatch(j: Json): Result<Match, DecodeError> {
    DecodeStruct(j, ZeroMatch, "match", FillMatch)
  }

  /** Shape-directed decode of a value the feed sends either as an array of
      items or, when there is a single item, as the bare item object. Any other
      value (absent, `null`, a string, ...) means no items and is not an error. */
  function OneOrMany<T>(raw: Json, item: Json -> Result<T, DecodeError>): (r: Result<seq<T>, DecodeError>)
    ensures raw.JArray? ==> r == DecodeEach(raw.items, item)
    ensures raw.JObject? ==> (r.Success? <==> item(raw).Success?)
    ensures raw.JObject? && r.Success? ==> r.value == [item(raw).value]
    ensures !raw.JArray? && !raw.JObject? ==> r == Success([])
  {
    match raw
    case JArray(items) => DecodeEach(items, item)
    case JObject(_) =>
      var x :- item(raw);
      Success([x])
    case _ => Success([])
  }

  /** A bare item and a one-element array holding the same item decode alike. */
  lemma BareItemAsOneElementArray<T>(obj: map<string, Json>, item: Json -> Result<T, DecodeError>)
    ensures OneOrMany(JObject(obj), item) == OneOrMany(JArray([JObject(obj)]), item)
  {
    var r := DecodeEach([JObject(obj)], item);
    match item(JObject(obj))
    case Success(x) =>
      assert r.Success? && |r.value| == 1 && r.value[0] == x;
      assert r.value == [x];
      assert OneOrMany(JObject(obj), item) == Success([x]);
    case Failure(e) =>
      assert r == Failure(e);
  }

  /** `GoalServeMatchesData.UnmarshalJSON`: the `matches` value must be an
      object (or `null`); its `match` member is decoded by shape. The soccer
      wrapper `GoalServeSoccerMatchesData` is a line-for-line copy over an
      identically shaped match type, so this one function models both. */
  function DecodeMatches(j: Json): (r: Result<seq<Match>, DecodeError>)
    ensures j.JNull? ==> r == Success([])
    ensures !j.JNull? && !j.JObject? ==> r.Failure?
    ensures j.JObject? ==> r == OneOrMany(Field(j.fields, "match"), DecodeMatch)
  {
    match j
    case JNull => Success([])
    case JObject(f) => OneOrMany(Field(f, "match"), DecodeMatch)
    case _ => Failure(ExpectedObject("matches"))
  }

  /** A `matches` object whose `match` member is a bare match object decodes
      like one whose `match` is a one-element array of that object. */
  lemma BareMatchAsArray(m: map<string, Json>, rest: map<string, Json>)
    ensures DecodeMatches(JObject(rest["match" := JObject(m)]))
         == DecodeMatches(JObject(rest["match" := JArray([JObject(m)])]))
  {
    BareItemAsOneElementArray(m, DecodeMatch);
  }

  /** An absent or `null` `match` member decodes to the empty list, never an error. */
  lemma NoMatchIsEmpty(rest: map<string, Json>)
    requires "match" !in rest || rest["match"] == JNull
    ensures DecodeMatches(JObject(rest)) == Success([])
  {
  }

  /** A lone match object whose fields have the wrong type makes the whole
      `matches` value fail. */
  lemma MalformedBareMatchFails(m: map<string, Json>, rest: map<string, Json>)
    requires "@id" in m && m["@id"].JNumber?
    ensures DecodeMatches(JObject(rest["match" := JObject(m)])).Failure?
  {
    assert FillMatch(m).Failure?;
  }

  function FillCategory(f: map<string, Json>): Result<Category, DecodeError> {
    var id :- StringField(f, "@id");
    var gid :- StringField(f, "@gid");
    var name :- StringField(f, "@name");
    var matches :- DecodeMatches(Field(f, "matches"));
    Success(Category(id, gid, name, matches))
  }

  function DecodeCategory(j: Json): Result<Category, DecodeError> {
    DecodeStruct(j, Category("", "", "", []), "category", FillCategory)
  }

  /** Decoding a slice field: absent or `null` give the empty slice, an array
      is decoded element by element, anything else is a type error. A lone
      object is NOT accepted here. */
  function DecodeList<T>(j: Json, what: string, item: Json -> Result<T, DecodeError>): (r: Result<seq<T>, DecodeError>)
    ensures j.JNull? ==> r == Success([])
    ensures j.JArray? ==> r == DecodeEach(j.items, item)
    ensures !j.JNull? && !j.JArray? ==> r.Failure?
  {
    match j
    case JNull => Success([])
    case JArray(items) => DecodeEach(items, item)
    case _ => Failure(ExpectedArray(what))
  }

  /** The `scores` document: `{"category": [...]}`. */
  function DecodeScores(j: Json): Result<seq<Category>, DecodeError> {
    match j
    case JNull => Success([])
    case JObject(f) => DecodeList(Field(f, "category"), "category", DecodeCategory)
    case _ => Failure(ExpectedObject("scores"))
  }

  // ------------------------------------------------------------ basketball

  datatype BasketballTeam = BasketballTeam(
    id: string, name: string, totalScore: string,
    q1: string, q2: string, q3: string, q4: string, ot: string)

  datatype BasketballMatch = BasketballMatch(
    id: string, date: string, time: string, status: string, timer: string,
    localTeam: BasketballTeam, awayTeam: BasketballTeam)

  datatype BasketballCategory = BasketballCategory(
    id: string, gid: string, name: string, fileGroup: string, matches: seq<BasketballMatch>)

  const ZeroBasketballTeam := BasketballTeam("", "", "", "", "", "", "", "")
  const ZeroBasketballMatch := BasketballMatch("", "", "", "", "", ZeroBasketballTeam, ZeroBasketballTeam)

  function FillBasketballTeam(f: map<string, Json>): Result<BasketballTeam, DecodeError> {
    var id :- StringField(f, "id");
    var name :- StringField(f, "name");
    var total :- StringField(f, "totalscore");
    var q1 :- StringField(f, "q1");
    var q2 :- StringField(f, "q2");
    var q3 :- StringField(f, "q3");
    var q4 :- StringField(f, "q4");
    var ot :- StringField(f, "ot");
    Success(BasketballTeam(id, name, total, q1, q2, q3, q4, ot))
  }

  function DecodeBasketballTeam(j: Json): Result<BasketballTeam, DecodeError> {
    DecodeStruct(j, ZeroBasketballTeam, "team", FillBasketballTeam)
  }

  function FillBasketballMatch(f: map<string, Json>): Result<BasketballMatch, DecodeError> {
    var id :- StringField(f, "id");
    var date :- StringField(f, "date");
    var time :- StringField(f, "time");
    var status :- StringField(f, "status");
    var timer :- StringField(f, "timer");
    var local :- DecodeBasketballTeam(Field(f, "localteam"));
    var away :- DecodeBasketballTeam(Field(f, "awayteam"));
    Success(BasketballMatch(id, date, time, status, timer, local, away))
  }

  function DecodeBasketballMatch(j: Json): Result<BasketballMatch, DecodeError> {
    DecodeStruct(j, ZeroBasketballMatch, "match", FillBasketballMatch)
  }

  /** `GoalServeBasketballMatchData.UnmarshalJSON`: the raw `match` value itself
      is inspected, with no inner wrapper key, so every shape other than an
      array or an object (including `null`) gives the empty list. */
  function DecodeBasketballMatches(j: Json): (r: Result<seq<BasketballMatch>, DecodeError>)
    ensures j.JArray? ==> r == DecodeEach(j.items, DecodeBasketballMatch)
    ensures j.JObject? ==> (r.Success? <==> DecodeBasketballMatch(j).Success?)
    ensures j.JObject? && r.Success? ==> r.value == [DecodeBasketballMatch(j).value]
    ensures !j.JArray? && !j.JObject? ==> r == Success([])
  {
    OneOrMany(j, DecodeBasketballMatch)
  }

  /** A bare basketball match object and a one-element array of it decode alike. */
  lemma BareBasketballMatchAsArray(m: map<string, Json>)
    ensures DecodeBasketballMatches(JObject(m)) == DecodeBasketballMatches(JArray([JObject(m)]))
  {
    BareItemAsOneElementArray(m, DecodeBasketballMatch);
  }

  function FillBasketballCategory(f: map<string, Json>): Result<BasketballCategory, DecodeError> {
    var id :- StringField(f, "id");
    var gid :- StringField(f, "gid");
    var name :- StringField(f, "name");
    var group :- StringField(f, "file_group");
    var matches :- DecodeBasketballMatches(Field(f, "match"));
    Success(BasketballCategory(id, gid, name, group, matches))
  }

  function DecodeBasketballCategory(j: Json): Result<BasketballCategory, DecodeError> {
    DecodeStruct(j, BasketballCategory("", "", "", "", []), "category", FillBasketballCategory)
  }

  function DecodeBasketballScores(j: Json): Result<seq<BasketballCategory>, DecodeError> {
    match j
    case JNull => Success([])
    case JObject(f) => DecodeList(Field(f, "category"), "category", DecodeBasketballCategory)
    case _ => Failure(ExpectedObject("scores"))
  }
}

=== FILE: http.dfy ===
/** The small slice of HTTP the middleware chain needs: request headers by
    canonical name, and the replies the middleware writes itself. */
module Http {
  /** Request headers, keyed by canonical name, holding the first value.
      `Get` answers "" for an absent header, as `http.Header.Get` does. */
  type Headers = map<string, string>

  function Get(h: Headers, name: string): (v: string)
    ensures name in h ==> v == h[name]
    ensures name !in h ==> v == ""
  {
    if name in h then h[name] else ""
  }

  datatype Request = Request(verb: string, headers: Headers)

  /** A reply written by a middleware: status, response headers and body. */
  datatype Reply = Reply(status: int, headers: map<string, string>, body: string)

  const StatusNoContent: int := 204
  const StatusUnauthorized: int := 401
  const StatusForbidden: int := 403
  const StatusTooManyRequests: int := 429

  /** The JSON error envelope the middleware writes by concatenation; the
      message is inserted without escaping. */
  function ErrorBody(code: string, message: string): string {
    "{\"success\":false,\"error\":{\"code\":\"" + code + "\",\"message\":\"" + message + "\"}}"
  }

  function ErrorReply(status: int, code: string, message: string): Reply {
    Reply(status, map["Content-Type" := "application/json"], ErrorBody(code, message))
  }

  /** Where a middleware leaves the request: handed on to `next`, or answered
      here without calling `next`. */
  datatype Verdict<C> = Next(ctx: C) | Stop(reply: Reply)
}

=== FILE: json.dfy ===
/** The shape of a decoded JSON value, and the rules by which Go's
    `encoding/json` fills a string field, a slice, or a struct from it. */
module Json {
  import opened Wrappers

  /** A JSON value. Object members are keyed by name; numbers keep their text. */
  datatype Json =
    | JNull
    | JBool(b: bool)
    | JNumber(text: string)
    | JString(s: string)
    | JArray(items: seq<Json>)
    | JObject(fields: map<string, Json>)

  datatype DecodeError =
    | ExpectedObject(what: string)
    | ExpectedString(key: string)
    | ExpectedArray(what: string)

  /** The member `key`, or `null` when it is absent: `encoding/json` leaves the
      destination at its zero value in both cases. */
  function Field(fields: map<string, Json>, key: string): Json {
    if key in fields then fields[key] else JNull
  }

  /** Decoding the member `key` into a Go `string`: absent or `null` leave "",
      a string is copied, any other value is a type error. */
  function StringField(fields: map<string, Json>, key: string): (r: Result<string, DecodeError>)
    ensures r.Success? <==> Field(fields, key).JNull? || Field(fields, key).JString?
    ensures Field(fields, key).JString? ==> r == Success(Field(fields, key).s)
    ensures Field(fields, key).JNull? ==> r == Success("")
  {
    match Field(fields, key)
    case JNull => Success("")
    case JString(s) => Success(s)
    case _ => Failure(ExpectedString(key))
  }

  /** Decoding an array into a Go slice: every element must decode, and the
      slice holds the decoded elements in order. */
  function DecodeEach<T>(items: seq<Json>, item: Json -> Result<T, DecodeError>): (r: Result<seq<T>, DecodeError>)
    ensures r.Success? <==> forall i :: 0 <= i < |items| ==> item(items[i]).Success?
    ensures r.Success? ==> |r.value| == |items|
    ensures r.Success? ==> forall i :: 0 <= i < |items| ==> r.value[i] == item(items[i]).value
  {
    if |items| == 0 then Success([])
    else
      match item(items[0])
      case Failure(e) => Failure(e)
      case Success(x) =>
        match DecodeEach(items[1..], item)
        case Failure(e) =>
          Failure(e)
        case Success(xs) =>
          assert forall i :: 1 <= i < |items| ==> items[i] == items[1..][i - 1];
          Success([x] + xs)
  }
}

=== FILE: json_number.dfy ===
/** How Go's `encoding/json` reads a JSON number into an `interface{}`: as a
    `float64`, through `strconv.ParseFloat`, which reports a range error when
    the number rounds beyond the largest finite double. Only that range test
    is modelled, not the rounded value. */
module JsonNumber {
  import opened Wrappers
  import opened Text
  import opened Json

  function Pow10(n: nat): (p: nat)
    ensures p >= 1
  {
    if n == 0 then 1 else 10 * Pow10(n - 1)
  }

  lemma {:induction false} Pow10Add(a: nat, b: nat)
    ensures Pow10(a + b) == Pow10(a) * Pow10(b)
    decreases a
  {
    if a > 0 {
      Pow10Add(a - 1, b);
      assert Pow10(a + b) == 10 * Pow10(a - 1 + b);
    }
  }

  /** 2^1024 - 2^970, halfway between the largest finite double and 2^1024.
      Rounding to nearest with ties to even takes every magnitude at or above
      it to infinity, which `strconv.ParseFloat` reports as a range error; a
      magnitude below it rounds to a finite double (a tiny one to zero, which
      is no error). */
  const Float64Limit: int := 179769313486231580793728971405303415079934132710037826936173778980444968292764750946649017977587207096330286416692887910946555547851940402630657488671505820681908902000708383676273854845817711531764475730270069855571366959622842914819860834936475292719074168444365510704342711559699508093042880177904174497792

  /** The optional exponent `[eE][+-]?[0-9]+` that ends a JSON number; no
      exponent at all counts as 0. */
  function ExponentPart(s: string): (r: Option<int>)
    ensures s == [] ==> r == Some(0)
    ensures s != [] && s[0] != 'e' && s[0] != 'E' ==> r.None?
  {
    if s == [] then Some(0)
    else if s[0] != 'e' && s[0] != 'E' then None
    else
      var signed := |s| > 1 && (s[1] == '+' || s[1] == '-');
      var digits := if signed then s[2..] else s[1..];
      if digits == [] || !AllDigits(digits) then None
      else if signed && s[1] == '-' then Some(-(DigitsValue(digits) as int))
      else Some(DigitsValue(digits))
  }

  /** What may follow the integer digits of a JSON number: an optional
      fraction `.[0-9]+`, then the optional exponent. Gives the fraction digits
      and the exponent. */
  function Tail(s: string): (r: Option<(string, int)>)
    ensures r.Some? ==> AllDigits(r.value.0)
  {
    if |s| > 0 && s[0] == '.' then
      var frac := DigitPrefix(s[1..]);
      if frac == [] then None
      else
        match ExponentPart(s[1 + |frac|..])
        case None => None
        case Some(e) => Some((frac, e))
    else
      match ExponentPart(s)
      case None => None
      case Some(e) => Some(([], e))
  }

  lemma AllDigitsAppend(a: string, b: string)
    requires AllDigits(a) && AllDigits(b)
    ensures AllDigits(a + b)
  {
  }

  /** A JSON number `-?(0|[1-9][0-9]*)(.[0-9]+)?([eE][+-]?[0-9]+)?` read as its
      magnitude `m * 10^e`: `m` is the digits with the point taken out, `e`
      the exponent less the number of fraction digits. Any other text is None. */
  function Magnitude(t: string): Option<(nat, int)> {
    var body := if |t| > 0 && t[0] == '-' then t[1..] else t;
    var whole := DigitPrefix(body);
    if whole == [] || (whole[0] == '0' && |whole| > 1) then None
    else
      match Tail(body[|whole|..])
      case None => None
      case Some((frac, e)) =>
        AllDigitsAppend(whole, frac);
        Some((DigitsValue(whole + frac), e - |frac|))
  }

  /** The number text decodes into a `float64` without a range error: its
      magnitude lies below `Float64Limit`. With a negative exponent the
      comparison is scaled up rather than divided. */
  predicate FitsFloat64(t: string) {
    match Magnitude(t)
    case None => false
    case Some((m, e)) =>
      if e >= 0 then m * Pow10(e) < Float64Limit else m < Float64Limit * Pow10(-e)
  }

  /** Every number in a decoded value fits a `float64`, which is what decoding
      the whole value into `interface{}` requires. */
  predicate NumbersFit(j: Json) {
    match j
    case JNumber(t) => FitsFloat64(t)
    case JArray(items) => forall i :: 0 <= i < |items| ==> NumbersFit(items[i])
    case JObject(fields) => forall k :: k in fields ==> NumbersFit(fields[k])
    case _ => true
  }

  lemma FormatNatLeadingDigit(n: nat)
    ensures |FormatNat(n)| > 1 ==> FormatNat(n)[0] != '0'
  {
    if n >= 10 {
      FormatNatLeadingDigit(n / 10);
      assert FormatNat(n)[0] == FormatNat(n / 10)[0];
    }
  }

  /** A decimal integer, as `strconv.Itoa` writes it, reads as its own
      magnitude with exponent 0. */
  lemma IntegerMagnitude(n: int)
    ensures Magnitude(FormatInt(n)) == Some((if n < 0 then -n else n, 0))
  {
    var d := FormatNat(if n < 0 then -n else n);
    FormatNatLeadingDigit(if n < 0 then -n else n);
    DigitPrefixAll(d);
    assert d + [] == d;
    if n < 0 {
      assert FormatInt(n)[1..] == d;
    }
  }

  /** An integer text fits a `float64` exactly when its magnitude is below
      the limit: integers of up to 308 digits decode, longer ones do not. */
  lemma IntegerTextsFit(n: int)
    ensures FitsFloat64(FormatInt(n)) <==> -Float64Limit < n < Float64Limit
  {
    IntegerMagnitude(n);
  }

  lemma {:induction false} Pow10Bounds()
    ensures Pow10(308) < Float64Limit < Pow10(309)
  {
    assert Pow10(1) == 10;
    Pow10Add(1, 1);
    assert Pow10(2) == 100;
    Pow10Add(2, 2);
    assert Pow10(4) == 10000;
    Pow10Add(4, 4);
    assert Pow10(8) == 100000000;
    Pow10Add(8, 8);
    assert Pow10(16) == 10000000000000000;
    Pow10Add(16, 16);
    assert Pow10(32) == 100000000000000000000000000000000;
    Pow10Add(32, 32);
    assert Pow10(64) == 10000000000000000000000000000000000000000000000000000000000000000;
    Pow10Add(64, 64);
    assert Pow10(128) == 100000000000000000000000000000000000000000000000000000000000000000000000000000000000000000000000000000000000000000000000000000000;
    Pow10Add(128, 128);
    assert Pow10(256) == 10000000000000000000000000000000000000000000000000000000000000000000000000000000000000000000000000000000000000000000000000000000000000000000000000000000000000000000000000000000000000000000000000000000000000000000000000000000000000000000000000000000000000000;
    Pow10Add(256, 32);
    assert Pow10(288) == 1000000000000000000000000000000000000000000000000000000000000000000000000000000000000000000000000000000000000000000000000000000000000000000000000000000000000000000000000000000000000000000000000000000000000000000000000000000000000000000000000000000000000000000000000000000000000000000000000;
    Pow10Add(288, 16);
    assert Pow10(304) == 10000000000000000000000000000000000000000000000000000000000000000000000000000000000000000000000000000000000000000000000000000000000000000000000000000000000000000000000000000000000000000000000000000000000000000000000000000000000000000000000000000000000000000000000000000000000000000000000000000000000000000;
    Pow10Add(304, 4);
    assert Pow10(308) == 100000000000000000000000000000000000000000000000000000000000000000000000000000000000000000000000000000000000000000000000000000000000000000000000000000000000000000000000000000000000000000000000000000000000000000000000000000000000000000000000000000000000000000000000000000000000000000000000000000000000000000000;
    assert Pow10(309) == 10 * Pow10(308);
  }

  lemma UnsignedExponent(d: string)
    requires d != [] && AllDigits(d)
    ensures ExponentPart("e" + d) == Some(DigitsValue(d) as int)
  {
    assert ("e" + d)[1..] == d;
  }

  lemma LeadingOne(d: string)
    requires d != [] && AllDigits(d)
    ensures DigitPrefix("1e" + d) == "1" && ("1e" + d)[1..] == "e" + d
    ensures Tail("e" + d) == Some(([], DigitsValue(d) as int))
  {
    assert "1e" + d == ['1'] + ("e" + d);
    DigitPrefixCons('1', "e" + d);
    UnsignedExponent(d);
  }

  lemma PowerOfTenMagnitude(e: nat)
    ensures Magnitude("1e" + FormatNat(e)) == Some((1, e))
  {
    var t := "1e" + FormatNat(e);
    LeadingOne(FormatNat(e));
    assert t[0] != '-' && t[1..] == "e" + FormatNat(e);
    assert DigitsValue("1" + []) == 1 by {
      assert "1" + [] == "1";
    }
  }

  lemma {:induction false} Pow10Monotone(a: nat, b: nat)
    requires a <= b
    ensures Pow10(a) <= Pow10(b)
    decreases b - a
  {
    if a < b {
      Pow10Monotone(a, b - 1);
    }
  }

  lemma PowerOfTenFits(e: nat)
    ensures FitsFloat64("1e" + FormatNat(e)) <==> Pow10(e) < Float64Limit
  {
    PowerOfTenMagnitude(e);
    assert 1 * Pow10(e) == Pow10(e);
  }

  /** `1e<e>` decodes exactly when `e` is at most 308: `1e308` is a finite
      double and `1e309` is out of range. */
  lemma PowerOfTenTexts(e: nat)
    ensures FitsFloat64("1e" + FormatNat(e)) <==> e <= 308
  {
    PowerOfTenFits(e);
    Pow10Bounds();
    if e <= 308 {
      Pow10Monotone(e, 308);
    } else {
      Pow10Monotone(309, e);
    }
  }
}

=== FILE: key_store.dfy ===
/** The `api_keys` queries: create, look up by hash, revoke, and stamp the
    last use, over the table held in scan order. */
module KeyStore {
  import opened Wrappers
  import opened Text
  import opened Schema

  /** The first row with the given hash, if any. */
  function FindByHash(rows: seq<ApiKey>, hash: string): (r: Option<ApiKey>)
    ensures r.Some? <==> exists i :: 0 <= i < |rows| && rows[i].keyHash == hash
    ensures r.Some? ==> r.value in rows && r.value.keyHash == hash
    decreases |rows|
  {
    if rows == [] then None
    else if rows[0].keyHash == hash then Some(rows[0])
    else
      var r := FindByHash(rows[1..], hash);
      assert forall i :: 1 <= i < |rows| ==> rows[i] == rows[1..][i - 1];
      r
  }

  /** `GetApiKeyByHash`: since `key_hash` is unique, the row found is the one
      row carrying that hash. */
  function GetApiKeyByHash(t: KeyTable, hash: string): (r: Option<ApiKey>)
    requires KeyTableOk(t)
    ensures r.Some? <==> exists i :: 0 <= i < |t.rows| && t.rows[i].keyHash == hash
    ensures forall i :: 0 <= i < |t.rows| && t.rows[i].keyHash == hash ==> r == Some(t.rows[i])
  {
    FindByHash(t.rows, hash)
  }

  /** Apply `f` to the rows with the given id, keeping order and length. */
  function UpdateWhereId(rows: seq<ApiKey>, id: int, f: ApiKey -> ApiKey): (r: seq<ApiKey>)
    ensures |r| == |rows|
    ensures forall i :: 0 <= i < |rows| ==> r[i] == (if rows[i].id == id then f(rows[i]) else rows[i])
  {
    seq(|rows|, i requires 0 <= i < |rows| => if rows[i].id == id then f(rows[i]) else rows[i])
  }

  datatype KeyStoreError = RateRefused | DuplicateHash | ValueRefused | KeyNotFound

  /** `CreateApiKey`: the new row takes the next identity, is active, has
      never been used and never expires (the column defaults). A rate limit
      outside 32 bits, and a text column holding more than trailing spaces
      past its width, are refused while the statement is bound and planned,
      before the identity default is evaluated: the table is left as it was.
      A hash (as stored) that is already present is refused only when the row
      is written, after the identity value has been drawn, so that value is
      spent. */
  function CreateApiKey(t: KeyTable, hash: string, prefix: string, name: string, sports: seq<string>, rateLimit: int, now: int)
    : (r: (KeyTable, Result<ApiKey, KeyStoreError>))
    ensures r.1.Failure? ==> r.0.rows == t.rows
    ensures r.1.Failure? && r.1.error != DuplicateHash ==> r.0 == t
    ensures r.0.nextId == (if r.1.Success? || r.1 == Failure(DuplicateHash) then t.nextId + 1 else t.nextId)
    ensures !(Int32Min <= rateLimit <= Int32Max) ==> r == (t, Failure(RateRefused))
    ensures Int32Min <= rateLimit <= Int32Max && !(VarcharTakes(Some(hash), 64) && VarcharTakes(Some(prefix), 16) && VarcharTakes(Some(name), 255))
      ==> r == (t, Failure(ValueRefused))
    ensures r.1.Success? <==>
      && Int32Min <= rateLimit <= Int32Max
      && VarcharTakes(Some(hash), 64) && VarcharTakes(Some(prefix), 16) && VarcharTakes(Some(name), 255)
      && forall i :: 0 <= i < |t.rows| ==> t.rows[i].keyHash != VarcharValue(Some(hash), 64).value
    ensures r.1.Success? ==>
      && r.0.rows == t.rows + [r.1.value]
      && r.1.value == ApiKey(t.nextId, VarcharValue(Some(hash), 64).value, VarcharValue(Some(prefix), 16).value,
                             VarcharValue(Some(name), 255).value, sports, rateLimit, true, now, None, None)
  {
    if !(Int32Min <= rateLimit <= Int32Max) then (t, Failure(RateRefused))
    else
      match StoredApiKey(ApiKey(t.nextId, hash, prefix, name, sports, rateLimit, true, now, None, None))
      case None => (t, Failure(ValueRefused))
      case Some(row) =>
        if FindByHash(t.rows, row.keyHash).Some? then (KeyTable(t.rows, t.nextId + 1), Failure(DuplicateHash))
        else (KeyTable(t.rows + [row], t.nextId + 1), Success(row))
  }

  /** Creating a key keeps the table's constraints whether or not the insert
      succeeds, and a created key is then found by its stored hash. */
  lemma CreateKeepsTableOk(t: KeyTable, hash: string, prefix: string, name: string, sports: seq<string>, rateLimit: int, now: int)
    requires KeyTableOk(t)
    ensures var (t', r) := CreateApiKey(t, hash, prefix, name, sports, rateLimit, now);
      KeyTableOk(t') && (r.Success? ==> GetApiKeyByHash(t', r.value.keyHash) == Some(r.value))
  {
    var (t', r) := CreateApiKey(t, hash, prefix, name, sports, rateLimit, now);
    if r.Success? {
      assert t'.rows[|t.rows|] == r.value;
    }
  }

  /** A hash that fits its column is stored as given, so the lookup the
      gateway makes with the hash of the presented key finds the new row. */
  lemma FittingHashStoredVerbatim(t: KeyTable, hash: string, prefix: string, name: string, sports: seq<string>, rateLimit: int, now: int)
    requires |hash| <= 64
    requires CreateApiKey(t, hash, prefix, name, sports, rateLimit, now).1.Success?
    ensures CreateApiKey(t, hash, prefix, name, sports, rateLimit, now).1.value.keyHash == hash
  {
  }

  /** A name longer than its column by more than spaces is refused before
      an identity value is drawn: the next key created takes the same id. */
  lemma OverlongNameSpendsNoIdentity(t: KeyTable, hash: string, prefix: string, name: string, sports: seq<string>,
                                     rateLimit: int, now: int, hash2: string, prefix2: string, name2: string)
    requires Int32Min <= rateLimit <= Int32Max
    requires exists i :: 255 <= i < |name| && name[i] != ' '
    requires CreateApiKey(t, hash2, prefix2, name2, sports, rateLimit, now).1.Success?
    ensures CreateApiKey(t, hash, prefix, name, sports, rateLimit, now) == (t, Failure(ValueRefused))
    ensures CreateApiKey(CreateApiKey(t, hash, prefix, name, sports, rateLimit, now).0, hash2, prefix2, name2, sports, rateLimit, now).1.value.id
            == t.nextId
  {
    assert !VarcharTakes(Some(name), 255);
  }

  /** A hash already in the table is refused when the row is written, after
      its identity value was drawn: the next key created is numbered past the
      gap. */
  lemma DuplicateHashSpendsIdentity(t: KeyTable, hash: string, prefix: string, name: string, sports: seq<string>,
                                    rateLimit: int, now: int, hash2: string, prefix2: string, name2: string)
    requires KeyTableOk(t)
    requires Int32Min <= rateLimit <= Int32Max
    requires |hash| <= 64 && |prefix| <= 16 && |name| <= 255
    requires GetApiKeyByHash(t, hash).Some?
    requires CreateApiKey(KeyTable(t.rows, t.nextId + 1), hash2, prefix2, name2, sports, rateLimit, now).1.Success?
    ensures CreateApiKey(t, hash, prefix, name, sports, rateLimit, now) == (KeyTable(t.rows, t.nextId + 1), Failure(DuplicateHash))
    ensures CreateApiKey(CreateApiKey(t, hash, prefix, name, sports, rateLimit, now).0, hash2, prefix2, name2, sports, rateLimit, now).1.value.id
            == t.nextId + 1
  {
    var i :| 0 <= i < |t.rows| && t.rows[i].keyHash == hash;
    assert VarcharValue(Some(hash), 64).value == hash;
  }

  /** `RevokeApiKey`: marks the row inactive; an id that matches no row is an
      error. Rows are never deleted. */
  function RevokeApiKey(t: KeyTable, id: int): (r: Result<KeyTable, KeyStoreError>)
    ensures r.Failure? <==> forall i :: 0 <= i < |t.rows| ==> t.rows[i].id != id
    ensures r.Failure? ==> r.error == KeyNotFound
    ensures r.Success? ==> r.value.nextId == t.nextId && |r.value.rows| == |t.rows|
    ensures r.Success? ==> forall i :: 0 <= i < |t.rows| ==>
      r.value.rows[i] == (if t.rows[i].id == id then t.rows[i].(isActive := false) else t.rows[i])
  {
    if forall i :: 0 <= i < |t.rows| ==> t.rows[i].id != id then Failure(KeyNotFound)
    else Success(KeyTable(UpdateWhereId(t.rows, id, (k: ApiKey) => k.(isActive := false)), t.nextId))
  }

  /** Revoking twice is the same as revoking once (the second still finds the
      row). */
  lemma RevokeIdempotent(t: KeyTable, id: int)
    requires RevokeApiKey(t, id).Success?
    ensures RevokeApiKey(RevokeApiKey(t, id).value, id) == RevokeApiKey(t, id)
  {
    var t1 := RevokeApiKey(t, id).value;
    var i :| 0 <= i < |t.rows| && t.rows[i].id == id;
    assert t1.rows[i].id == id;
    assert RevokeApiKey(t1, id).value.rows == t1.rows;
  }

  lemma RevokeKeepsTableOk(t: KeyTable, id: int)
    requires KeyTableOk(t) && RevokeApiKey(t, id).Success?
    ensures KeyTableOk(RevokeApiKey(t, id).value)
  {
  }

  /** `UpdateApiKeyLastUsed`: stamps `last_used_at`; an unknown id changes
      nothing and is not an error. */
  function UpdateApiKeyLastUsed(t: KeyTable, id: int, now: int): (t': KeyTable)
    ensures t'.nextId == t.nextId && |t'.rows| == |t.rows|
    ensures forall i :: 0 <= i < |t.rows| ==>
      t'.rows[i] == (if t.rows[i].id == id then t.rows[i].(lastUsedAt := Some(now)) else t.rows[i])
  {
    KeyTable(UpdateWhereId(t.rows, id, (k: ApiKey) => k.(lastUsedAt := Some(now))), t.nextId)
  }

  /** Stamping the last use keeps the table's constraints, and a lookup by
      hash finds the same row up to its `last_used_at`. */
  lemma StampKeepsLookup(t: KeyTable, id: int, now: int, hash: string)
    requires KeyTableOk(t)
    ensures KeyTableOk(UpdateApiKeyLastUsed(t, id, now))
    ensures var a := GetApiKeyByHash(t, hash);
            var b := GetApiKeyByHash(UpdateApiKeyLastUsed(t, id, now), hash);
            (a.None? <==> b.None?) && (a.Some? ==> b.value == a.value.(lastUsedAt := b.value.lastUsedAt))
  {
    var t' := UpdateApiKeyLastUsed(t, id, now);
    assert forall i :: 0 <= i < |t.rows| ==> t'.rows[i].id == t.rows[i].id && t'.rows[i].keyHash == t.rows[i].keyHash;
    if i :| 0 <= i < |t.rows| && t.rows[i].keyHash == hash {
      assert t'.rows[i].keyHash == hash;
    }
  }
}

=== FILE: normalize.dfy ===
/** How the sync services turn the feed's free-text fields into column
    values: lenient ids, nullable scores, the schedule (date and kick-off
    time) with its fallbacks, and the stored event list. */
module Normalize {
  import opened Wrappers
  import opened Text
  import opened Calendar
  import opened Json
  import opened Goalserve
  import opened Store

  /** An id column filled by `strconv.ParseInt(s, 10, 64)` with its error
      ignored. Go then keeps the value the parser returns alongside the error:
      0 for a syntax error, and the nearest 64-bit bound for a range error.
      The parser reports a range error as soon as the digits read so far
      exceed 64 unsigned bits, before it looks at any later character. */
  function LenientId(s: string): (r: int)
    ensures Int64Min <= r <= Int64Max
    ensures ParseInt(s).Some? ==> r == ParseInt(s).value
    ensures ParseInt(s).None? ==> r == 0 || r == Int64Min || r == Int64Max
  {
    if |s| == 0 then 0
    else
      var (neg, digits) := SplitSign(s);
      var p := DigitPrefix(digits);
      var mag: int := DigitsValue(p);
      DigitPrefixAllIfParsed(s);
      if mag > Uint64Max || (|p| > 0 && p == digits) then
        if neg then (if -mag < Int64Min then Int64Min else -mag)
        else (if mag > Int64Max then Int64Max else mag)
      else 0
  }

  lemma DigitPrefixAllIfParsed(s: string)
    requires |s| > 0
    ensures ParseInt(s).Some? ==> DigitPrefix(SplitSign(s).1) == SplitSign(s).1
  {
    if ParseInt(s).Some? {
      DigitPrefixAll(SplitSign(s).1);
    }
  }

  /** The ids the feed sends in decimal are stored as those numbers. */
  lemma LenientIdOfDecimal(n: int)
    requires Int64Min <= n <= Int64Max
    ensures LenientId(FormatInt(n)) == n
  {
    ParseFormatRoundTrip(n);
  }

  /** An id with a character that is not a digit, and too few digits before
      it to overflow, is stored as 0. */
  lemma {:induction false} MalformedIdIsZero(d: string, rest: string)
    requires AllDigits(d) && DigitsValue(d) <= Uint64Max
    requires |rest| > 0 && !IsDigit(rest[0])
    requires |d| > 0 || (rest[0] != '-' && rest[0] != '+')
    ensures LenientId(d + rest) == 0
  {
    var s := d + rest;
    DigitPrefixAppend(d, rest);
    assert DigitPrefix(rest) == [];
    assert d + [] == d;
    assert s[|d|] == rest[0];
    if |d| > 0 {
      assert s[0] == d[0];
      assert SplitSign(s) == (false, s);
    } else {
      assert s == rest;
    }
  }

  /** An all-digit id above the 64-bit maximum is stored as that maximum. */
  lemma {:induction false} OverlongIdClampsHigh(d: string)
    requires |d| > 0 && AllDigits(d) && DigitsValue(d) > Int64Max
    ensures LenientId(d) == Int64Max
  {
    assert IsDigit(d[0]);
    assert SplitSign(d) == (false, d);
  }

  /** A negative id below the 64-bit minimum is stored as that minimum. */
  lemma {:induction false} OverlongIdClampsLow(d: string)
    requires |d| > 0 && AllDigits(d) && DigitsValue(d) > -Int64Min
    ensures LenientId("-" + d) == Int64Min
  {
    assert SplitSign("-" + d) == (true, d);
  }

  /** Digits that already overflow 64 unsigned bits decide the result:
      whatever follows them, even a character that is not a digit, is
      never read. */
  lemma {:induction false} OverflowBeforeJunkClamps(d: string, rest: string)
    requires |d| > 0 && AllDigits(d) && DigitsValue(d) > Uint64Max
    ensures LenientId(d + rest) == Int64Max
  {
    var s := d + rest;
    DigitPrefixAppend(d, rest);
    DigitsValueGrows(d, DigitPrefix(rest));
    assert s[0] == d[0];
    assert SplitSign(s) == (false, s);
  }

  /** A nullable text column filled from the feed: "" becomes null. */
  function NullIfEmpty(s: string): (r: Option<string>)
    ensures r.None? <==> s == ""
    ensures r.Some? ==> r.value == s
  {
    if s == "" then None else Some(s)
  }

  /** Reading a null text column back as "" undoes `NullIfEmpty`. */
  lemma NullIfEmptyReadBack(s: string)
    ensures NullIfEmpty(s).GetOr("") == s
  {
  }

  /** A nullable 32-bit score column: "" and text that is not a decimal
      integer give null; a number is stored after Go's `int32` conversion. */
  function ParseScore(s: string): (r: Option<int>)
    ensures s == "" ==> r.None?
    ensures r.Some? <==> ParseInt(s).Some?
    ensures r.Some? ==> Int32Min <= r.value <= Int32Max && r.value == WrapInt32(ParseInt(s).value)
  {
    if s == "" then None
    else
      match ParseInt(s)
      case None => None
      case Some(n) => Some(WrapInt32(n))
  }

  /** A score of zero is data, not "no data". */
  lemma ParseScoreZero()
    ensures ParseScore("0") == Some(0)
  {
    assert FormatInt(0) == "0";
    ParseFormatRoundTrip(0);
  }

  /** Every 32-bit score round-trips through its decimal text. */
  lemma ParseScoreRoundTrip(n: int)
    requires Int32Min <= n <= Int32Max
    ensures ParseScore(FormatInt(n)) == Some(n)
  {
    ParseFormatRoundTrip(n);
  }

  /** Text that starts with neither a digit nor a sign is no score. */
  lemma ParseScoreRejectsWords(s: string)
    requires |s| > 0 && !IsDigit(s[0]) && s[0] != '-' && s[0] != '+'
    ensures ParseScore(s) == None
  {
  }

  /** The `events` column: the `event` array of an `events` object when it
      decodes and is non-empty, and the empty list otherwise (no events, an
      array instead of an object, a lone event object, a malformed event). */
  function StoredEvents(events: Json): (r: seq<Event>)
    ensures r != [] <==>
      && events.JObject?
      && DecodeList(Field(events.fields, "event"), "event", DecodeEvent).Success?
      && DecodeList(Field(events.fields, "event"), "event", DecodeEvent).value != []
    ensures r != [] ==> r == DecodeList(Field(events.fields, "event"), "event", DecodeEvent).value
  {
    if !events.JObject? then []
    else
      match DecodeList(Field(events.fields, "event"), "event", DecodeEvent)
      case Success(evs) => evs
      case Failure(_) => []
  }

  /** A lone event object (not wrapped in an array) is dropped. */
  lemma LoneEventDropped(e: map<string, Json>, rest: map<string, Json>)
    ensures StoredEvents(JObject(rest["event" := JObject(e)])) == []
  {
  }

  /** Any non-empty list of events the feed sends in an `events` object is
      stored as sent, whatever other members the object has. */
  lemma StoredEventsReadBack(evs: seq<Event>, rest: map<string, Json>)
    requires evs != []
    ensures StoredEvents(JObject(rest["event" := JArray(seq(|evs|, i requires 0 <= i < |evs| => EventJson(evs[i])))])) == evs
  {
    var items := seq(|evs|, i requires 0 <= i < |evs| => EventJson(evs[i]));
    forall i | 0 <= i < |items| ensures DecodeEvent(items[i]) == Success(evs[i]) {
      DecodeEventJson(evs[i]);
    }
    var fields := rest["event" := JArray(items)];
    assert Field(fields, "event") == JArray(items);
    var r := DecodeEach(items, DecodeEvent);
    assert r.Success? && |r.value| == |evs|;
    assert r.value == evs;
  }

  /** When and on which day a match starts. */
  datatype Schedule = Schedule(date: Date, time: Clock)

  /** The soccer date text: `formatted_date` unless it is empty. */
  function SoccerDateText(m: Match): (s: string)
    ensures m.formattedDate != "" ==> s == m.formattedDate
    ensures m.formattedDate == "" ==> s == m.date
  {
    if m.formattedDate != "" then m.formattedDate else m.date
  }

  /** The two combined layouts the soccer sync tries first:
      `DD.MM.YYYY HH:MM`, then `Mon D <currentYear> HH:MM`. */
  function CombinedSchedule(date: string, time: string, currentYear: nat): (r: Option<Schedule>)
    ensures r.Some? ==> ValidDate(r.value.date) && ValidClock(r.value.time)
    ensures r.Some? ==>
      || ParseDateTime(date + " " + time) == Some((r.value.date, r.value.time))
      || ParseMonthForm(date + " " + FormatNat(currentYear) + " " + time) == Some((r.value.date, r.value.time))
    ensures ParseDateTime(date + " " + time).Some? ==>
      r == Some(Schedule(ParseDateTime(date + " " + time).value.0, ParseDateTime(date + " " + time).value.1))
  {
    match ParseDateTime(date + " " + time)
    case Some((d, c)) => Some(Schedule(d, c))
    case None =>
      match ParseMonthForm(date + " " + FormatNat(currentYear) + " " + time)
      case Some((d, c)) => Some(Schedule(d, c))
      case None => None
  }

  /** The last resort: date and time parsed each on its own; the error names
      the first part that does not parse. */
  function SeparateSchedule(date: string, time: string): (r: Result<Schedule, UpsertError>)
    ensures r == Failure(InvalidDate) <==> ParseDate(date).None?
    ensures r == Failure(InvalidTime) <==> ParseDate(date).Some? && ParseClock(time).None?
    ensures r.Success? <==> ParseDate(date).Some? && ParseClock(time).Some?
    ensures r.Success? ==> r.value == Schedule(ParseDate(date).value, ParseClock(time).value)
  {
    if ParseDate(date).None? then Failure(InvalidDate)
    else if ParseClock(time).None? then Failure(InvalidTime)
    else Success(Schedule(ParseDate(date).value, ParseClock(time).value))
  }

  /** The soccer schedule: both fields must be present; the combined layouts
      are tried first and the separate parse last. */
  function SoccerSchedule(m: Match, currentYear: nat): (r: Result<Schedule, UpsertError>)
    ensures r == Failure(MissingSchedule) <==> SoccerDateText(m) == "" || m.time == ""
    ensures r.Success? ==> ValidDate(r.value.date) && ValidClock(r.value.time)
    ensures SoccerDateText(m) != "" && m.time != "" ==>
      r == (match CombinedSchedule(SoccerDateText(m), m.time, currentYear)
            case Some(s) => Success(s)
            case None => SeparateSchedule(SoccerDateText(m), m.time))
  {
    var date := SoccerDateText(m);
    if date == "" || m.time == "" then Failure(MissingSchedule)
    else
      match CombinedSchedule(date, m.time, currentYear)
      case Some(s) => Success(s)
      case None => SeparateSchedule(date, m.time)
  }

  /** A date and a time that parse on their own always give the combined
      reading, so the separate-parse fallback never turns a failure into a
      success: it only decides which error is reported. */
  lemma {:induction false} SoccerSeparateFallbackOnlyNamesError(m: Match, currentYear: nat)
    requires SoccerDateText(m) != "" && m.time != ""
    requires ParseDate(SoccerDateText(m)).Some? && ParseClock(m.time).Some?
    ensures CombinedSchedule(SoccerDateText(m), m.time, currentYear).Some?
    ensures SoccerSchedule(m, currentYear) == Success(Schedule(ParseDate(SoccerDateText(m)).value, ParseClock(m.time).value))
  {
    CombinedAcceptsSeparateParts(SoccerDateText(m), m.time);
  }

  /** A non-empty `formatted_date` makes the raw `date` irrelevant. */
  lemma FormattedDateWins(m: Match, other: string, currentYear: nat)
    requires m.formattedDate != ""
    ensures SoccerSchedule(m, currentYear) == SoccerSchedule(m.(date := other), currentYear)
  {
  }

  /** `Dec` names the twelfth month. */
  lemma DecemberNamed()
    ensures MonthNumber("Dec") == Some(12)
  {
    assert NameMatches("Dec", 12);
    assert forall k :: 1 <= k <= 11 ==> !NameMatches("Dec", k);
  }

  /** The year field `2028` reads as 2028. */
  lemma Year2028Digits()
    ensures AllDigits("2028") && DigitsValue("2028") == 2028
  {
    DigitsValueTwo("20", "28");
    assert "20" + "28" == "2028";
    assert DigitsValue("20") == 20 && DigitsValue("28") == 28;
  }

  /** The day, the clock and the date of `Dec 31 2028 23:30`. */
  lemma NewYearsEveFields()
    ensures AllDigits("31") && DigitsValue("31") == 31
    ensures ParseClock("23:30") == Some(Clock(23, 30))
    ensures ValidDate(Date(2028, 12, 31))
  {
    assert DigitsValue("31") == 31;
  }

  /** `Dec 31 2028 23:30` in the month-name layout. */
  lemma MonthFormNewYearsEve()
    ensures ParseMonthForm("Dec 31 2028 23:30") == Some((Date(2028, 12, 31), Clock(23, 30)))
  {
    DecemberNamed();
    Year2028Digits();
    NewYearsEveFields();
    MonthFormFields("Dec", "31", "2028", "23:30");
    assert "Dec" + " " + "31" + " " + "2028" + " " + "23:30" == "Dec 31 2028 23:30";
  }

  /** The month-name layout takes its year from the sync run's clock, not
      from the match: a run on 1 January 2028 that still sees last night's
      `Dec 31` fixture dates it 31 December 2028, a year ahead. */
  lemma YearBoundaryMisdated(m: Match)
    requires m.formattedDate == "" && m.date == "Dec 31" && m.time == "23:30"
    ensures SoccerSchedule(m, 2028) == Success(Schedule(Date(2028, 12, 31), Clock(23, 30)))
  {
    DecemberNotIso();
    DecemberMonthForm();
    MonthFormFallback("Dec 31", "23:30", 2028, Date(2028, 12, 31), Clock(23, 30));
  }

  /** When the ISO layout fails, the combined schedule is the month-name
      reading with the current year spliced in. */
  lemma MonthFormFallback(date: string, time: string, currentYear: nat, d: Date, c: Clock)
    requires ParseDateTime(date + " " + time).None?
    requires ParseMonthForm(date + " " + FormatNat(currentYear) + " " + time) == Some((d, c))
    ensures CombinedSchedule(date, time, currentYear) == Some(Schedule(d, c))
  {
  }

  lemma DecemberNotIso()
    ensures ParseDateTime("Dec 31" + " " + "23:30").None?
  {
    assert "Dec 31" + " " + "23:30" == "Dec 31 23:30";
    assert ("Dec 31 23:30")[10] == '3';
  }

  lemma DecemberMonthForm()
    ensures ParseMonthForm("Dec 31" + " " + FormatNat(2028) + " " + "23:30") == Some((Date(2028, 12, 31), Clock(23, 30)))
  {
    Year2028Formatted();
    assert "Dec 31" + " " + "2028" + " " + "23:30" == "Dec 31 2028 23:30";
    MonthFormNewYearsEve();
  }

  lemma Year2028Formatted()
    ensures FormatNat(2028) == "2028"
  {
    assert FormatNat(202) == "202" by { assert FormatNat(20) == "20" by { assert FormatNat(2) == "2"; } }
  }


  /** The basketball schedule: `DD.MM.YYYY` and `HH:MM`, no fallback. */
  function BasketballSchedule(m: BasketballMatch): (r: Result<Schedule, UpsertError>)
    ensures r == Failure(MissingSchedule) <==> m.date == "" || m.time == ""
    ensures r == Failure(InvalidDate) <==> m.date != "" && m.time != "" && ParseDate(m.date).None?
    ensures r == Failure(InvalidTime) <==> m.date != "" && m.time != "" && ParseDate(m.date).Some? && ParseClock(m.time).None?
    ensures r.Success? <==> ParseDate(m.date).Some? && ParseClock(m.time).Some?
    ensures r.Success? ==> r.value == Schedule(ParseDate(m.date).value, ParseClock(m.time).value)
  {
    if m.date == "" || m.time == "" then Failure(MissingSchedule)
    else if ParseDate(m.date).None? then Failure(InvalidDate)
    else if ParseClock(m.time).None? then Failure(InvalidTime)
    else Success(Schedule(ParseDate(m.date).value, ParseClock(m.time).value))
  }

  /** Any valid date and time, written in the feed's layouts, is read back. */
  lemma BasketballScheduleRoundTrip(m: BasketballMatch, s: Schedule)
    requires ValidDate(s.date) && s.date.year < 10000 && ValidClock(s.time)
    requires m.date == DottedText(s.date) && m.time == ClockText(s.time)
    ensures BasketballSchedule(m) == Success(s)
  {
    ParseDottedText(s.date);
    ParseClockText(s.time);
  }
}

=== FILE: queries.dfy ===
/** The read queries of the API over an in-memory table, held as the rows in
    scan order: filtered and paged match lists, live matches, league lists,
    and the score update. */
module Queries {
  import opened Wrappers
  import opened Text
  import opened Calendar
  import opened Schema
  import opened Store
  import opened QueryParams
  import opened Sorting

  /** The rows of `rows` that `keep` selects, in scan order (`WHERE`). */
  function Select<X(!new)>(rows: seq<X>, keep: X -> bool): (r: seq<X>)
    ensures |r| <= |rows|
    ensures forall x :: x in r <==> x in rows && keep(x)
    ensures forall x :: multiset(r)[x] == if keep(x) then multiset(rows)[x] else 0
  {
    if rows == [] then []
    else
      var rest := Select(rows[1..], keep);
      assert rows == [rows[0]] + rows[1..];
      if keep(rows[0]) then [rows[0]] + rest else rest
  }

  lemma {:induction false} SelectAll<X(!new)>(rows: seq<X>, keep: X -> bool)
    requires forall x :: x in rows ==> keep(x)
    ensures Select(rows, keep) == rows
  {
    if rows != [] {
      SelectAll(rows[1..], keep);
    }
  }

  /** A selection that admits fewer rows yields no more of them. */
  lemma {:induction false} SelectNarrower<X(!new)>(rows: seq<X>, keep: X -> bool, wider: X -> bool)
    requires forall x :: keep(x) ==> wider(x)
    ensures |Select(rows, keep)| <= |Select(rows, wider)|
  {
    if rows != [] {
      SelectNarrower(rows[1..], keep, wider);
    }
  }

  datatype QueryError = InvalidDateParam

  /** The three optional filters; an unset one selects every row. */
  datatype Filter = Filter(date: Option<Date>, status: Option<string>, leagueId: Option<int>)

  /** The date parameter as the database reads it under its default
      `DateStyle = 'ISO, MDY'`, in the two zero-padded forms modelled:
      `YYYY-MM-DD`, and `MM.DD.YYYY` read month first. */
  function ReadDateParam(s: string): (r: Option<Date>)
    ensures r.Some? <==> ParseIsoDate(s).Some? || ParseMdyDotted(s).Some?
    ensures r.Some? ==> ValidDate(r.value) && 1 <= r.value.year < 10000
    ensures r.Some? ==> s == IsoDateText(r.value) || s == MdyDottedText(r.value)
  {
    if ParseIsoDate(s).Some? then ParseIsoDate(s) else ParseMdyDotted(s)
  }

  /** Every date is read back from either spelling of it. */
  lemma BothSpellingsRead(d: Date)
    requires ValidDate(d) && 1 <= d.year < 10000
    ensures ReadDateParam(IsoDateText(d)) == Some(d)
    ensures ReadDateParam(MdyDottedText(d)) == Some(d)
  {
    ParseIsoDateText(d);
    ParseMdyDottedText(d);
    var s := MdyDottedText(d);
    assert s[4] == Pad2(d.day)[1];
  }

  /** The filters of a request. The database reads the date parameter as a
      `date`; text it cannot read fails the query. */
  function ToFilter(p: Params): (r: Result<Filter, QueryError>)
    ensures r.Failure? <==> p.date != "" && ReadDateParam(p.date).None?
    ensures r.Success? ==>
      && (r.value.date.None? <==> p.date == "")
      && (p.date != "" ==> r.value.date == ReadDateParam(p.date))
      && (r.value.status.None? <==> p.status == "")
      && (p.status != "" ==> r.value.status == Some(p.status))
      && r.value.leagueId == p.leagueId
  {
    if p.date == "" then Success(Filter(None, if p.status == "" then None else Some(p.status), p.leagueId))
    else match ReadDateParam(p.date)
      case None => Failure(InvalidDateParam)
      case Some(d) => Success(Filter(Some(d), if p.status == "" then None else Some(p.status), p.leagueId))
  }

  /** `col = ?` for each set filter: a NULL column never equals the value. */
  predicate Selects(f: Filter, date: Option<Date>, status: Option<string>, league: Option<int>) {
    && (f.date.Some? ==> date == f.date)
    && (f.status.Some? ==> status == f.status)
    && (f.leagueId.Some? ==> league == f.leagueId)
  }

  /** Sort-key parts. `DESC` puts NULLs first in PostgreSQL, `ASC` last. */
  function DateDesc(d: Option<Date>): (k: seq<int>)
    ensures |k| == 4
  {
    if d.None? then [0, 0, 0, 0] else [1, -(d.value.year as int), -(d.value.month as int), -(d.value.day as int)]
  }

  function ClockDesc(c: Option<Clock>): (k: seq<int>)
    ensures |k| == 3
  {
    if c.None? then [0, 0, 0] else [1, -(c.value.hour as int), -(c.value.minute as int)]
  }

  function ClockAsc(c: Option<Clock>): (k: seq<int>)
    ensures |k| == 3
  {
    if c.None? then [1, 0, 0] else [0, c.value.hour, c.value.minute]
  }

  /** A later date sorts first, whatever the times; a NULL date sorts
      before every date. */
  lemma NewestDateFirst(a: Date, b: Date, ca: Option<Clock>, cb: Option<Clock>)
    requires a.year > b.year || (a.year == b.year && a.month > b.month) || (a.year == b.year && a.month == b.month && a.day > b.day)
    ensures LexLe(DateDesc(Some(a)) + ClockDesc(ca), DateDesc(Some(b)) + ClockDesc(cb))
    ensures !LexLe(DateDesc(Some(b)) + ClockDesc(cb), DateDesc(Some(a)) + ClockDesc(ca))
    ensures !LexLe(DateDesc(Some(a)) + ClockDesc(ca), DateDesc(None) + ClockDesc(cb))
  {
    var ka, kb := DateDesc(Some(a)) + ClockDesc(ca), DateDesc(Some(b)) + ClockDesc(cb);
    var k := if a.year > b.year then 1 else if a.month > b.month then 2 else 3;
    LexStrictAt(ka, kb, k);
    LexStrictAt(DateDesc(None) + ClockDesc(cb), ka, 0);
  }

  /** One page of a filtered list and the count of all rows the filters
      select. */
  datatype Page<R> = Page(rows: seq<R>, total: int)

  /** The shared shape of the filtered list queries: the same selection feeds
      the count and the page; the page is the window of the selection in key
      order. */
  function FilteredPage<R(!new)>(rows: seq<R>, keep: R -> bool, key: R -> seq<int>, offset: nat, limit: nat): (r: Page<R>)
    requires FixedWidth(key)
    ensures r.total == |Select(rows, keep)|
    ensures |r.rows| == if offset >= r.total then 0 else if r.total - offset < limit then r.total - offset else limit
    ensures forall x :: x in r.rows ==> x in rows && keep(x)
    ensures Sorted(r.rows, KeyOrder(key))
    ensures r.rows == Window(SortBy(Select(rows, keep), key), offset, limit)
  {
    var selected := Select(rows, keep);
    var ordered := SortBy(selected, key);
    assert |ordered| == |selected| by {
      assert |multiset(ordered)| == |multiset(selected)|;
    }
    var page := Window(ordered, offset, limit);
    forall x | x in page ensures x in rows && keep(x) {
      var i :| 0 <= i < |page| && page[i] == x;
      assert x == ordered[offset + i];
      assert x in multiset(ordered);
    }
    Page(page, |selected|)
  }

  function SoccerOrder(m: SoccerRow): seq<int> {
    DateDesc(m.startDate) + ClockDesc(m.startTime)
  }

  /** `GetSoccerMatchesFiltered`: ordered by start date then start time, both
      newest first. */
  function SoccerMatchesFiltered(rows: seq<SoccerRow>, p: Params): (r: Result<Page<SoccerRow>, QueryError>)
    requires p.limit >= 0 && p.offset >= 0
    ensures r.Failure? <==> ToFilter(p).Failure?
    ensures r.Success? ==> var f := ToFilter(p).value;
      && r.value.total == |Select(rows, (m: SoccerRow) => Selects(f, m.startDate, m.matchStatus, m.leagueId))|
      && |r.value.rows| <= p.limit
      && (forall m :: m in r.value.rows ==> m in rows && Selects(f, m.startDate, m.matchStatus, m.leagueId))
      && Sorted(r.value.rows, KeyOrder(SoccerOrder))
      && r.value.rows == Window(SortBy(Select(rows, (m: SoccerRow) => Selects(f, m.startDate, m.matchStatus, m.leagueId)), SoccerOrder), p.offset, p.limit)
  {
    match ToFilter(p)
    case Failure(e) => Failure(e)
    case Success(f) =>
      Success(FilteredPage(rows, (m: SoccerRow) => Selects(f, m.startDate, m.matchStatus, m.leagueId), SoccerOrder, p.offset, p.limit))
  }

  function BasketballOrder(m: BasketballRow): seq<int> {
    DateDesc(m.matchDate) + ClockDesc(m.matchTime)
  }

  /** `GetBasketballMatchesFiltered`: the same filters and order over the
      basketball columns. */
  function BasketballMatchesFiltered(rows: seq<BasketballRow>, p: Params): (r: Result<Page<BasketballRow>, QueryError>)
    requires p.limit >= 0 && p.offset >= 0
    ensures r.Failure? <==> ToFilter(p).Failure?
    ensures r.Success? ==> var f := ToFilter(p).value;
      && r.value.total == |Select(rows, (m: BasketballRow) => Selects(f, m.matchDate, m.matchStatus, m.leagueId))|
      && |r.value.rows| <= p.limit
      && (forall m :: m in r.value.rows ==> m in rows && Selects(f, m.matchDate, m.matchStatus, m.leagueId))
      && Sorted(r.value.rows, KeyOrder(BasketballOrder))
      && r.value.rows == Window(SortBy(Select(rows, (m: BasketballRow) => Selects(f, m.matchDate, m.matchStatus, m.leagueId)), BasketballOrder), p.offset, p.limit)
  {
    match ToFilter(p)
    case Failure(e) => Failure(e)
    case Success(f) =>
      Success(FilteredPage(rows, (m: BasketballRow) => Selects(f, m.matchDate, m.matchStatus, m.leagueId), BasketballOrder, p.offset, p.limit))
  }

  /** The count does not depend on paging. */
  lemma TotalIgnoresPaging(rows: seq<SoccerRow>, p: Params, limit: int, offset: int)
    requires p.limit >= 0 && p.offset >= 0 && limit >= 0 && offset >= 0
    requires ToFilter(p).Success?
    ensures SoccerMatchesFiltered(rows, p.(limit := limit, offset := offset)).value.total
         == SoccerMatchesFiltered(rows, p).value.total
  {
    assert ToFilter(p.(limit := limit, offset := offset)) == ToFilter(p);
  }

  /** With no filter set, the count is every row. */
  lemma NoFilterCountsAll(rows: seq<SoccerRow>, p: Params)
    requires p.limit >= 0 && p.offset >= 0
    requires p.date == "" && p.status == "" && p.leagueId.None?
    ensures SoccerMatchesFiltered(rows, p).Success?
    ensures SoccerMatchesFiltered(rows, p).value.total == |rows|
  {
    var f := ToFilter(p).value;
    SelectAll(rows, (m: SoccerRow) => Selects(f, m.startDate, m.matchStatus, m.leagueId));
  }

  /** Setting the status filter never raises the count. */
  lemma StatusFilterNarrows(rows: seq<SoccerRow>, p: Params, status: string)
    requires p.limit >= 0 && p.offset >= 0 && p.status == "" && status != ""
    requires ToFilter(p).Success?
    ensures SoccerMatchesFiltered(rows, p.(status := status)).value.total <= SoccerMatchesFiltered(rows, p).value.total
  {
    var f := ToFilter(p).value;
    var g := ToFilter(p.(status := status)).value;
    assert g == f.(status := Some(status));
    SelectNarrower(rows, (m: SoccerRow) => Selects(g, m.startDate, m.matchStatus, m.leagueId),
                   (m: SoccerRow) => Selects(f, m.startDate, m.matchStatus, m.leagueId));
  }

  /** A date written day first, as the feed spells it, fails the listing when
      its day exceeds 12, and otherwise filters on the date with day and
      month exchanged. */
  lemma BadDateFails(rows: seq<SoccerRow>, p: Params, d: Date)
    requires p.limit >= 0 && p.offset >= 0
    requires ValidDate(d) && 1 <= d.year < 10000 && p.date == DottedText(d)
    ensures SoccerMatchesFiltered(rows, p).Failure? <==> d.day > 12
    ensures d.day <= 12 ==> ToFilter(p).value.date == Some(Date(d.year, d.day, d.month))
  {
    DayFirstReadMonthFirst(d);
    var s := DottedText(d);
    assert s[4] == Pad2(d.month)[1];
  }

  const LiveSoccerStatuses: set<string> := {"1H", "HT", "2H", "ET", "P", "Live", "In Play"}
  const LiveBasketballStatuses: set<string> := {"Q1", "Q2", "Q3", "Q4", "OT", "HT", "Live", "In Play"}

  predicate HasStatusIn(status: Option<string>, live: set<string>) {
    status.Some? && status.value in live
  }

  /** `GetLiveSoccerMatches`: every row with a live status, once for each time
      it is stored, earliest start time first and unknown times last. */
  function LiveSoccerMatches(rows: seq<SoccerRow>): (r: seq<SoccerRow>)
    ensures forall m :: m in r <==> m in rows && HasStatusIn(m.matchStatus, LiveSoccerStatuses)
    ensures forall m :: multiset(r)[m] == if HasStatusIn(m.matchStatus, LiveSoccerStatuses) then multiset(rows)[m] else 0
    ensures Sorted(r, KeyOrder((m: SoccerRow) => ClockAsc(m.startTime)))
  {
    SortBy(Select(rows, (m: SoccerRow) => HasStatusIn(m.matchStatus, LiveSoccerStatuses)), (m: SoccerRow) => ClockAsc(m.startTime))
  }

  /** `GetLiveBasketballMatches`. */
  function LiveBasketballMatches(rows: seq<BasketballRow>): (r: seq<BasketballRow>)
    ensures forall m :: m in r <==> m in rows && HasStatusIn(m.matchStatus, LiveBasketballStatuses)
    ensures forall m :: multiset(r)[m] == if HasStatusIn(m.matchStatus, LiveBasketballStatuses) then multiset(rows)[m] else 0
    ensures Sorted(r, KeyOrder((m: BasketballRow) => ClockAsc(m.matchTime)))
  {
    SortBy(Select(rows, (m: BasketballRow) => HasStatusIn(m.matchStatus, LiveBasketballStatuses)), (m: BasketballRow) => ClockAsc(m.matchTime))
  }

  /** A finished match, or one whose status is unknown, is never listed
      live; a match at half time is listed as often as it is stored. */
  lemma FinishedNeverLive(rows: seq<SoccerRow>, m: SoccerRow)
    ensures m.matchStatus == Some("FT") || m.matchStatus.None? ==> m !in LiveSoccerMatches(rows)
    ensures m.matchStatus == Some("HT") ==> multiset(LiveSoccerMatches(rows))[m] == multiset(rows)[m]
  {
  }

  /** A league entry of the API: a NULL gid reads 0 and a NULL name "". */
  datatype LeagueInfo = LeagueInfo(id: int, gid: int, name: string)

  /** The `(league_id, league_gid, league_name)` columns of a row. */
  datatype LeagueColumns = LeagueColumns(id: Option<int>, gid: Option<int>, name: Option<string>)

  /** `SELECT DISTINCT` of the columns over the rows with a league id, in
      first-appearance order. */
  function DistinctLeagues(cols: seq<LeagueColumns>): (r: seq<LeagueColumns>)
    ensures forall c :: c in r <==> c in cols && c.id.Some?
    ensures forall i, j :: 0 <= i < j < |r| ==> r[i] != r[j]
    decreases |cols|
  {
    if cols == [] then []
    else
      var rest := DistinctLeagues(cols[..|cols| - 1]);
      var c := cols[|cols| - 1];
      assert cols == cols[..|cols| - 1] + [c];
      if c.id.Some? && c !in rest then rest + [c] else rest
  }

  function ToLeagueInfo(c: LeagueColumns): LeagueInfo
    requires c.id.Some?
  {
    LeagueInfo(c.id.value, c.gid.GetOr(0), c.name.GetOr(""))
  }

  /** `GetSoccerLeagues` and `GetBasketballLeagues` over the league columns of
      the rows: one entry per distinct column triple with a league id. */
  function Leagues(cols: seq<LeagueColumns>): (r: seq<LeagueInfo>)
    ensures |r| == |DistinctLeagues(cols)|
    ensures forall i :: 0 <= i < |r| ==> exists c :: c in cols && c.id.Some? && r[i] == ToLeagueInfo(c)
    ensures forall c :: c in cols && c.id.Some? ==> ToLeagueInfo(c) in r
  {
    var d := DistinctLeagues(cols);
    var r := seq(|d|, i requires 0 <= i < |d| => ToLeagueInfo(d[i]));
    forall i | 0 <= i < |r| ensures exists c :: c in cols && c.id.Some? && r[i] == ToLeagueInfo(c) {
      var c := d[i];
      assert c in d;
      assert c in cols && c.id.Some? && r[i] == ToLeagueInfo(c);
    }
    forall c | c in cols && c.id.Some? ensures ToLeagueInfo(c) in r {
      var i :| 0 <= i < |d| && d[i] == c;
      assert r[i] == ToLeagueInfo(c);
    }
    r
  }

  function SoccerLeagueColumns(m: SoccerRow): LeagueColumns {
    LeagueColumns(m.leagueId, m.leagueGid, m.leagueName)
  }

  function BasketballLeagueColumns(m: BasketballRow): LeagueColumns {
    LeagueColumns(m.leagueId, m.leagueGid, m.leagueName)
  }

  /** `DISTINCT` applies to the whole triple: a league whose name changed
      between rows is listed once per name. */
  lemma RenamedLeagueListedTwice()
    ensures |Leagues([LeagueColumns(Some(8), Some(1), Some("Premier League")),
                      LeagueColumns(Some(8), Some(1), Some("EPL")),
                      LeagueColumns(Some(8), Some(1), Some("EPL")),
                      LeagueColumns(None, Some(2), Some("Friendlies"))])| == 2
  {
    var a := LeagueColumns(Some(8), Some(1), Some("Premier League"));
    var b := LeagueColumns(Some(8), Some(1), Some("EPL"));
    var n := LeagueColumns(None, Some(2), Some("Friendlies"));
    var cols := [a, b, b, n];
    assert cols[..3][..2][..1] == [a];
    assert cols[..3][..2] == [a, b];
    assert cols[..3] == [a, b, b];
    assert DistinctLeagues([a]) == [a];
    assert DistinctLeagues([a, b]) == [a, b];
  }

  datatype WriteError = GoalsRefused | ValueRefused

  predicate GoalsFit(hGoals: int, aGoals: int) {
    Int32Min <= hGoals <= Int32Max && Int32Min <= aGoals <= Int32Max
  }

  /** `UpdateMatchScore`: writes the goals and both score strings of the row
      with that `match_id` (an empty score is stored as "", not NULL);
      `updated_at` is not touched. A goal count outside 32 bits cannot be
      bound as an `integer` parameter, and a score with more than spaces past
      its 10 characters is refused while the statement is planned: either way
      the statement fails before any row is looked at. Otherwise no matching
      row is not an error, and a score is cut to its 10 characters. */
  function UpdateMatchScore(t: Table<SoccerRow>, matchId: int, hGoals: int, aGoals: int, htScore: string, ftScore: string)
    : (r: Result<Table<SoccerRow>, WriteError>)
    ensures !GoalsFit(hGoals, aGoals) ==> r == Failure(GoalsRefused)
    ensures GoalsFit(hGoals, aGoals) && !(VarcharTakes(Some(htScore), 10) && VarcharTakes(Some(ftScore), 10)) ==> r == Failure(ValueRefused)
    ensures r.Failure? <==> !(GoalsFit(hGoals, aGoals) && VarcharTakes(Some(htScore), 10) && VarcharTakes(Some(ftScore), 10))
    ensures r.Success? && matchId !in t.rows ==> r.value == t
    ensures r.Success? ==> r.value.nextId == t.nextId && r.value.rows.Keys == t.rows.Keys
    ensures r.Success? ==> forall k :: k in t.rows && k != matchId ==> r.value.rows[k] == t.rows[k]
    ensures r.Success? && matchId in t.rows ==>
      r.value.rows[matchId] == t.rows[matchId].(hTeamGoals := Some(hGoals), aTeamGoals := Some(aGoals),
                                                htScore := VarcharValue(Some(htScore), 10),
                                                ftScore := VarcharValue(Some(ftScore), 10))
  {
    if !GoalsFit(hGoals, aGoals) then Failure(GoalsRefused)
    else if !(VarcharTakes(Some(htScore), 10) && VarcharTakes(Some(ftScore), 10)) then Failure(ValueRefused)
    else if matchId !in t.rows then Success(t)
    else
      var row := t.rows[matchId].(hTeamGoals := Some(hGoals), aTeamGoals := Some(aGoals),
                                  htScore := VarcharValue(Some(htScore), 10), ftScore := VarcharValue(Some(ftScore), 10));
      Success(Table(t.rows[matchId := row], t.nextId))
  }

  /** A score update keeps every other column of the row, including its
      status, events and timestamps. */
  lemma ScoreUpdateKeepsOtherColumns(t: Table<SoccerRow>, matchId: int, hGoals: int, aGoals: int, htScore: string, ftScore: string)
    requires matchId in t.rows
    requires UpdateMatchScore(t, matchId, hGoals, aGoals, htScore, ftScore).Success?
    ensures var before := t.rows[matchId];
      var after := UpdateMatchScore(t, matchId, hGoals, aGoals, htScore, ftScore).value.rows[matchId];
      && after.id == before.id && after.matchId == before.matchId && after.matchStatus == before.matchStatus
      && after.leagueId == before.leagueId && after.startDate == before.startDate && after.startTime == before.startTime
      && after.events == before.events && after.createdAt == before.createdAt && after.updatedAt == before.updatedAt
      && after.htScore == VarcharValue(Some(htScore), 10) && after.hTeamGoals == Some(hGoals)
  {
  }
}

=== FILE: query_params.dfy ===
/** `parseQueryParams`: paging and filters of the list endpoints, read from
    the URL query with defaults and clamping. */
module QueryParams {
  import opened Wrappers
  import opened Text

  /** The URL query, holding the first value of each parameter. */
  type Query = map<string, string>

  function Param(q: Query, name: string): string {
    if name in q then q[name] else ""
  }

  /** `Date` and `Status` are "" when the filter is unset. */
  datatype Params = Params(limit: int, offset: int, date: string, status: string, leagueId: Option<int>)

  const DefaultLimit: int := 50
  const MaxLimit: int := 100

  function ParseLimit(s: string): (n: int)
    ensures 1 <= n <= MaxLimit
    ensures ParseInt(s).Some? && 1 <= ParseInt(s).value <= MaxLimit ==> n == ParseInt(s).value
    ensures !(ParseInt(s).Some? && 1 <= ParseInt(s).value <= MaxLimit) ==> n == DefaultLimit
  {
    if s != "" && ParseInt(s).Some? && 0 < ParseInt(s).value <= MaxLimit then ParseInt(s).value else DefaultLimit
  }

  function ParseOffset(s: string): (n: int)
    ensures n >= 0
    ensures ParseInt(s).Some? && ParseInt(s).value >= 0 ==> n == ParseInt(s).value
    ensures !(ParseInt(s).Some? && ParseInt(s).value >= 0) ==> n == 0
  {
    if s != "" && ParseInt(s).Some? && ParseInt(s).value >= 0 then ParseInt(s).value else 0
  }

  /** `parseQueryParams`. The result always pages legally (limit 1..100,
      offset at least 0), whatever the query holds. */
  function ParseQueryParams(q: Query): (p: Params)
    ensures 1 <= p.limit <= MaxLimit && p.offset >= 0
    ensures p.limit == ParseLimit(Param(q, "limit")) && p.offset == ParseOffset(Param(q, "offset"))
    ensures p.date == Param(q, "date") && p.status == Param(q, "status")
    ensures p.leagueId.Some? <==> ParseInt(Param(q, "league_id")).Some?
    ensures p.leagueId.Some? ==> p.leagueId == ParseInt(Param(q, "league_id"))
  {
    var league := Param(q, "league_id");
    Params(ParseLimit(Param(q, "limit")), ParseOffset(Param(q, "offset")),
           Param(q, "date"), Param(q, "status"),
           if league != "" then ParseInt(league) else None)
  }

  /** The query a client would send for `p`. */
  function RenderQuery(p: Params): Query {
    var base := map["limit" := FormatInt(p.limit), "offset" := FormatInt(p.offset), "date" := p.date, "status" := p.status];
    if p.leagueId.Some? then base["league_id" := FormatInt(p.leagueId.value)] else base
  }

  /** Parameters within the accepted ranges survive the trip through a URL
      query unchanged. */
  lemma RenderParseRoundTrip(p: Params)
    requires 1 <= p.limit <= MaxLimit && 0 <= p.offset <= Int64Max
    requires p.leagueId.Some? ==> Int64Min <= p.leagueId.value <= Int64Max
    ensures ParseQueryParams(RenderQuery(p)) == p
  {
    ParseFormatRoundTrip(p.limit);
    ParseFormatRoundTrip(p.offset);
    if p.leagueId.Some? {
      ParseFormatRoundTrip(p.leagueId.value);
    }
  }

  /** The empty query gives the defaults, and out-of-range or malformed
      values fall back to them instead of failing. */
  lemma Defaults()
    ensures ParseQueryParams(map[]) == Params(50, 0, "", "", None)
    ensures ParseQueryParams(map["limit" := "500", "offset" := "-3", "league_id" := "x"]) == Params(50, 0, "", "", None)
  {
    assert ParseInt("500") == Some(500) by {
      assert FormatNat(5) == "5" && FormatNat(50) == "50" && FormatInt(500) == "500";
      ParseFormatRoundTrip(500);
    }
    assert ParseInt("-3") == Some(-3) by {
      assert FormatInt(-3) == "-3";
      ParseFormatRoundTrip(-3);
    }
  }
}

=== FILE: rate_limit.dfy ===
/** Per-key rate limiting: token buckets held in a registry keyed by the key
    hash, created on first use and never replaced. */
module RateLimit {
  import opened Wrappers
  import opened Text
  import opened Schema
  import opened Http

  /** A token bucket of `golang.org/x/time/rate`, kept abstract: refill rate
      in tokens per second, capacity, and the tokens currently held. Time
      does not pass inside this model (see `Refill`). */
  datatype Limiter = Limiter(ratePerSecond: real, burst: int, tokens: int)

  /** Tokens never exceed the capacity, and a bucket whose rate is zero or
      below holds none: such a bucket never gains tokens over time. */
  predicate LimiterOk(l: Limiter) {
    && 0 <= l.tokens <= l.burst
    && (l.ratePerSecond <= 0.0 ==> l.tokens == 0)
  }

  /** How many requests the bucket admits right now. A bucket of rate zero
      takes a separate path in `golang.org/x/time/rate`: it admits while its
      capacity lasts and spends the capacity itself. */
  function Available(l: Limiter): int {
    if l.ratePerSecond == 0.0 then l.burst else l.tokens
  }

  /** `rate.NewLimiter`: with a positive rate the bucket starts full, since
      the time elapsed since the zero time refills it to capacity. With a
      rate of zero or below no time adds tokens, so it starts empty; one of
      rate zero still admits its capacity once. */
  function NewLimiter(r: real, b: int): (l: Limiter)
    requires b >= 0
    ensures LimiterOk(l) && l.burst == b && l.ratePerSecond == r
    ensures Available(l) == (if r < 0.0 then 0 else b)
  {
    Limiter(r, b, if r > 0.0 then b else 0)
  }

  /** `Limiter.Allow`: with rate zero, admits iff the capacity is at least
      one and spends a unit of capacity; otherwise admits iff a whole token
      is held (and the capacity allows a request of one), consuming it. A
      refusal leaves the bucket as it was. */
  function Allow(l: Limiter): (r: (bool, Limiter))
    ensures l.ratePerSecond == 0.0 ==> (r.0 <==> l.burst >= 1)
    ensures l.ratePerSecond != 0.0 ==> (r.0 <==> l.tokens >= 1 && l.burst >= 1)
    ensures LimiterOk(l) ==> (r.0 <==> Available(l) >= 1)
    ensures r.0 ==> Available(r.1) == Available(l) - 1 && r.1.ratePerSecond == l.ratePerSecond
    ensures r.0 && l.ratePerSecond != 0.0 ==> r.1 == l.(tokens := l.tokens - 1)
    ensures !r.0 ==> r.1 == l
    ensures LimiterOk(l) ==> LimiterOk(r.1)
  {
    if l.ratePerSecond == 0.0 then
      if l.burst >= 1 then (true, l.(burst := l.burst - 1)) else (false, l)
    else if l.tokens >= 1 && l.burst >= 1 then (true, l.(tokens := l.tokens - 1))
    else (false, l)
  }

  /** Refilling by `n` whole tokens, never above capacity: the abstract
      stand-in for elapsed time. A rate of zero or below adds nothing. */
  function Refill(l: Limiter, n: nat): (r: Limiter)
    requires LimiterOk(l)
    ensures LimiterOk(r) && r.burst == l.burst && r.ratePerSecond == l.ratePerSecond
    ensures l.tokens <= r.tokens
    ensures l.ratePerSecond <= 0.0 ==> r == l
    ensures l.ratePerSecond > 0.0 ==> r.tokens == l.burst || r.tokens == l.tokens + n
  {
    if l.ratePerSecond <= 0.0 then l
    else l.(tokens := if l.tokens + n <= l.burst then l.tokens + n else l.burst)
  }

  /** The requests a key's new limiter admits before any time passes:
      nothing for a negative rate, its burst otherwise. */
  function FreshAllowance(rateLimit: int): nat {
    if rateLimit < 0 then 0 else BurstFor(rateLimit)
  }

  /** Refill rate for a key: its requests-per-minute over 60. */
  function RatePerSecond(rateLimit: int): (r: real)
    ensures r * 60.0 == rateLimit as real
  {
    rateLimit as real / 60.0
  }

  /** Burst for a key: a tenth of its per-minute limit, truncated, at least 1. */
  function BurstFor(rateLimit: int): (b: int)
    ensures b >= 1
    ensures rateLimit >= 10 ==> b * 10 <= rateLimit < (b + 1) * 10
    ensures b == 1 <==> rateLimit < 20
  {
    var q := GoDiv(rateLimit, 10);
    if q < 1 then 1 else q
  }

  /** The `sync.Map` of limiters, keyed by key hash. */
  type Registry = map<string, Limiter>

  predicate RegistryOk(reg: Registry) {
    forall h :: h in reg ==> LimiterOk(reg[h])
  }

  /** `sync.Map.LoadOrStore`: an existing entry wins over the candidate. */
  function LoadOrStore(reg: Registry, h: string, candidate: Limiter): (r: (Limiter, Registry))
    ensures h in reg ==> r == (reg[h], reg)
    ensures h !in reg ==> r.0 == candidate && r.1 == reg[h := candidate]
  {
    if h in reg then (reg[h], reg) else (candidate, reg[h := candidate])
  }

  /** `getLimiter`: the stored limiter for the key's hash, or a new one
      sized from the key's own rate limit, which is full only for a positive
      rate. */
  function GetLimiter(reg: Registry, key: ApiKey): (r: (Limiter, Registry))
    ensures key.keyHash in r.1 && r.0 == r.1[key.keyHash]
    ensures key.keyHash in reg ==> r == (reg[key.keyHash], reg)
    ensures key.keyHash !in reg ==>
      && LimiterOk(r.0) && r.0.burst == BurstFor(key.rateLimit)
      && Available(r.0) == FreshAllowance(key.rateLimit)
      && r.0.ratePerSecond * 60.0 == key.rateLimit as real
    ensures forall h :: h != key.keyHash ==> (h in r.1 <==> h in reg) && (h in reg ==> r.1[h] == reg[h])
    ensures RegistryOk(reg) ==> RegistryOk(r.1)
  {
    if key.keyHash in reg then (reg[key.keyHash], reg)
    else LoadOrStore(reg, key.keyHash, NewLimiter(RatePerSecond(key.rateLimit), BurstFor(key.rateLimit)))
  }

  /** Two requests for the same hash that both missed the first load: the
      first candidate stored wins, and the second caller gets it, not its own. */
  lemma RaceFirstStoreWins(reg: Registry, h: string, c1: Limiter, c2: Limiter)
    requires h !in reg
    ensures var (a1, reg1) := LoadOrStore(reg, h, c1);
            var (a2, reg2) := LoadOrStore(reg1, h, c2);
            a1 == c1 && a2 == c1 && reg2 == reg[h := c1]
  {
  }

  /** Once a hash has a limiter, a later change to the key's rate limit has
      no effect on the limiter it gets. */
  lemma ExistingLimiterIgnoresNewRate(reg: Registry, key: ApiKey, newRate: int)
    requires key.keyHash in reg
    ensures GetLimiter(reg, key.(rateLimit := newRate)) == GetLimiter(reg, key)
  {
  }

  /** `NewRateLimiter`'s fields. Its default rate and burst are never read by
      the middleware, which sizes every limiter from the key. */
  datatype RateLimiter = RateLimiter(limiters: Registry, defaultRate: real, defaultBurst: int)

  function NewRateLimiter(requestsPerMinute: int): (rl: RateLimiter)
    ensures rl.limiters == map[]
    ensures rl.defaultRate * 60.0 == requestsPerMinute as real
    ensures requestsPerMinute >= 0 ==> rl.defaultBurst * 10 <= requestsPerMinute < (rl.defaultBurst + 1) * 10
  {
    RateLimiter(map[], requestsPerMinute as real / 60.0, GoDiv(requestsPerMinute, 10))
  }

  /** The default burst has no lower clamp: below 10 requests per minute it
      is 0, where a per-key burst would be 1. */
  lemma DefaultBurstUnclamped(requestsPerMinute: int)
    requires 0 <= requestsPerMinute < 10
    ensures NewRateLimiter(requestsPerMinute).defaultBurst == 0
    ensures BurstFor(requestsPerMinute) == 1
  {
  }

  const RateLimitMessage: string := "Rate limit exceeded. Please wait before making more requests."

  /** The 429 reply of the middleware. */
  function TooManyRequests(): (r: Reply)
    ensures r.status == StatusTooManyRequests
    ensures "Retry-After" in r.headers && r.headers["Retry-After"] == "60"
    ensures "Content-Type" in r.headers && r.headers["Content-Type"] == "application/json"
    ensures r.body == ErrorBody("RATE_LIMIT_EXCEEDED", RateLimitMessage)
  {
    Reply(StatusTooManyRequests,
          map["Content-Type" := "application/json", "Retry-After" := "60"],
          ErrorBody("RATE_LIMIT_EXCEEDED", RateLimitMessage))
  }

  /** `RateLimiter.Middleware` for one request, given the key the auth
      middleware put in the context (if any). */
  function Limit(reg: Registry, ctxKey: Option<ApiKey>): (r: (Verdict<Option<ApiKey>>, Registry))
    ensures ctxKey.None? ==> r == (Next(ctxKey), reg)
    ensures ctxKey.Some? ==>
      var (l, _) := GetLimiter(reg, ctxKey.value);
      && (r.0.Next? <==> Allow(l).0)
      && (RegistryOk(reg) ==> (r.0.Next? <==> Available(l) >= 1))
      && (r.0.Next? ==> r.0.ctx == ctxKey && r.1 == GetLimiter(reg, ctxKey.value).1[ctxKey.value.keyHash := Allow(l).1])
      && (r.0.Stop? ==> r.0.reply == TooManyRequests() && r.1 == GetLimiter(reg, ctxKey.value).1)
    ensures RegistryOk(reg) ==> RegistryOk(r.1)
  {
    match ctxKey
    case None => (Next(ctxKey), reg)
    case Some(key) =>
      var (l, reg1) := GetLimiter(reg, key);
      var (ok, l1) := Allow(l);
      if ok then (Next(ctxKey), reg1[key.keyHash := l1]) else (Stop(TooManyRequests()), reg1)
  }

  /** `n` consecutive requests with the same key, with no time passing:
      how many were admitted, and the registry afterwards. */
  function Burst(reg: Registry, key: ApiKey, n: nat): (r: (nat, Registry))
    decreases n
  {
    if n == 0 then (0, reg)
    else
      var (v, reg1) := Limit(reg, Some(key));
      var (k, reg2) := Burst(reg1, key, n - 1);
      (if v.Next? then k + 1 else k, reg2)
  }

  /** With a limiter that admits `t` requests right now, `n` back-to-back
      requests admit exactly min(n, t), and the bucket keeps the rest. */
  lemma {:induction false} BurstAdmitsHeldTokens(reg: Registry, key: ApiKey, n: nat)
    requires key.keyHash in reg && LimiterOk(reg[key.keyHash])
    ensures var t := Available(reg[key.keyHash]);
            var (k, reg') := Burst(reg, key, n);
            k == (if n <= t then n else t)
            && key.keyHash in reg' && LimiterOk(reg'[key.keyHash]) && Available(reg'[key.keyHash]) == t - k
            && reg'[key.keyHash].ratePerSecond == reg[key.keyHash].ratePerSecond
    decreases n
  {
    if n > 0 {
      var (v, reg1) := Limit(reg, Some(key));
      BurstAdmitsHeldTokens(reg1, key, n - 1);
    }
  }

  /** A key seen for the first time gets exactly its fresh allowance of
      back-to-back requests: min(n, BurstFor(rateLimit)) for a rate limit of
      zero or more, and none at all for a negative one. */
  lemma FirstBurst(reg: Registry, key: ApiKey, n: nat)
    requires key.keyHash !in reg
    ensures Burst(reg, key, n).0 == (if n <= FreshAllowance(key.rateLimit) then n else FreshAllowance(key.rateLimit))
  {
    var (l, reg0) := GetLimiter(reg, key);
    assert reg0 == reg[key.keyHash := l];
    if n > 0 {
      BurstAdmitsHeldTokens(reg0, key, n);
      assert Burst(reg0, key, n) == Burst(reg, key, n) by {
        assert Limit(reg0, Some(key)) == Limit(reg, Some(key));
      }
    }
  }

  /** A key with a rate limit of zero is admitted once, however many
      requests it sends, and no refill ever brings another admission. */
  lemma ZeroRateAdmitsOnce(reg: Registry, key: ApiKey, n: nat, m: nat)
    requires key.keyHash !in reg && key.rateLimit == 0 && n >= 1
    ensures var (k, reg') := Burst(reg, key, n);
            && k == 1 && key.keyHash in reg'
            && LimiterOk(reg'[key.keyHash]) && !Allow(Refill(reg'[key.keyHash], m)).0
  {
    var (l, reg0) := GetLimiter(reg, key);
    assert reg0 == reg[key.keyHash := l];
    BurstAdmitsHeldTokens(reg0, key, n);
    assert Burst(reg0, key, n) == Burst(reg, key, n) by {
      assert Limit(reg0, Some(key)) == Limit(reg, Some(key));
    }
  }
}

=== FILE: schema.dfy ===
/** The three tables of the database as records, one field per column, with
    `Option` for a nullable column. Column widths and the API-key table's
    constraints are stated as predicates; a write that breaks one is refused
    by the database. Timestamps are abstract instants (`int`). */
module Schema {
  import opened Wrappers
  import opened Calendar
  import Text
  import Goalserve

  /** A `varchar(n)` column: null, or a string of at most `n` characters. */
  predicate FitsVarchar(v: Option<string>, n: nat) {
    v.None? || |v.value| <= n
  }

  /** Whether PostgreSQL takes `v` into a `varchar(n)` column: a longer
      string is refused only when a character other than a space lies past
      the n-th. */
  predicate VarcharTakes(v: Option<string>, n: nat) {
    v.None? || forall i :: n <= i < |v.value| ==> v.value[i] == ' '
  }

  function Spaces(k: nat): (s: string)
    ensures |s| == k && forall i :: 0 <= i < k ==> s[i] == ' '
  {
    seq(k, _ => ' ')
  }

  /** What a `varchar(n)` column stores for `v`: the string cut to `n`
      characters. For a value the column takes, only spaces are lost. */
  function VarcharValue(v: Option<string>, n: nat): (r: Option<string>)
    ensures FitsVarchar(r, n)
    ensures r.None? <==> v.None?
    ensures FitsVarchar(v, n) ==> r == v
    ensures VarcharTakes(v, n) && v.Some? ==> v.value == r.value + Spaces(|v.value| - |r.value|)
  {
    match v
    case None => None
    case Some(s) =>
      if |s| <= n then v
      else
        assert s == s[..n] + s[n..];
        Some(s[..n])
  }

  /** Storing a stored value again changes nothing. */
  lemma VarcharValueIdempotent(v: Option<string>, n: nat)
    ensures VarcharTakes(VarcharValue(v, n), n) && VarcharValue(VarcharValue(v, n), n) == VarcharValue(v, n)
  {
  }

  /** A row of `soccer_matches`. `events` holds the JSON array of match events. */
  datatype SoccerRow = SoccerRow(
    id: int,
    matchId: Option<int>,
    leagueGid: Option<int>,
    leagueId: Option<int>,
    leagueName: Option<string>,
    matchStatus: Option<string>,
    startDate: Option<Date>,
    startTime: Option<Clock>,
    hTeamId: Option<int>,
    aTeamId: Option<int>,
    hTeamName: Option<string>,
    aTeamName: Option<string>,
    hTeamGoals: Option<int>,
    aTeamGoals: Option<int>,
    htScore: Option<string>,
    ftScore: Option<string>,
    events: Option<seq<Goalserve.Event>>,
    createdAt: int,
    updatedAt: int)

  /** Width limits of the `soccer_matches` text columns. */
  predicate SoccerRowFits(r: SoccerRow) {
    && FitsVarchar(r.leagueName, 255) && FitsVarchar(r.matchStatus, 50)
    && FitsVarchar(r.hTeamName, 255) && FitsVarchar(r.aTeamName, 255)
    && FitsVarchar(r.htScore, 10) && FitsVarchar(r.ftScore, 10)
  }

  /** The `soccer_matches` row PostgreSQL stores for a written row: refused
      when a text column does not take its value, and otherwise the row with
      each text column cut to its width. */
  function StoredSoccerRow(r: SoccerRow): (s: Option<SoccerRow>)
    ensures s.Some? <==>
      && VarcharTakes(r.leagueName, 255) && VarcharTakes(r.matchStatus, 50)
      && VarcharTakes(r.hTeamName, 255) && VarcharTakes(r.aTeamName, 255)
      && VarcharTakes(r.htScore, 10) && VarcharTakes(r.ftScore, 10)
    ensures s.Some? ==> SoccerRowFits(s.value)
    ensures s.Some? ==> s.value == r.(
      leagueName := VarcharValue(r.leagueName, 255), matchStatus := VarcharValue(r.matchStatus, 50),
      hTeamName := VarcharValue(r.hTeamName, 255), aTeamName := VarcharValue(r.aTeamName, 255),
      htScore := VarcharValue(r.htScore, 10), ftScore := VarcharValue(r.ftScore, 10))
    ensures SoccerRowFits(r) ==> s == Some(r)
  {
    if && VarcharTakes(r.leagueName, 255) && VarcharTakes(r.matchStatus, 50)
       && VarcharTakes(r.hTeamName, 255) && VarcharTakes(r.aTeamName, 255)
       && VarcharTakes(r.htScore, 10) && VarcharTakes(r.ftScore, 10)
    then
      Some(r.(
        leagueName := VarcharValue(r.leagueName, 255), matchStatus := VarcharValue(r.matchStatus, 50),
        hTeamName := VarcharValue(r.hTeamName, 255), aTeamName := VarcharValue(r.aTeamName, 255),
        htScore := VarcharValue(r.htScore, 10), ftScore := VarcharValue(r.ftScore, 10)))
    else None
  }

  /** One team's total and per-period points in `basketball_matches`. */
  datatype ScoreLine = ScoreLine(
    total: Option<int>, q1: Option<int>, q2: Option<int>, q3: Option<int>, q4: Option<int>, ot: Option<int>)

  /** A row of `basketball_matches`. */
  datatype BasketballRow = BasketballRow(
    id: int,
    matchId: Option<int>,
    leagueGid: Option<int>,
    leagueId: Option<int>,
    leagueName: Option<string>,
    fileGroup: Option<string>,
    matchStatus: Option<string>,
    matchDate: Option<Date>,
    matchTime: Option<Clock>,
    timer: Option<string>,
    hTeamId: Option<int>,
    hTeamName: Option<string>,
    home: ScoreLine,
    aTeamId: Option<int>,
    aTeamName: Option<string>,
    away: ScoreLine,
    createdAt: int,
    updatedAt: int)

  /** Width limits of the `basketball_matches` text columns. */
  predicate BasketballRowFits(r: BasketballRow) {
    && FitsVarchar(r.leagueName, 255) && FitsVarchar(r.fileGroup, 100)
    && FitsVarchar(r.matchStatus, 50) && FitsVarchar(r.timer, 20)
    && FitsVarchar(r.hTeamName, 255) && FitsVarchar(r.aTeamName, 255)
  }

  /** The `basketball_matches` row PostgreSQL stores for a written row. */
  function StoredBasketballRow(r: BasketballRow): (s: Option<BasketballRow>)
    ensures s.Some? <==>
      && VarcharTakes(r.leagueName, 255) && VarcharTakes(r.fileGroup, 100)
      && VarcharTakes(r.matchStatus, 50) && VarcharTakes(r.timer, 20)
      && VarcharTakes(r.hTeamName, 255) && VarcharTakes(r.aTeamName, 255)
    ensures s.Some? ==> BasketballRowFits(s.value)
    ensures s.Some? ==> s.value == r.(
      leagueName := VarcharValue(r.leagueName, 255), fileGroup := VarcharValue(r.fileGroup, 100),
      matchStatus := VarcharValue(r.matchStatus, 50), timer := VarcharValue(r.timer, 20),
      hTeamName := VarcharValue(r.hTeamName, 255), aTeamName := VarcharValue(r.aTeamName, 255))
    ensures BasketballRowFits(r) ==> s == Some(r)
  {
    if && VarcharTakes(r.leagueName, 255) && VarcharTakes(r.fileGroup, 100)
       && VarcharTakes(r.matchStatus, 50) && VarcharTakes(r.timer, 20)
       && VarcharTakes(r.hTeamName, 255) && VarcharTakes(r.aTeamName, 255)
    then
      Some(r.(
        leagueName := VarcharValue(r.leagueName, 255), fileGroup := VarcharValue(r.fileGroup, 100),
        matchStatus := VarcharValue(r.matchStatus, 50), timer := VarcharValue(r.timer, 20),
        hTeamName := VarcharValue(r.hTeamName, 255), aTeamName := VarcharValue(r.aTeamName, 255)))
    else None
  }

  /** A row of `api_keys`: only the SHA-256 hex of the key is stored, with a
      short display prefix; `sports` lists the sports the key may read (`*`
      for all); `rateLimit` is in requests per minute. */
  datatype ApiKey = ApiKey(
    id: int,
    keyHash: string,
    keyPrefix: string,
    name: string,
    sports: seq<string>,
    rateLimit: int,
    isActive: bool,
    createdAt: int,
    lastUsedAt: Option<int>,
    expiresAt: Option<int>)

  /** Default of the `rate_limit` column, in requests per minute. */
  const DefaultRateLimit: int := 100

  /** Widths of the `api_keys` text columns. */
  predicate ApiKeyFits(k: ApiKey) {
    |k.keyHash| <= 64 && |k.keyPrefix| <= 16 && |k.name| <= 255 && Text.Int32Min <= k.rateLimit <= Text.Int32Max
  }

  /** What `api_keys` stores for a new row whose rate limit the driver has
      already accepted: each text column cut to its width, or `None` when a
      column holds more than trailing spaces past its width. */
  function StoredApiKey(k: ApiKey): (s: Option<ApiKey>)
    requires Text.Int32Min <= k.rateLimit <= Text.Int32Max
    ensures s.Some? <==>
      VarcharTakes(Some(k.keyHash), 64) && VarcharTakes(Some(k.keyPrefix), 16) && VarcharTakes(Some(k.name), 255)
    ensures s.Some? ==> ApiKeyFits(s.value)
    ensures s.Some? ==> s.value == k.(
      keyHash := VarcharValue(Some(k.keyHash), 64).value, keyPrefix := VarcharValue(Some(k.keyPrefix), 16).value,
      name := VarcharValue(Some(k.name), 255).value)
    ensures ApiKeyFits(k) ==> s == Some(k)
  {
    if VarcharTakes(Some(k.keyHash), 64) && VarcharTakes(Some(k.keyPrefix), 16) && VarcharTakes(Some(k.name), 255)
    then
      Some(k.(
        keyHash := VarcharValue(Some(k.keyHash), 64).value, keyPrefix := VarcharValue(Some(k.keyPrefix), 16).value,
        name := VarcharValue(Some(k.name), 255).value))
    else None
  }

  /** The `api_keys` table in scan order, with the next generated id. */
  datatype KeyTable = KeyTable(rows: seq<ApiKey>, nextId: int)

  /** Constraints of `api_keys`: identity ids below `nextId` and distinct,
      `key_hash` unique, every text column within its width. */
  predicate KeyTableOk(t: KeyTable) {
    && 1 <= t.nextId
    && (forall i :: 0 <= i < |t.rows| ==> 1 <= t.rows[i].id < t.nextId && ApiKeyFits(t.rows[i]))
    && (forall i, j :: 0 <= i < j < |t.rows| ==> t.rows[i].id != t.rows[j].id && t.rows[i].keyHash != t.rows[j].keyHash)
  }
}

=== FILE: soccer_sync.dfy ===
/** `MatchSyncService`: one soccer feed record becomes a `soccer_matches` row,
    inserted when its `match_id` is new and otherwise refreshed in its
    volatile columns only. */
module SoccerSync {
  import opened Wrappers
  import opened Text
  import opened Calendar
  import opened Goalserve
  import opened Schema
  import opened Store
  import opened Normalize
  import Batch

  /** The row inserted for a new match. */
  function NewSoccerRow(id: int, matchId: int, cat: Category, m: Match, when: Schedule, now: int): SoccerRow {
    SoccerRow(
      id := id,
      matchId := Some(matchId),
      leagueGid := Some(LenientId(cat.gid)),
      leagueId := Some(LenientId(cat.id)),
      leagueName := Some(cat.name),
      matchStatus := Some(m.status),
      startDate := Some(when.date),
      startTime := Some(when.time),
      hTeamId := Some(LenientId(m.localTeam.id)),
      aTeamId := Some(LenientId(m.visitorTeam.id)),
      hTeamName := Some(m.localTeam.name),
      aTeamName := Some(m.visitorTeam.name),
      hTeamGoals := ParseScore(m.localTeam.goals),
      aTeamGoals := ParseScore(m.visitorTeam.goals),
      htScore := NullIfEmpty(m.ht.score),
      ftScore := NullIfEmpty(m.ft.score),
      events := Some(StoredEvents(m.events)),
      createdAt := now,
      updatedAt := now)
  }

  /** The update of an existing row: status, goals, half- and full-time
      scores, events and `updated_at`. */
  function RefreshSoccerRow(row: SoccerRow, m: Match, now: int): SoccerRow {
    row.(
      matchStatus := Some(m.status),
      hTeamGoals := ParseScore(m.localTeam.goals),
      aTeamGoals := ParseScore(m.visitorTeam.goals),
      htScore := NullIfEmpty(m.ht.score),
      ftScore := NullIfEmpty(m.ft.score),
      events := Some(StoredEvents(m.events)),
      updatedAt := now)
  }

  function SoccerId(r: SoccerRow): int { r.id }
  function SoccerKey(r: SoccerRow): Option<int> { r.matchId }

  /** `upsertMatch`. An invalid `@id` or schedule skips the record before the
      database is touched. */
  function UpsertMatch(t: Table<SoccerRow>, cat: Category, m: Match, currentYear: nat, now: int, fault: DbFault): (o: Outcome<SoccerRow>)
    ensures ParseInt(m.id).None? ==> o == Outcome(t, Failure(InvalidMatchId))
    ensures ParseInt(m.id).Some? && SoccerSchedule(m, currentYear).Failure? ==> o == Outcome(t, Failure(SoccerSchedule(m, currentYear).error))
    ensures o.result.Failure? ==> o.table.rows == t.rows
    ensures o.table.nextId == t.nextId || o.table.nextId == t.nextId + 1
    ensures o.result.Success? ==> ParseInt(m.id).Some? && SoccerSchedule(m, currentYear).Success? && ParseInt(m.id).value in o.table.rows
    ensures o.result.Success? ==> forall k :: k in t.rows && k != ParseInt(m.id).value ==> k in o.table.rows && o.table.rows[k] == t.rows[k]
  {
    match ParseInt(m.id)
    case None => Outcome(t, Failure(InvalidMatchId))
    case Some(matchId) =>
      match SoccerSchedule(m, currentYear)
      case Failure(e) => Outcome(t, Failure(e))
      case Success(when) =>
        Reconcile(t, matchId, id => NewSoccerRow(id, matchId, cat, m, when, now), row => RefreshSoccerRow(row, m, now), StoredSoccerRow, fault)
  }

  /** An insert stores every normalised field of the record, each text
      column cut to its width. */
  lemma InsertStoresRecord(t: Table<SoccerRow>, cat: Category, m: Match, currentYear: nat, now: int, fault: DbFault)
    requires UpsertMatch(t, cat, m, currentYear, now, fault).result == Success(true)
    ensures var o := UpsertMatch(t, cat, m, currentYear, now, fault);
      var row := o.table.rows[ParseInt(m.id).value];
      && ParseInt(m.id).value !in t.rows && o.table.nextId == t.nextId + 1
      && row.id == t.nextId && row.matchId == Some(ParseInt(m.id).value)
      && row.leagueId == Some(LenientId(cat.id)) && row.leagueGid == Some(LenientId(cat.gid))
      && row.leagueName == VarcharValue(Some(cat.name), 255) && row.matchStatus == VarcharValue(Some(m.status), 50)
      && row.startDate == Some(SoccerSchedule(m, currentYear).value.date)
      && row.startTime == Some(SoccerSchedule(m, currentYear).value.time)
      && row.hTeamId == Some(LenientId(m.localTeam.id)) && row.aTeamId == Some(LenientId(m.visitorTeam.id))
      && row.hTeamName == VarcharValue(Some(m.localTeam.name), 255) && row.aTeamName == VarcharValue(Some(m.visitorTeam.name), 255)
      && row.hTeamGoals == ParseScore(m.localTeam.goals) && row.aTeamGoals == ParseScore(m.visitorTeam.goals)
      && row.htScore == VarcharValue(NullIfEmpty(m.ht.score), 10) && row.ftScore == VarcharValue(NullIfEmpty(m.ft.score), 10)
      && row.events == Some(StoredEvents(m.events))
      && row.createdAt == now && row.updatedAt == now
  {
  }

  /** An update rewrites only the volatile columns: league, teams, date, time,
      identity and creation time stay as they were. */
  lemma UpdateKeepsIdentity(t: Table<SoccerRow>, cat: Category, m: Match, currentYear: nat, now: int, fault: DbFault)
    requires UpsertMatch(t, cat, m, currentYear, now, fault).result == Success(false)
    ensures var key := ParseInt(m.id).value;
      var old_ := t.rows[key];
      var o := UpsertMatch(t, cat, m, currentYear, now, fault);
      var row := o.table.rows[key];
      && key in t.rows && o.table.nextId == t.nextId
      && row.id == old_.id && row.matchId == old_.matchId
      && row.leagueGid == old_.leagueGid && row.leagueId == old_.leagueId
      && row.startDate == old_.startDate && row.startTime == old_.startTime
      && row.hTeamId == old_.hTeamId && row.aTeamId == old_.aTeamId
      && row.leagueName == VarcharValue(old_.leagueName, 255)
      && row.hTeamName == VarcharValue(old_.hTeamName, 255) && row.aTeamName == VarcharValue(old_.aTeamName, 255)
      && row.createdAt == old_.createdAt
      && row.matchStatus == VarcharValue(Some(m.status), 50)
      && row.hTeamGoals == ParseScore(m.localTeam.goals) && row.aTeamGoals == ParseScore(m.visitorTeam.goals)
      && row.htScore == VarcharValue(NullIfEmpty(m.ht.score), 10) && row.ftScore == VarcharValue(NullIfEmpty(m.ft.score), 10)
      && row.events == Some(StoredEvents(m.events)) && row.updatedAt == now
  {
  }

  /** The table invariant of `soccer_matches`. */
  predicate SoccerTableOk(t: Table<SoccerRow>) {
    TableOk(t, SoccerId, SoccerKey, SoccerRowFits)
  }

  /** Every upsert keeps one row per `match_id`, fresh identities and column
      widths. */
  lemma UpsertKeepsTableOk(t: Table<SoccerRow>, cat: Category, m: Match, currentYear: nat, now: int, fault: DbFault)
    requires SoccerTableOk(t)
    ensures SoccerTableOk(UpsertMatch(t, cat, m, currentYear, now, fault).table)
  {
    if ParseInt(m.id).Some? && SoccerSchedule(m, currentYear).Success? {
      var matchId := ParseInt(m.id).value;
      var when := SoccerSchedule(m, currentYear).value;
      ReconcilePreservesOk(t, matchId, id => NewSoccerRow(id, matchId, cat, m, when, now), row => RefreshSoccerRow(row, m, now),
                           StoredSoccerRow, fault, SoccerId, SoccerKey, SoccerRowFits);
    }
  }

  /** Syncing the same record again (same data) finds the row, updates it,
      and leaves it as it was apart from `updated_at`. */
  lemma ResyncOnlyTouchesUpdatedAt(t: Table<SoccerRow>, cat: Category, m: Match, currentYear: nat, now: int, later: int)
    requires UpsertMatch(t, cat, m, currentYear, now, NoFault).result.Success?
    ensures var t1 := UpsertMatch(t, cat, m, currentYear, now, NoFault).table;
      var o2 := UpsertMatch(t1, cat, m, currentYear, later, NoFault);
      var key := ParseInt(m.id).value;
      && o2.result == Success(false)
      && o2.table == Table(t1.rows[key := t1.rows[key].(updatedAt := later)], t1.nextId)
  {
    var key := ParseInt(m.id).value;
    var t1 := UpsertMatch(t, cat, m, currentYear, now, NoFault).table;
    UpsertedRowCarriesRecord(t, cat, m, currentYear, now, NoFault);
    RefreshOfCurrentRow(t1.rows[key], m, later);
  }

  /** After a successful upsert the row holds the record's volatile columns,
      as stored, and fits its columns. */
  lemma UpsertedRowCarriesRecord(t: Table<SoccerRow>, cat: Category, m: Match, currentYear: nat, now: int, fault: DbFault)
    requires UpsertMatch(t, cat, m, currentYear, now, fault).result.Success?
    ensures var r := UpsertMatch(t, cat, m, currentYear, now, fault).table.rows[ParseInt(m.id).value];
      && SoccerRowFits(r)
      && r.matchStatus == VarcharValue(Some(m.status), 50)
      && r.hTeamGoals == ParseScore(m.localTeam.goals) && r.aTeamGoals == ParseScore(m.visitorTeam.goals)
      && r.htScore == VarcharValue(NullIfEmpty(m.ht.score), 10) && r.ftScore == VarcharValue(NullIfEmpty(m.ft.score), 10)
      && r.events == Some(StoredEvents(m.events)) && r.updatedAt == now
      && VarcharTakes(Some(m.status), 50)
      && VarcharTakes(NullIfEmpty(m.ht.score), 10) && VarcharTakes(NullIfEmpty(m.ft.score), 10)
  {
    var key := ParseInt(m.id).value;
    var when := SoccerSchedule(m, currentYear).value;
    var create := id => NewSoccerRow(id, key, cat, m, when, now);
    var refresh := row => RefreshSoccerRow(row, m, now);
    var o := Reconcile(t, key, create, refresh, StoredSoccerRow, fault);
    assert UpsertMatch(t, cat, m, currentYear, now, fault) == o;
    if key in t.rows {
      assert o.table.rows[key] == StoredSoccerRow(refresh(t.rows[key])).value;
    } else {
      assert o.table.rows[key] == StoredSoccerRow(create(t.nextId)).value;
    }
  }

  /** Refreshing a fitting row with the record it already holds changes only
      `updated_at`. */
  lemma RefreshOfCurrentRow(r: SoccerRow, m: Match, later: int)
    requires SoccerRowFits(r)
    requires r.matchStatus == VarcharValue(Some(m.status), 50)
    requires r.hTeamGoals == ParseScore(m.localTeam.goals) && r.aTeamGoals == ParseScore(m.visitorTeam.goals)
    requires r.htScore == VarcharValue(NullIfEmpty(m.ht.score), 10) && r.ftScore == VarcharValue(NullIfEmpty(m.ft.score), 10)
    requires r.events == Some(StoredEvents(m.events))
    requires VarcharTakes(Some(m.status), 50)
    requires VarcharTakes(NullIfEmpty(m.ht.score), 10) && VarcharTakes(NullIfEmpty(m.ft.score), 10)
    ensures StoredSoccerRow(RefreshSoccerRow(r, m, later)) == Some(r.(updatedAt := later))
  {
    var r2 := RefreshSoccerRow(r, m, later);
    assert VarcharTakes(r2.leagueName, 255) && VarcharTakes(r2.hTeamName, 255) && VarcharTakes(r2.aTeamName, 255);
    assert StoredSoccerRow(r2).Some?;
  }

  /** The (category, match) records of a soccer feed, in feed order. */
  function Records(cats: seq<Category>): seq<(Category, Match)> {
    Batch.Flatten(cats, (c: Category) => c.matches)
  }

  /** Every record of a run in order: today's, then the future days' when
      that fetch succeeded. */
  function RunRecords<E>(today: seq<Category>, future: Result<seq<Category>, E>): (xs: seq<(Category, Match)>)
    ensures |xs| == |Records(today)| + (if future.Success? then |Records(future.value)| else 0)
  {
    Records(today) + (if future.Success? then Records(future.value) else [])
  }

  /** The upsert of the record at a position in the run, with the database
      answer `faults` gives that position. */
  function Step(currentYear: nat, now: int, faults: nat -> DbFault): (Table<SoccerRow>, (nat, (Category, Match))) -> Outcome<SoccerRow> {
    (u: Table<SoccerRow>, x: (nat, (Category, Match))) => UpsertMatch(u, x.1.0, x.1.1, currentYear, now, faults(x.0))
  }

  /** `MatchSyncService.SyncMatches`. The database's answer to the n-th
      record of the run is the oracle `faults(n)`. */
  method SyncMatches<E>(t: Table<SoccerRow>, today: Result<seq<Category>, E>, future: Result<seq<Category>, E>,
                        currentYear: nat, now: int, faults: nat -> DbFault)
    returns (c: Batch.Cycle<SoccerRow>)
    ensures today.Failure? ==> c == Batch.TodayFailed(t)
    ensures today.Success? ==>
      c == Batch.Completed(Batch.Fold(t, Batch.Numbered(RunRecords(today.value, future), 0), Step(currentYear, now, faults)))
    ensures c.Completed? ==>
      c.tally.inserted + c.tally.updated + c.tally.skipped
        == |Records(today.value)| + (if future.Success? then |Records(future.value)| else 0)
    ensures c.Completed? && SoccerTableOk(t) ==> SoccerTableOk(c.tally.table)
  {
    var step := Step(currentYear, now, faults);
    if today.Failure? {
      return Batch.TodayFailed(t);
    }
    var first := Records(today.value);
    var todayRecords: Result<seq<(nat, (Category, Match))>, E> := Success(Batch.Numbered(first, 0));
    var futureRecords: Result<seq<(nat, (Category, Match))>, E> :=
      if future.Success? then Success(Batch.Numbered(Records(future.value), |first|)) else Failure(future.error);
    c := Batch.SyncRun(t, todayRecords, futureRecords, step);
    var xs := Batch.Numbered(RunRecords(today.value, future), 0);
    if future.Success? {
      Batch.NumberedAppend(first, Records(future.value));
    } else {
      assert first + [] == first;
    }
    assert Batch.RunRecords(todayRecords.value, futureRecords) == xs;
    if SoccerTableOk(t) {
      forall u: Table<SoccerRow>, x: (nat, (Category, Match)) | SoccerTableOk(u)
        ensures SoccerTableOk(step(u, x).table)
      {
        UpsertKeepsTableOk(u, x.1.0, x.1.1, currentYear, now, faults(x.0));
      }
      Batch.FoldPreserves(t, xs, step, SoccerTableOk);
    }
  }
}

=== FILE: sorting.dfy ===
/** Ordering of query results: a sort over a total preorder (an SQL
    `ORDER BY` whose ties may come back in any order), and the
    `LIMIT`/`OFFSET` window. */
module Sorting {
  ghost predicate Total<X(!new)>(le: (X, X) -> bool) {
    forall a, b :: le(a, b) || le(b, a)
  }

  ghost predicate Transitive<X(!new)>(le: (X, X) -> bool) {
    forall a, b, c :: le(a, b) && le(b, c) ==> le(a, c)
  }

  predicate Sorted<X>(s: seq<X>, le: (X, X) -> bool) {
    forall i, j :: 0 <= i < j < |s| ==> le(s[i], s[j])
  }

  /** Inserts `x` into a sorted sequence before the first element it may
      precede. */
  function Insert<X(!new)>(x: X, s: seq<X>, le: (X, X) -> bool): (r: seq<X>)
    requires Total(le) && Transitive(le) && Sorted(s, le)
    ensures Sorted(r, le)
    ensures multiset(r) == multiset(s) + multiset{x}
    ensures forall i :: 0 <= i < |r| ==> r[i] == x || r[i] in s
  {
    if s == [] then [x]
    else if le(x, s[0]) then [x] + s
    else
      var rest := Insert(x, s[1..], le);
      assert s == [s[0]] + s[1..];
      assert forall y :: y in s[1..] ==> le(s[0], y);
      [s[0]] + rest
  }

  /** Insertion sort: a sorted permutation of `s`. */
  function Sort<X(!new)>(s: seq<X>, le: (X, X) -> bool): (r: seq<X>)
    requires Total(le) && Transitive(le)
    ensures Sorted(r, le)
    ensures multiset(r) == multiset(s)
  {
    if s == [] then []
    else
      assert s == [s[0]] + s[1..];
      Insert(s[0], Sort(s[1..], le), le)
  }

  /** `ORDER BY ... LIMIT limit OFFSET offset`: the window of the ordered
      rows that starts at `offset` and holds at most `limit` of them. */
  function Window<X>(s: seq<X>, offset: nat, limit: nat): (r: seq<X>)
    ensures |r| == if offset >= |s| then 0 else if |s| - offset < limit then |s| - offset else limit
    ensures forall i :: 0 <= i < |r| ==> r[i] == s[offset + i]
  {
    var lo := if offset <= |s| then offset else |s|;
    var hi := if offset + limit <= |s| then offset + limit else |s|;
    s[lo..hi]
  }

  /** Consecutive windows of one ordering neither overlap nor skip a row. */
  lemma WindowsTile<X>(s: seq<X>, offset: nat, a: nat, b: nat)
    ensures Window(s, offset, a) + Window(s, offset + a, b) == Window(s, offset, a + b)
  {
  }

  /** Lexicographic order on integer sort keys. */
  predicate LexLe(a: seq<int>, b: seq<int>)
    decreases |a|
  {
    |a| == 0 || (|b| > 0 && (a[0] < b[0] || (a[0] == b[0] && LexLe(a[1..], b[1..]))))
  }

  lemma {:induction false} LexTotal(a: seq<int>, b: seq<int>)
    requires |a| == |b|
    ensures LexLe(a, b) || LexLe(b, a)
    decreases |a|
  {
    if |a| > 0 && a[0] == b[0] {
      LexTotal(a[1..], b[1..]);
    }
  }

  lemma {:induction false} LexTransitive(a: seq<int>, b: seq<int>, c: seq<int>)
    requires LexLe(a, b) && LexLe(b, c)
    ensures LexLe(a, c)
    decreases |a|
  {
    if |a| > 0 && a[0] == b[0] && b[0] == c[0] {
      LexTransitive(a[1..], b[1..], c[1..]);
    }
  }

  /** A sort key of the same width for every row. */
  ghost predicate FixedWidth<X(!new)>(key: X -> seq<int>) {
    forall a, b :: |key(a)| == |key(b)|
  }

  /** The order `ORDER BY` imposes when each row is reduced to its key. */
  function KeyOrder<X>(key: X -> seq<int>): (X, X) -> bool {
    (a, b) => LexLe(key(a), key(b))
  }

  lemma KeyOrderIsPreorder<X(!new)>(key: X -> seq<int>)
    requires FixedWidth(key)
    ensures Total(KeyOrder(key)) && Transitive(KeyOrder(key))
  {
    forall a, b ensures KeyOrder(key)(a, b) || KeyOrder(key)(b, a) {
      LexTotal(key(a), key(b));
    }
    forall a, b, c | KeyOrder(key)(a, b) && KeyOrder(key)(b, c) ensures KeyOrder(key)(a, c) {
      LexTransitive(key(a), key(b), key(c));
    }
  }

  /** `ORDER BY` on a key: a permutation of the rows, ordered by key. */
  function SortBy<X(!new)>(s: seq<X>, key: X -> seq<int>): (r: seq<X>)
    requires FixedWidth(key)
    ensures Sorted(r, KeyOrder(key))
    ensures multiset(r) == multiset(s)
  {
    KeyOrderIsPreorder(key);
    Sort(s, KeyOrder(key))
  }

  /** Keys that agree before position `k` and differ at `k` are ordered by
      that position alone. */
  lemma {:induction false} LexStrictAt(a: seq<int>, b: seq<int>, k: nat)
    requires |a| == |b| && k < |a| && a[..k] == b[..k] && a[k] < b[k]
    ensures LexLe(a, b) && !LexLe(b, a)
    decreases k
  {
    if k > 0 {
      assert a[0] == a[..k][0] == b[..k][0] == b[0];
      assert a[1..][..k - 1] == a[1..k] == b[1..k] == b[1..][..k - 1] by {
        assert a[1..k] == a[..k][1..] && b[1..k] == b[..k][1..];
      }
      LexStrictAt(a[1..], b[1..], k - 1);
    }
  }
}

=== FILE: store.dfy ===
/** A match table keyed by the unique upstream `match_id`, and the
    insert-or-update rule both sync services apply to it. */
module Store {
  import opened Wrappers

  /** Rows by `match_id` (the column is unique, so at most one row per key);
      `nextId` is the next value of the generated identity column. */
  datatype Table<R> = Table(rows: map<int, R>, nextId: int)

  /** What the database does to one upsert: nothing goes wrong, the existence
      lookup fails, or the insert/update statement fails before it runs (a
      lost connection, say). A statement that runs and breaks a column
      constraint is not a fault: the table's `store` decides that. */
  datatype DbFault = NoFault | LookupFault | WriteFault

  /** Why one record was skipped. */
  datatype UpsertError =
    | InvalidMatchId
    | MissingSchedule
    | InvalidDate
    | InvalidTime
    | LookupFailed
    | InsertFailed
    | UpdateFailed

  /** The table after one upsert and its result: `true` for an insert, `false`
      for an update. */
  datatype Outcome<R> = Outcome(table: Table<R>, result: Result<bool, UpsertError>)

  /** Look the key up; absent: insert `create` of the next identity value;
      present: replace the row by `refresh` of it. `store` is what the
      database makes of a written row: the row it keeps, or `None` when a
      column refuses its value. A refused value is caught while the statement
      is planned with its bound parameters, before the identity default is
      evaluated, so only an insert that stores its row draws an identity
      value; a failed step leaves the table as it was. */
  function Reconcile<R>(t: Table<R>, key: int, create: int -> R, refresh: R -> R, store: R -> Option<R>, fault: DbFault): (o: Outcome<R>)
    ensures o.result.Failure? ==> o.table == t
    ensures o.table.nextId == (if o.result == Success(true) then t.nextId + 1 else t.nextId)
    ensures fault == LookupFault ==> o.result == Failure(LookupFailed)
    ensures fault == WriteFault ==> o.result.Failure?
    ensures o.result == Success(true) <==> key !in t.rows && fault == NoFault && store(create(t.nextId)).Some?
    ensures o.result == Success(false) <==> key in t.rows && fault == NoFault && store(refresh(t.rows[key])).Some?
    ensures o.result == Success(true) ==> o.table.rows == t.rows[key := store(create(t.nextId)).value]
    ensures o.result == Success(false) ==> o.table.rows == t.rows[key := store(refresh(t.rows[key])).value]
  {
    if fault.LookupFault? then Outcome(t, Failure(LookupFailed))
    else if key !in t.rows then
      if fault.WriteFault? then Outcome(t, Failure(InsertFailed))
      else
        match store(create(t.nextId))
        case None => Outcome(t, Failure(InsertFailed))
        case Some(row) => Outcome(Table(t.rows[key := row], t.nextId + 1), Success(true))
    else
      if fault.WriteFault? then Outcome(t, Failure(UpdateFailed))
      else
        match store(refresh(t.rows[key]))
        case None => Outcome(t, Failure(UpdateFailed))
        case Some(row) => Outcome(Table(t.rows[key := row], t.nextId), Success(false))
  }

  /** The table's constraints: each row is stored under its own `match_id`,
      has an identity below `nextId` that no other row shares, and fits its
      columns. */
  predicate TableOk<R>(t: Table<R>, idOf: R -> int, keyOf: R -> Option<int>, fits: R -> bool) {
    && 1 <= t.nextId
    && (forall k :: k in t.rows ==> keyOf(t.rows[k]) == Some(k) && 1 <= idOf(t.rows[k]) < t.nextId && fits(t.rows[k]))
    && (forall k1, k2 :: k1 in t.rows && k2 in t.rows && k1 != k2 ==> idOf(t.rows[k1]) != idOf(t.rows[k2]))
  }

  /** The empty table (identity starts at 1) satisfies the constraints. */
  lemma EmptyTableOk<R>(idOf: R -> int, keyOf: R -> Option<int>, fits: R -> bool)
    ensures TableOk(Table(map[], 1), idOf, keyOf, fits)
  {
  }

  /** An upsert keeps the constraints when the stored new row carries the key
      and the next identity, storing a refreshed row keeps its key and
      identity, and every stored row fits. */
  lemma ReconcilePreservesOk<R>(t: Table<R>, key: int, create: int -> R, refresh: R -> R, store: R -> Option<R>, fault: DbFault,
                                idOf: R -> int, keyOf: R -> Option<int>, fits: R -> bool)
    requires TableOk(t, idOf, keyOf, fits)
    requires store(create(t.nextId)).Some? ==>
      var r := store(create(t.nextId)).value;
      keyOf(r) == Some(key) && idOf(r) == t.nextId && fits(r)
    requires key in t.rows && store(refresh(t.rows[key])).Some? ==>
      var r := store(refresh(t.rows[key])).value;
      keyOf(r) == keyOf(t.rows[key]) && idOf(r) == idOf(t.rows[key]) && fits(r)
    ensures TableOk(Reconcile(t, key, create, refresh, store, fault).table, idOf, keyOf, fits)
  {
    var o := Reconcile(t, key, create, refresh, store, fault);
    if o.result == Success(true) {
      forall k | k in o.table.rows
        ensures keyOf(o.table.rows[k]) == Some(k) && 1 <= idOf(o.table.rows[k]) < o.table.nextId && fits(o.table.rows[k])
      {
        if k != key {
          assert o.table.rows[k] == t.rows[k];
        }
      }
      forall k1, k2 | k1 in o.table.rows && k2 in o.table.rows && k1 != k2
        ensures idOf(o.table.rows[k1]) != idOf(o.table.rows[k2])
      {
        if k1 != key && k2 != key {
          assert o.table.rows[k1] == t.rows[k1] && o.table.rows[k2] == t.rows[k2];
        }
      }
    } else if o.result == Success(false) {
      forall k | k in o.table.rows
        ensures keyOf(o.table.rows[k]) == Some(k) && 1 <= idOf(o.table.rows[k]) < o.table.nextId && fits(o.table.rows[k])
      {
        if k != key {
          assert o.table.rows[k] == t.rows[k];
        }
      }
      forall k1, k2 | k1 in o.table.rows && k2 in o.table.rows && k1 != k2
        ensures idOf(o.table.rows[k1]) != idOf(o.table.rows[k2])
      {
        if k1 == key {
          assert o.table.rows[k2] == t.rows[k2];
        } else if k2 == key {
          assert o.table.rows[k1] == t.rows[k1];
        } else {
          assert o.table.rows[k1] == t.rows[k1] && o.table.rows[k2] == t.rows[k2];
        }
      }
    } else {
      assert o.table.rows == t.rows;
    }
  }

  /** Once a key has been stored, a later upsert of it never inserts again: it
      updates or fails, so one upstream match never gets two rows. */
  lemma {:induction false} StoredKeyNeverReinserted<R>(t: Table<R>, key: int, create: int -> R, refresh: R -> R, store: R -> Option<R>,
                                                       fault: DbFault, create2: int -> R, refresh2: R -> R, fault2: DbFault)
    requires Reconcile(t, key, create, refresh, store, fault).result.Success?
    ensures Reconcile(Reconcile(t, key, create, refresh, store, fault).table, key, create2, refresh2, store, fault2).result != Success(true)
  {
    var o := Reconcile(t, key, create, refresh, store, fault);
    assert key in o.table.rows;
  }

  /** A refused insert draws no identity value: the next row inserted is
      created from the same value. */
  lemma RefusedInsertSpendsNoIdentity<R>(t: Table<R>, key: int, create: int -> R, refresh: R -> R, store: R -> Option<R>,
                                         key2: int, create2: int -> R, refresh2: R -> R)
    requires key !in t.rows && store(create(t.nextId)).None?
    requires key2 !in t.rows && store(create2(t.nextId)).Some?
    ensures var o := Reconcile(t, key, create, refresh, store, NoFault);
      && o == Outcome(t, Failure(InsertFailed))
      && Reconcile(o.table, key2, create2, refresh2, store, NoFault)
         == Outcome(Table(t.rows[key2 := store(create2(t.nextId)).value], t.nextId + 1), Success(true))
  {
  }
}

=== FILE: text.dfy ===
/** Text helpers standing in for the parts of Go's `strconv` and `strings`
    packages that the core uses: decimal integer parsing and formatting,
    ASCII whitespace trimming, splitting on one separator and joining. */
module Text {
  import opened Wrappers

  const Int64Min: int := -0x8000_0000_0000_0000
  const Int64Max: int := 0x7fff_ffff_ffff_ffff
  const Int32Min: int := -0x8000_0000
  const Int32Max: int := 0x7fff_ffff

  predicate IsDigit(c: char) {
    '0' <= c <= '9'
  }

  function DigitValue(c: char): nat
    requires IsDigit(c)
  {
    (c as int) - ('0' as int)
  }

  function DigitChar(d: nat): (c: char)
    requires d < 10
    ensures IsDigit(c) && DigitValue(c) == d
  {
    ('0' as int + d) as char
  }

  predicate AllDigits(s: string) {
    forall i :: 0 <= i < |s| ==> IsDigit(s[i])
  }

  /** The value of a string of decimal digits, most significant first. */
  function DigitsValue(s: string): nat
    requires AllDigits(s)
  {
    if |s| == 0 then 0 else DigitsValue(s[..|s| - 1]) * 10 + DigitValue(s[|s| - 1])
  }

  /** Decimal text of a natural number, without leading zeros (`strconv.Itoa`). */
  function FormatNat(n: nat): (s: string)
    ensures |s| >= 1 && AllDigits(s)
    ensures DigitsValue(s) == n
    ensures n < 10 <==> |s| == 1
  {
    if n < 10 then [DigitChar(n)]
    else
      var s := FormatNat(n / 10) + [DigitChar(n % 10)];
      assert s[..|s| - 1] == FormatNat(n / 10);
      s
  }

  /** `strconv.FormatInt(n, 10)` / `fmt.Sprintf("%d", n)`. */
  function FormatInt(n: int): string {
    if n < 0 then "-" + FormatNat(-n) else FormatNat(n)
  }

  /** Removes one optional leading sign, as `strconv.ParseInt` does. */
  function SplitSign(s: string): (bool, string)
    requires |s| > 0
  {
    if s[0] == '-' then (true, s[1..])
    else if s[0] == '+' then (false, s[1..])
    else (false, s)
  }

  /** `strconv.ParseInt(s, 10, 64)`: an optional sign, then one or more decimal
      digits, and the value must fit in 64 signed bits. `strconv.Atoi` behaves
      the same on the 64-bit platforms the service targets. */
  function ParseInt(s: string): (r: Option<int>)
    ensures r.Some? ==> Int64Min <= r.value <= Int64Max
    ensures r.Some? ==> s != "" && exists i :: 0 <= i < |s| && IsDigit(s[i])
    ensures |s| > 0 && !IsDigit(s[0]) && s[0] != '-' && s[0] != '+' ==> r.None?
  {
    if |s| == 0 then None
    else
      var (neg, digits) := SplitSign(s);
      if |digits| == 0 || !AllDigits(digits) then None
      else
        assert IsDigit(s[|s| - 1]);
        var mag: int := DigitsValue(digits);
        var v := if neg then -mag else mag;
        if Int64Min <= v <= Int64Max then Some(v) else None
  }

  const Uint64Max: int := 0xffff_ffff_ffff_ffff

  /** The longest prefix of decimal digits: the part of a number that
      `strconv.ParseUint` has scanned when it meets the first other
      character. */
  function DigitPrefix(s: string): (p: string)
    ensures AllDigits(p) && |p| <= |s| && p == s[..|p|]
    ensures |p| < |s| ==> !IsDigit(s[|p|])
  {
    if |s| > 0 && IsDigit(s[0]) then [s[0]] + DigitPrefix(s[1..]) else []
  }

  /** Digits only: the digit prefix is the whole text. */
  lemma DigitPrefixAll(s: string)
    requires AllDigits(s)
    ensures DigitPrefix(s) == s
  {
    var p := DigitPrefix(s);
    if |p| < |s| {
      assert false;
    }
  }

  /** Appending digits never lowers a decimal value. */
  lemma {:induction false} DigitsValueGrows(d: string, q: string)
    requires AllDigits(d) && AllDigits(q)
    ensures AllDigits(d + q) && DigitsValue(d + q) >= DigitsValue(d)
    decreases |q|
  {
    if q != [] {
      var q' := q[..|q| - 1];
      assert (d + q)[..|d + q| - 1] == d + q';
      DigitsValueGrows(d, q');
    } else {
      assert d + q == d;
    }
  }

  /** A run of digits in front of anything else stays in the digit prefix. */
  lemma {:induction false} DigitPrefixAppend(d: string, rest: string)
    requires AllDigits(d)
    ensures DigitPrefix(d + rest) == d + DigitPrefix(rest)
    decreases |d|
  {
    if d == [] {
      assert d + rest == rest;
    } else {
      var tail := d[1..];
      DigitPrefixAppend(tail, rest);
      DigitPrefixCons(d[0], tail + rest);
      HeadTail(d, rest);
      HeadTail(d, DigitPrefix(rest));
    }
  }

  lemma HeadTail<T>(d: seq<T>, x: seq<T>)
    requires |d| > 0
    ensures [d[0]] + (d[1..] + x) == d + x
  {
    assert d == [d[0]] + d[1..];
  }

  lemma DigitPrefixCons(c: char, s: string)
    requires IsDigit(c)
    ensures DigitPrefix([c] + s) == [c] + DigitPrefix(s)
  {
    assert ([c] + s)[1..] == s;
  }

  lemma {:induction false} ParseFormatRoundTrip(n: int)
    requires Int64Min <= n <= Int64Max
    ensures ParseInt(FormatInt(n)) == Some(n)
  {
    var s := FormatInt(n);
    if n < 0 {
      var d := FormatNat(-n);
      assert s == "-" + d;
      assert SplitSign(s) == (true, d);
    } else {
      var d := FormatNat(n);
      assert s == d;
      assert IsDigit(d[0]);
      assert SplitSign(s) == (false, d);
    }
  }

  lemma {:induction false} FormatNatInjective(a: nat, b: nat)
    requires FormatNat(a) == FormatNat(b)
    ensures a == b
  {
    assert DigitsValue(FormatNat(a)) == a;
  }

  /** Go's `int32(x)` conversion: keeps the low 32 bits, two's complement. */
  function WrapInt32(n: int): (r: int)
    ensures Int32Min <= r <= Int32Max
    ensures (r - n) % 0x1_0000_0000 == 0
    ensures Int32Min <= n <= Int32Max ==> r == n
  {
    var m := n % 0x1_0000_0000;
    if m > Int32Max then m - 0x1_0000_0000 else m
  }

  /** Go's `a / b` on integers truncates toward zero; Dafny's is Euclidean. */
  function GoDiv(a: int, b: int): (q: int)
    requires b > 0
    ensures a >= 0 ==> q * b <= a < (q + 1) * b
    ensures a < 0 ==> (q - 1) * b < a <= q * b
  {
    if a >= 0 then a / b else -((-a) / b)
  }

  /** The whitespace `strings.TrimSpace` removes, restricted to ASCII. */
  predicate IsSpace(c: char) {
    c == ' ' || c == '\t' || c == '\n' || c == '\r' || c == '\U{B}' || c == '\U{C}'
  }

  function TrimLeft(s: string): (r: string)
    ensures |r| <= |s| && r == s[|s| - |r|..]
    ensures forall i :: 0 <= i < |s| - |r| ==> IsSpace(s[i])
    ensures |r| > 0 ==> !IsSpace(r[0])
  {
    if |s| > 0 && IsSpace(s[0]) then TrimLeft(s[1..]) else s
  }

  function TrimRight(s: string): (r: string)
    ensures |r| <= |s| && r == s[..|r|]
    ensures forall i :: |r| <= i < |s| ==> IsSpace(s[i])
    ensures |r| > 0 ==> !IsSpace(r[|r| - 1])
  {
    if |s| > 0 && IsSpace(s[|s| - 1]) then TrimRight(s[..|s| - 1]) else s
  }

  /** `strings.TrimSpace`: the longest infix with no leading or trailing whitespace. */
  function Trim(s: string): (r: string)
    ensures exists i, j ::
              && 0 <= i <= j <= |s| && r == s[i..j]
              && (forall k :: 0 <= k < i ==> IsSpace(s[k]))
              && (forall k :: j <= k < |s| ==> IsSpace(s[k]))
    ensures |r| > 0 ==> !IsSpace(r[0]) && !IsSpace(r[|r| - 1])
  {
    var l := TrimLeft(s);
    var r := TrimRight(l);
    var i := |s| - |l|;
    assert r == s[i..i + |r|];
    r
  }

  /** The first position of `c` in `s`. */
  function IndexOf(s: string, c: char): (i: nat)
    requires c in s
    ensures i < |s| && s[i] == c && c !in s[..i]
  {
    if s[0] == c then 0 else
      assert c in s[1..];
      var j := IndexOf(s[1..], c);
      assert s[1..][..j] == s[1..j + 1];
      1 + j
  }

  /** `strings.Join(parts, sep)`. */
  function Join(parts: seq<string>, sep: string): string {
    if |parts| == 0 then ""
    else if |parts| == 1 then parts[0]
    else parts[0] + sep + Join(parts[1..], sep)
  }

  /** `strings.Split(s, string([sep]))`: one more piece than there are
      separators, none containing the separator, and joining them back with the
      separator gives `s` again. */
  function Split(s: string, sep: char): (parts: seq<string>)
    ensures |parts| >= 1
    ensures forall i :: 0 <= i < |parts| ==> sep !in parts[i]
    ensures Join(parts, [sep]) == s
    decreases |s|
  {
    if sep !in s then [s]
    else
      var i := IndexOf(s, sep);
      var rest := Split(s[i + 1..], sep);
      assert s == s[..i] + [sep] + s[i + 1..];
      [s[..i]] + rest
  }

  /** Number of occurrences of `c` in `s`. */
  function Count(s: string, c: char): nat {
    if |s| == 0 then 0 else (if s[0] == c then 1 else 0) + Count(s[1..], c)
  }

  lemma {:induction false} CountAppend(a: string, b: string, c: char)
    ensures Count(a + b, c) == Count(a, c) + Count(b, c)
  {
    if |a| == 0 {
      assert a + b == b;
    } else {
      assert (a + b)[1..] == a[1..] + b;
      CountAppend(a[1..], b, c);
    }
  }

  lemma {:induction false} CountAbsent(s: string, c: char)
    requires c !in s
    ensures Count(s, c) == 0
  {
    if |s| > 0 {
      assert c !in s[1..];
      CountAbsent(s[1..], c);
    }
  }

  /** `strings.Split` yields exactly one more piece than there are separators. */
  lemma {:induction false} SplitCount(s: string, sep: char)
    ensures |Split(s, sep)| == Count(s, sep) + 1
    decreases |s|
  {
    if sep !in s {
      CountAbsent(s, sep);
    } else {
      var i := IndexOf(s, sep);
      SplitCount(s[i + 1..], sep);
      assert s == s[..i] + ([sep] + s[i + 1..]);
      CountAppend(s[..i], [sep] + s[i + 1..], sep);
      CountAppend([sep], s[i + 1..], sep);
      CountAbsent(s[..i], sep);
      assert Count([sep], sep) == 1 by {
        assert [sep][1..] == [];
      }
    }
  }

  /** Splitting at the first separator: the piece before it, then the
      split of the rest. */
  lemma SplitAtFirst(a: string, b: string, sep: char)
    requires sep !in a
    ensures Split(a + [sep] + b, sep) == [a] + Split(b, sep)
  {
    var s := a + [sep] + b;
    assert s[|a|] == sep;
    var i := IndexOf(s, sep);
    assert s[..|a|] == a;
    assert forall k :: 0 <= k < |a| ==> s[k] == a[k];
    assert i == |a| by {
      assert i <= |a| by {
        assert |a| < |s| && s[|a|] == sep;
        assert forall k :: 0 <= k < i ==> s[..i][k] == s[k];
      }
    }
    assert s[..i] == a && s[i + 1..] == b;
  }

  /** Trimming leaves text without surrounding whitespace alone, and drops
      one leading space. */
  lemma TrimmedWord(w: string)
    requires |w| > 0 && !IsSpace(w[0]) && !IsSpace(w[|w| - 1])
    ensures Trim(w) == w && Trim(" " + w) == w
  {
    assert (" " + w)[1..] == w;
  }
}

=== FILE: wrappers.dfy ===
/** Failure-compatible wrappers shared by every module: `Option` stands for the
    nullable `sql.Null*` columns and Go's `(value, ok)` pairs, `Result` for the
    `(value, error)` returns of the source. */
module Wrappers {

  datatype Option<+T> = None | Some(value: T) {

    predicate IsFailure() {
      None?
    }

    function PropagateFailure<U>(): Option<U>
      requires None?
    {
      None
    }

    function Extract(): T
      requires Some?
    {
      value
    }

    /** The value, or `default` when absent (Go's zero-value-on-failure idiom). */
    function GetOr(default: T): T {
      match this
      case Some(v) => v
      case None => default
    }
  }

  datatype Result<+R, +E> = Success(value: R) | Failure(error: E) {

    predicate IsFailure() {
      Failure?
    }

    function PropagateFailure<U>(): Result<U, E>
      requires Failure?
    {
      Failure(error)
    }

    function Extract(): R
      requires Success?
    {
      value
    }

    function ToOption(): Option<R> {
      match this
      case Success(v) => Some(v)
      case Failure(_) => None
    }
  }
}
